=== FILE: README.md ===
# Go-MCC server core, modelled in Dafny

This project models the core of Go-MCC, a server for the Minecraft Classic
protocol and its CPE (Classic Protocol Extension) extensions. It covers:

- **the per-client session** (`gomcc/client.go`):
  - the read loop that cuts the byte stream into frames by opcode;
  - the decoding of the seven client packets;
  - the identification, extension handshake and login sequence with its admission limit;
  - the block-edit reach check;
  - position updates;
  - chat assembly with the LongerMessages extension;
  - disconnect and kick;
  - every packet the server sends to one client, including the chunked level transfer.
- **entities** (`gomcc/entity.go`): model and player-list changes, teleports
  within and between levels, and the movement broadcast. A movement is sent as
  a teleport, a move-and-turn, a move or a turn.
- **the `.lvl` level format** (`gomcc/lvlstorage.go`): an 18-byte big-endian
  header with version 1874, then one byte per block in y, z, x order.
- **commands and ranks** (`mcc/command.go`): colour codes, the permission
  bitmask with per-command rules, the default rank's block permissions, and the
  usage line.
- **the moderation commands** (`core/moderation.go`): `ban`, `banip`, `kick`,
  `rank`, `unban` and `unbanip`.

Everything is pure: a handler takes the session and the server's shared counters and gives back new ones together with a list of effects. An effect is a packet sent, a broadcast, an event fired, a world edit, or a panic where Go would panic.

- Go's fixed-width integers are written out explicitly. This covers `uint` wrap-around, `int16` truncation and sign extension, and float-to-integer truncation toward zero.
- Floating-point values are Dafny reals.
- What the code does not decide itself becomes a parameter:
  - MD5;
  - gzip;
  - event listeners' cancellation;
  - the entity registry's id;
  - the level's blocks;
  - `net.ParseIP`.
- The moderation stores are maps and sets.

Modules, one per file:

| module | file | models |
|---|---|---|
| `Wire` | wire.dfy | fixed-width integers and big-endian fields |
| `Optional` | option.dfy | an option type |
| `Text` | text.dfy | protocol string trimming, `strings.Split`, `SplitN(s, " ", 2)` and `Fields` |
| `Validation` | validation.dfy | name and message validation, permission matching |
| `Commands` | command.dfy | `mcc/command.go` |
| `Geometry` | geometry.dfy | locations; fixed-point and angle-byte conversions |
| `Framing` | framing.dfy | the read loop's framing |
| `Inbound` | inbound.dfy | client packets and their decoding |
| `Sessions` | session.dfy | session and server state, sending, disconnect, kick, login |
| `Outbound` | outbound.dfy | the server-to-client packets |
| `Handlers` | handlers.dfy | the packet handlers, the dispatch loop and the handshake |
| `Entities` | entity.dfy | `gomcc/entity.go` |
| `LvlStorage` | lvlstorage.dfy | `gomcc/lvlstorage.go` |
| `Moderation` | moderation.dfy | `core/moderation.go` |

`gomcc/entity.go` comes from a different revision of the code than `gomcc/client.go`: its client has no `state` and its method names differ. `Entities` therefore models that file on its own terms, with the receivers of each broadcast as sets of client ids. `Sessions` and `Outbound` model the avatar that `client.go` itself keeps.

Two behaviours of the code worth knowing:

- **Unknown opcode.** The read loop skips a single byte when it reads an unknown opcode and reads on (`gomcc/client.go:191-193`). It does not end the session.
- **Vetoed join.** A join that a listener vetoes keeps its admission slot (`gomcc/client.go:235-267`). The model has this as-written behaviour, and also the corrected one under Findings.

## Model

| member | source | states |
|---|---|---|
| Wire.DecUint64 | gomcc/client.go:478 | `RemainingExtensions--` on a `uint` wraps from 0 to 2^64-1, and otherwise subtracts one |
| Wire.Int16ToUint | gomcc/client.go:341 | `uint(int16)` keeps non-negative values, sends negative ones to the top 32768 values of 2^64, and is zero only for zero |
| Wire.ToInt16 | gomcc/client.go:689-699 | `int16(x)` lies in [-32768, 32768), agrees with x modulo 2^16, and is x whenever x already fits |
| Wire.BE16 | gomcc/lvlstorage.go:26-32 | a 16-bit field is two big-endian bytes whose value is the field |
| Wire.FromBE16 | gomcc/lvlstorage.go:61 | decoding two bytes and encoding again gives the same two bytes |
| Wire.BE32 | gomcc/client.go:465-471 | a 32-bit field is four big-endian bytes holding the value modulo 2^32 |
| Wire.Trunc | gomcc/client.go:344-346 | Go's float-to-integer conversion rounds toward zero: within one below a non-negative value, within one above a negative one |
| Text.TrimString | gomcc/client.go:435 | trimming the padding gives a prefix of the field that does not end in a space, and everything cut off is spaces |
| Text.AllSpacesTrimToEmpty | gomcc/client.go:435-443 | a chat field of only spaces trims to the empty message |
| Text.Split | gomcc/client.go:134-147 | `strings.Split` on `.` gives at least one part and no part holds a `.` |
| Text.SplitJoin | gomcc/client.go:134-147 | joining the parts of a split gives back the permission string |
| Text.JoinSplit | gomcc/client.go:134-147 | splitting separator-free parts joined with the separator gives back the parts |
| Text.SplitN2 | core/moderation.go:40 | `SplitN(s, " ", 2)` gives one part exactly when there is no space, and otherwise the text before the first space and everything after it |
| Text.Fields | core/moderation.go:133 | `strings.Fields` gives only non-empty words holding no `unicode.IsSpace` white space, and gives no word at all exactly when the text is all white space |
| Text.FieldsOfJoin | core/moderation.go:172-176 | words joined by single spaces come back out of `Fields` unchanged |
| Text.FieldsOfInterleave | core/moderation.go:133 | words laid out with any non-empty runs of white space between them, and optional runs before and after, come back out of `Fields` unchanged |
| Validation.IsValidName | gomcc/client.go:54-66 | a name is valid iff it is 3 to 16 characters, each an ASCII letter, digit or underscore |
| Validation.IsValidMessage | gomcc/client.go:68-76 | a message is valid iff every character is printable ASCII other than `&` |
| Validation.EmptyMessageIsValid | gomcc/client.go:68-76 | the empty message passes validation |
| Validation.CheckPermission | gomcc/client.go:120-132 | a template grants a split permission iff a `*` segment is reached after all earlier segments matched, or the two paths are equal |
| Validation.HasPermission | gomcc/client.go:134-147 | the empty permission is always held; otherwise it is held iff some template grants its dot-split path |
| Validation.WildcardNeedsTail | gomcc/client.go:120-132 | `core.*` grants `core.ban` and `core.ban.ip` but not `core` |
| Validation.WildcardGrantsExtensions | gomcc/client.go:120-132 | a template `prefix.*` grants every path that extends the prefix by at least one segment |
| Commands.ColorCodes | mcc/command.go:3-22 | colour i is `&` followed by lower-case hex digit i, and the default colour is white |
| Commands.CanExecute | mcc/command.go:94-101 | a per-command rule decides when present; otherwise the rank's mask must contain the command's mask |
| Commands.MaskCovered | mcc/command.go:100 | `(mask & held) == mask` holds iff every bit set in mask is set in held |
| Commands.CanExecuteByBits | mcc/command.go:94-101 | without a rule, a rank may run a command iff it holds every permission bit the command asks for |
| Commands.EmptyMaskAlwaysAllowed | mcc/command.go:94-101 | a command asking for no bit is open to every rank without a rule for it |
| Commands.DefaultRank | mcc/command.go:104-117 | the default rank may place every block but bedrock, water and lava, and break every block but bedrock |
| Commands.PrintUsage | mcc/command.go:79-81 | the usage line is `Usage: ` followed by exactly the command's usage text |
| Geometry.ToFixed | gomcc/client.go:668-687 | a coordinate in 1/32 units is the largest step toward zero not past it |
| Geometry.ToAngle | gomcc/client.go:668-687 | an angle in 1/256 turns is the largest step toward zero not past it |
| Geometry.FixedRoundTrip | gomcc/client.go:394-425 | every fixed-point coordinate survives the trip to world units and back |
| Geometry.AngleRoundTrip | gomcc/client.go:394-425 | every angle byte survives the trip to degrees and back |
| Geometry.WireLocationRoundTrip | gomcc/client.go:394-425 | the location a position packet describes re-encodes to that packet's five fields |
| Geometry.EncodePose | gomcc/client.go:628-643 | an outbound pose holds `int16` coordinates and angle bytes, each agreeing with the truncated fixed-point or angle value modulo its width |
| Geometry.EncodeWireLocation | gomcc/client.go:681-685 | the pose a position packet describes is sent back out as exactly that packet's five fields |
| Framing.FrameSizesMatchLayouts | gomcc/client.go:175-201 | the seven known opcodes have frame sizes 131, 9, 10, 66, 67, 69 and 2, each the size of that packet's field layout; every other opcode has none |
| Framing.TokenizeCoversStream | gomcc/client.go:162-221 | the read loop's turns cover the stream exactly: whole frames, single skipped bytes for unknown opcodes, and a truncated frame only at the end |
| Framing.ReadLoop | gomcc/client.go:162-221 | the loop over the stream produces exactly those turns |
| Inbound.Decode | gomcc/client.go:290-491 | every frame decodes to a packet whose numeric fields fit their signed widths, with 64-character string fields |
| Inbound.I16RoundTrip | gomcc/client.go:339-341 | a signed 16-bit field survives encoding and decoding |
| Inbound.I32RoundTrip | gomcc/client.go:465-471 | a signed 32-bit field survives encoding and decoding |
| Inbound.DecodeEncode | gomcc/client.go:175-201 | every packet a client can write is framed at its opcode's size and decodes back to itself |
| Sessions.NewAvatar | gomcc/client.go:260-261 | a new player entity has id 0xff, the humanoid model, and the client's name as its name, display, skin and list names |
| Sessions.NewSession | gomcc/client.go:99-106 | a new session is connected, not logged in, has no entity, no extensions, an empty chat buffer and a reach of 5 |
| Sessions.SendPacket | gomcc/client.go:527-538 | a packet is written iff the session is connected |
| Sessions.SendMessage | gomcc/client.go:548-557 | a chat message goes out as one packet per line when connected, packet i carrying line i of the text, and as nothing otherwise |
| Sessions.Disconnect | gomcc/client.go:498-525 | disconnecting closes the connection and fires the disconnect event last; a logged-in session also fires the quit event, leaves its level, announces its leave, releases its slot, and is removed from the client and entity registries; any other session leaves the server untouched |
| Sessions.DisconnectIdempotent | gomcc/client.go:498-525 | a second disconnect does nothing, so there is one announcement and one slot release |
| Sessions.Kick | gomcc/client.go:540-546 | a kick sends the reason first, then disconnects; slots stay balanced |
| Sessions.LoginAsWritten | gomcc/client.go:223-288 | login as written: a full server kicks with "Server full!"; a logged-in session is left alone |
| Sessions.LoginVetoLeaksSlot | gomcc/client.go:235-267 | as written, a vetoed join ends disconnected and not logged in but still holding the slot it took, and a later disconnect does not give it back |
| Sessions.LoginAsWrittenAgreesWithoutVeto | gomcc/client.go:223-288 | without a veto, the source's login and the corrected one give the same session, server and effects |
| Sessions.Login | gomcc/client.go:223-288 | login admits only below the player limit and keeps the count within it; an admitted client is greeted first (block support level if negotiated, server identification, join event); an unvetoed join is announced; a successful login registers the new entity and client, and a veto or full registry releases the slot again |
| Sessions.LoginGreets | gomcc/client.go:238-284 | both logins greet an admitted client first; an unvetoed join is announced, and a join with an entity id ends by starting the keep-alive and enters the main level iff there is one |
| Outbound.WireIdResolves | gomcc/client.go:611-650 | a client resolves every entity id it is sent back to that entity, and sees 0xff exactly for its own |
| Outbound.SendChangeModel | gomcc/client.go:780-795 | a model change goes out iff the client is in game and has ChangeModel, naming the new model and addressed to the entity |
| Outbound.SendSpawn | gomcc/client.go:611-650 | a spawn is sent as ExtAddEntity2 iff the client has ExtPlayerList, carries the names and the encoded pose, and is followed by exactly the model-change packet iff the model is not humanoid and the client has ChangeModel |
| Outbound.SendDespawn | gomcc/client.go:652-666 | a despawn goes out iff the client is in game |
| Outbound.SendTeleport | gomcc/client.go:668-687 | a teleport goes out iff the client is in game and carries the entity's current location encoded as `int16` fixed point and angle bytes |
| Outbound.SendAddPlayerList | gomcc/client.go:744-762 | a list entry goes out iff the client is in game and has ExtPlayerList, carrying the list name, group and rank |
| Outbound.SendRemovePlayerList | gomcc/client.go:764-778 | a list removal goes out iff the client is in game and has ExtPlayerList |
| Outbound.ConvertBlock | gomcc/client.go:559-565 | a client with custom-block support (level at least 1) gets every block id unchanged, and any other client gets the block's fallback |
| Outbound.SendBlockChange | gomcc/client.go:689-699 | a block change goes out iff the client is in game, with the converted block and coordinates that fit int16 unchanged |
| Outbound.SetOperator | gomcc/client.go:701-715 | the operator flag is set, and the client is told iff it is in game and the flag actually changes |
| Outbound.SetOperatorIdempotent | gomcc/client.go:701-715 | setting the same operator flag twice tells the client once |
| Outbound.SetClickDistance | gomcc/client.go:717-726 | the reach is set; the client is told iff in game with ClickDistance, in 1/32 units truncated |
| Outbound.SendCPE | gomcc/client.go:728-742 | the extension announcement is one ExtInfo with the table's size followed by one ExtEntry per table entry, in order |
| Outbound.ChunkCount | gomcc/client.go:583 | the number of chunks is the ceiling of the size over 1024 |
| Outbound.ChunkShapes | gomcc/client.go:583-600 | every chunk is 1024 bytes with 1 to 1024 meaningful ones, and progress stays below 100 and never decreases |
| Outbound.ChunksReassemble | gomcc/client.go:583-600 | the meaningful bytes of the chunks, in order, are exactly the compressed level |
| Outbound.LevelPayload | gomcc/client.go:576-579 | the level payload is the 32-bit block count followed by every block converted for the client |
| Outbound.SendLevelAppearance | gomcc/client.go:797-811 | the appearance goes out iff the client is in game with EnvMapAppearance, carrying the texture URL, the converted side and edge blocks, and the three levels cast to `int16` |
| Outbound.SendWeather | gomcc/client.go:813-822 | the weather goes out iff the client is in game with EnvWeatherType |
| Outbound.SendLevel | gomcc/client.go:567-609 | a level transfer to an in-game client opens with LevelInitialize and ends with LevelFinalize carrying the int16 dimensions |
| Outbound.LevelReceivedIsChunks | gomcc/client.go:567-609 | the level chunks the client receives are exactly the chunking of the compressed payload |
| Outbound.LevelTransferDelivers | gomcc/client.go:567-609 | the client receives ChunkCount well-formed chunks whose bytes reassemble to the compressed level |
| Handlers.Verify | gomcc/client.go:149-160 | a key can pass verification only if it is a 16-byte digest |
| Handlers.FirstFailedOfFour | gomcc/client.go:290-328 | the identification checks are tried in order and the first failure's reason is the one reported |
| Handlers.HandleIdentification | gomcc/client.go:290-328 | a logged-in session ignores identification; a failed check kicks with its reason; a CPE client receives the extension list; any other client goes straight to login, over the corrected login |
| Handlers.HandleExtInfo | gomcc/client.go:455-463 | a count of zero logs in; a positive count waits for that many entries; a negative count is stored as its `uint` sign extension, a huge remaining count, and nothing else changes; the login is the corrected one |
| Handlers.MatchFrom | gomcc/client.go:469-476 | an entry matches iff the table lists that exact name and version |
| Handlers.RecordExtension | gomcc/client.go:469-476 | a matching entry is recorded at its version and any other entry changes nothing |
| Handlers.HandleExtEntryAsWritten | gomcc/client.go:465-482 | as written, every entry decrements the remaining count as a uint, and the entry that leaves it at zero logs in through the as-written login |
| Handlers.LastEntryVetoLeaksSlot | gomcc/client.go:478-480 | as written, a vetoed join on the last extension entry ends disconnected with the player count one higher |
| Handlers.ExtEntryUnderflow | gomcc/client.go:478 | an entry that arrives when none remain wraps the count to 2^64-1 |
| Handlers.HandleExtEntry | gomcc/client.go:465-482 | the remaining count never grows; the last expected entry logs in; other entries record and count down, stopping at zero |
| Handlers.HandleCustomBlockSupportLevel | gomcc/client.go:484-491 | a support level of at most 1 is adopted; any higher level is ignored, so the level never exceeds 1 |
| Handlers.SupportLevelDecidesConversion | gomcc/client.go:484-491 | after level 1 is announced every block travels unchanged, after level 0 every block goes through the fallback, and a higher level changes nothing |
| Handlers.AxisSquareExact | gomcc/client.go:344-347 | for in-world coordinates the wrapped uint square of one axis difference equals the true square |
| Handlers.ReachSquareExact | gomcc/client.go:344-347 | for in-world coordinates the wrapped uint sum of squares equals the true squared distance |
| Handlers.Judge | gomcc/client.go:344-391 | an edit is refused as too far iff out of reach; otherwise a mode other than break or place is ignored, a place of a block the client may not use is refused, and the break or place event is cancelled or applied as the listener decides; a break sets air |
| Handlers.EditEffects | gomcc/client.go:344-391 | an ignored mode does nothing; a refusal sends its message and then the block actually there; a cancelled edit fires its event and sends the block back; an applied edit fires its event and then edits the world, and only it does |
| Handlers.AllowedBlockShownUnchanged | gomcc/client.go:371 | a block a client may place is shown back to it unchanged, as long as the fallback leaves classic blocks alone |
| Handlers.HandleSetBlock | gomcc/client.go:334-392 | session and server stay unchanged; the world is edited iff the session is logged in, the block is within reach, the mode is a break or an allowed place, and no listener cancels; a mode other than break or place within reach does nothing, and a break or allowed place fires its event first |
| Handlers.HandlePlayerTeleport | gomcc/client.go:394-425 | only the own-entity packet of a logged-in session counts; an unchanged pose is quiet; a move fires the event and is stored, or is reverted to the client when cancelled |
| Handlers.RepeatedMoveIsQuiet | gomcc/client.go:394-425 | repeating the same position packet does nothing |
| Handlers.StoredMoveReencodes | gomcc/client.go:394-425 | the stored location re-encodes to the packet's fields |
| Handlers.StoredMoveIsEchoed | gomcc/client.go:668-687 | after a move is stored, the teleport any in-game client is sent carries exactly the mover's reported fields |
| Handlers.HandleMessageAsWritten | gomcc/client.go:427-453 | as written, only the chat buffer changes and a session not logged in is ignored |
| Handlers.BlankMessagePanics | gomcc/client.go:435-448 | as written, a chat packet of only spaces trims to "", passes validation, and panics at `message[0]` |
| Handlers.MessageAsWrittenAgreesOffBlank | gomcc/client.go:427-453 | whenever the line to handle is not empty, the source's chat handler and the corrected one are the same |
| Handlers.HandleMessage | gomcc/client.go:427-453 | a continuation extends the buffer; otherwise the line is rejected if invalid, runs a command if it starts with `/`, is broadcast if not, is ignored if empty, and nothing panics |
| Handlers.ContinuationsBuffer | gomcc/client.go:435-438 | continuation packets only append their trimmed text to the buffer |
| Handlers.LongMessageAssembles | gomcc/client.go:427-453 | continuations followed by a final packet broadcast the whole assembled line once |
| Handlers.Dispatch | gomcc/client.go:203-219 | handling one packet keeps the session well formed, keeps slots balanced, and keeps the player count within the limit, over the corrected login, extension-entry and chat handlers |
| Handlers.ServeTokens | gomcc/client.go:162-221 | running a session over its frames ends disconnected with its slot released and the count within the limit, over the corrected login, extension-entry and chat handlers |
| Handlers.Serve | gomcc/client.go:162-221 | a whole connection ends disconnected and not logged in, with slots balanced, over the corrected login, extension-entry and chat handlers |
| Handlers.ServeReleasesSlot | gomcc/client.go:162-221 | whatever a new connection sends, the player count afterwards is what it was before, over the corrected login, extension-entry and chat handlers |
| Handlers.CountReplace | gomcc/client.go:229-235 | replacing one session changes the logged-in count by exactly that session's difference |
| Handlers.DispatchKeepsCount | gomcc/client.go:203-219 | with many sessions, the shared player count equals the number logged in after any one handles a packet, over the corrected login, extension-entry and chat handlers |
| Handlers.ServeKeepsCount | gomcc/client.go:162-221 | the same holds after any one connection runs to its end, over the corrected login, extension-entry and chat handlers |
| Handlers.EntriesRecorded | gomcc/client.go:465-482 | table entries before the last are recorded and counted down without effects |
| Handlers.EchoedHandshakeLogsIn | gomcc/client.go:455-482 | a client echoing the whole extension table logs in with every extension recorded, over the corrected login |
| Handlers.ReachExamples | gomcc/client.go:344-351 | at reach 5, a block 10 away is refused, while blocks at distance 5 (3-4-0 and 5-0-0) are allowed |
| Entities.NewEntity | gomcc/entity.go:62-73 | a new entity has id 0xff, the humanoid model, the name for display, skin and list, no level, and sits at the origin |
| Entities.Others | gomcc/entity.go:249-253 | the receivers of a movement are all the level's clients except the entity's own |
| Entities.SetModel | gomcc/entity.go:95-106 | the model is set; the level is told only when it changes and the entity is in a level |
| Entities.SetModelIdempotent | gomcc/entity.go:95-106 | setting the same model twice tells the level once |
| Entities.SetList | gomcc/entity.go:120-133 | the list fields are set; every client is told iff one of them changes |
| Entities.SetListIdempotent | gomcc/entity.go:120-133 | setting the same list entry twice announces it once |
| Entities.Teleport | gomcc/entity.go:139-154 | a move to a new location fires the move event; a cancelled move changes nothing more, and otherwise the location is stored and exactly one teleport goes to the entity's own client, if it has one; the last broadcast location is untouched |
| Entities.Spawn | gomcc/entity.go:273-285 | the level sees the spawn; an owner also gets the level, itself and every entity in the level |
| Entities.Despawn | gomcc/entity.go:287-298 | the level sees the despawn; an owner in game also loses itself and every entity in the level |
| Entities.TeleportLevel | gomcc/entity.go:160-181 | a level change despawns from the old level, places the entity at the new level's spawn with nothing else changed, spawns it there for the new level's clients, and ends by firing the level-change event; the same level is a no-op |
| Entities.Classify | gomcc/entity.go:188-246 | a jump is a move of more than one unit on some axis; otherwise a move-and-turn, a move or a turn by what changed; nothing iff the location is unchanged |
| Entities.Update | gomcc/entity.go:183-254 | an entity in a level whose location changed sends one movement to the other clients and records the location as broadcast; otherwise nothing |
| Entities.UpdateSettles | gomcc/entity.go:183-254 | a second update right after the first sends nothing |
| Entities.ArrivalIsQuiet | gomcc/entity.go:160-181 | after arriving in a level, the next update sends nothing |
| Entities.TeleportReachesOthers | gomcc/entity.go:139-254 | a teleport reaches the other clients at the next update, classified against the last broadcast location |
| Entities.Respawn | gomcc/entity.go:256-271 | a respawn despawns and spawns the entity at the level's spawn and resets the broadcast location to the origin |
| Entities.RespawnIsRebroadcast | gomcc/entity.go:256-271 | after a respawn away from the origin, the next update broadcasts the spawn point once, as a jump when it is far |
| LvlStorage.GetPath | gomcc/lvlstorage.go:43-45 | the path is the directory, then the level name, then `.lvl` |
| LvlStorage.EncodeHeader | gomcc/lvlstorage.go:26-32 | the header is 18 bytes |
| LvlStorage.DecodeEncodeHeader | gomcc/lvlstorage.go:26-32 | every header survives encoding and decoding |
| LvlStorage.EncodeDecodeHeader | gomcc/lvlstorage.go:26-32 | every 18 bytes survive decoding and encoding |
| LvlStorage.SpawnFieldsRoundTrip | gomcc/lvlstorage.go:71-75 | the spawn read from a header writes back to the same header fields |
| LvlStorage.GridSpawnRoundTrip | gomcc/lvlstorage.go:104-115 | a spawn on the 1/32 grid with byte angles is read back exactly after writing |
| LvlStorage.OffsetInVolume | gomcc/lvlstorage.go:77-89 | the stream position of every cell lies inside the block data |
| LvlStorage.LoadBlocks | gomcc/lvlstorage.go:77-89 | the loaded grid has exactly the level's cells, each the byte at its y, z, x position |
| LvlStorage.Load | gomcc/lvlstorage.go:47-92 | a level loads iff the header is whole, the version is 1874 and the blocks are all there; the invalid-format error comes iff the version differs; the level has the header's dimensions and spawn and the stream's blocks |
| LvlStorage.SaveHeader | gomcc/lvlstorage.go:104-115 | the saved header has version 1874, no permissions, and the level's dimensions when they fit 16 bits |
| LvlStorage.Save | gomcc/lvlstorage.go:94-136 | the saved stream is the header followed by exactly one byte per cell, each at its y, z, x position |
| LvlStorage.SaveWritesFormat | gomcc/lvlstorage.go:104-115 | the saved header reads back as version 1874 with no permissions |
| LvlStorage.LoadRejectsOtherVersions | gomcc/lvlstorage.go:66-68 | a header of any other version is rejected as invalid format |
| LvlStorage.SaveSpawnExact | gomcc/lvlstorage.go:104-115 | a spawn on the grid survives the header |
| LvlStorage.LoadSave | gomcc/lvlstorage.go:47-136 | a level with 16-bit dimensions and a grid spawn loads back exactly as saved |
| Moderation.TargetAndReason | core/moderation.go:39-43 | the target is the text up to the first space and the reason everything after it; without a space, the target is the whole text and the reason the default |
| Moderation.HandleBan | core/moderation.go:33-59 | an empty message gives only the usage line; only a valid, unbanned name gains a ban record, with the reason and the sender; no record is overwritten; exactly the newly banned player is kicked, if online; the sender hears one reply |
| Moderation.HandleBanAsWritten | core/moderation.go:33-59 | as written, a ban of an invalid name leaves the stores unchanged and panics exactly when no reason follows the name |
| Moderation.OneWordInvalidBanPanics | core/moderation.go:45-47 | `ban ab` panics as written; the corrected handler replies that `ab` is not a valid name |
| Moderation.BanAsWrittenAgreesOnValidNames | core/moderation.go:45-58 | for a valid name, the handler as written and the corrected one do the same |
| Moderation.HandleBanIp | core/moderation.go:68-95 | only an address the parser accepts and that is not yet banned gains a ban record; exactly the players connected from a newly banned address are kicked, with the reason |
| Moderation.HandleKick | core/moderation.go:104-123 | the stores never change; only the named player is kicked, and only when online, by default naming the sender; an empty message gives the usage line |
| Moderation.HandleRank | core/moderation.go:132-162 | one word asks for the rank; two words set it only for a known player and a configured rank, refreshing the permissions of that player if online; any other count prints usage and changes nothing |
| Moderation.HandleUnban | core/moderation.go:171-183 | exactly one word removes that name's ban and nothing else; any other count prints usage |
| Moderation.HandleUnbanIp | core/moderation.go:192-204 | exactly one word removes that address's ban and nothing else; any other count prints usage |
| Moderation.UnbanUndoesBan | core/moderation.go:33-59 | banning an unbanned valid name and then unbanning it restores the stores |
| Moderation.BanTwiceIsAlreadyBanned | core/moderation.go:56-58 | a second ban of the same name changes nothing and kicks nobody |
| Moderation.UnbanIpUndoesBanIp | core/moderation.go:68-95 | banning an unbanned address and then unbanning it restores the stores |
| Moderation.RankSetThenQuery | core/moderation.go:132-162 | after a rank is set, asking for the player's rank reports it |

## Left out

- Sockets, `io.ReadFull`, `binary.Read`/`Write` reflection, atomics and the compare-and-swap loop of the player count. Each session's steps are sequential over the shared counters, and concurrency is not modelled.
- The 2-second ping ticker goroutine started at login. It is timing only.
- `SendPacket` disconnecting on a write error such as EOF. Writes are effects and never fail.
- The failure of `sendPacket` writes inside level broadcasts.
- gzip compression: `SendLevel` takes it as a parameter.
- gzip compression in `.lvl` files: the files are modelled as their decompressed stream.
- MD5 is a parameter of `Verify`.
- `ConvertColors` in chat broadcasts is not modelled. Broadcast lines carry the raw message.
- Events: each listener's verdict is a boolean or an optional reason given to the handler.
- The level's block grid, `BlockMax` and `BlockMaxCPE`, and the custom-block fallback are parameters.
- Packet opcodes and block ids are the Classic protocol's values.
- Float arithmetic is real arithmetic. Out-of-range float-to-integer conversions are implementation-defined in Go, and are only modelled where the contract says so.
- Entities.Update: the relative-move packets' byte-cast deltas (`gomcc/entity.go:223-235`) are not modelled. The notice carries the movement kind and both locations.
- Go map iteration order: clients and entities are visited as sets or in a fixed sequence.
- LvlStorage.Load: a reader that returns 0 bytes without an error (`gomcc/lvlstorage.go:81-83`) is treated as a truncated file. As written, Go would store a 0 block and read on.
- `NewLvlStorage` creating the directory, `os.Open` and `os.Create`. These are I/O.
- Handlers.HandleSetBlock: the avatar records no level, so a session that logged in on a server without a main level (`gomcc/client.go:278-280`) is modelled as editing normally. The source calls `GetBlock` and `SetBlock` on the nil `Entity.Level` there (`gomcc/client.go:330`, `358`, `390`), which panics.
- Handlers.Verify: states only that a passing key has the digest's length, because the digest is a parameter.
- Handlers.Dispatch: states the invariants that one packet preserves. Each packet's own behaviour is stated by the handler it calls.
- Handlers.HandleIdentification, Handlers.HandleExtInfo, Handlers.EchoedHandshakeLogsIn, Handlers.Dispatch, Handlers.ServeTokens, Handlers.Serve, Handlers.ServeReleasesSlot, Handlers.DispatchKeepsCount and Handlers.ServeKeepsCount: these are stated over the corrected handlers of the Findings: `Login`, `HandleExtEntry` and `HandleMessage`. The code as written does not keep slots balanced. A vetoed join leaves the count one higher, as `Sessions.LoginVetoLeaksSlot` and `Handlers.LastEntryVetoLeaksSlot` show. This applies to every login: the direct one after identification, the one on an extension count of zero, and the one on the last entry. Without a veto the two logins coincide (`Sessions.LoginAsWrittenAgreesWithoutVeto`). A blank chat line panics.
- Text.Fields: Go strings are bytes and `strings.Fields` decodes them as UTF-8. Here a string is a sequence of code points, so invalid UTF-8 is not modelled.
- Moderation: `FindPlayer` and the player store's online set are lookups in the maps passed in. The persistence of bans, ranks and players is not modelled.
- Moderation.HandleBanIp: kicks are one effect for the whole set of matching players, because `ForEachPlayer` has no order.

## Findings

| source | as written | input that shows it | evidently intended | confidence | as-written member | corrected member |
|---|---|---|---|---|---|---|
| gomcc/client.go:478-481 | `RemainingExtensions--` on a `uint` even when no entry is expected | an ExtEntry packet after an ExtInfo with count 0, or after the last entry: the count wraps to 2^64-1 | an entry with nothing remaining leaves the count at zero | not executed | Handlers.HandleExtEntryAsWritten, Handlers.ExtEntryUnderflow | Handlers.HandleExtEntry |
| gomcc/client.go:235-267 | the player-count slot taken by compare-and-swap is not given back when a join listener cancels the join | a join with a veto reason below the player limit: the session ends disconnected while the count stays one higher, for good | a vetoed join releases its slot | not executed | Sessions.LoginAsWritten, Sessions.LoginVetoLeaksSlot, Handlers.LastEntryVetoLeaksSlot; Handlers.HandleIdentification, Handlers.HandleExtInfo and Handlers.EchoedHandshakeLogsIn use the corrected login | Sessions.Login |
| gomcc/client.go:440-448 | `message[0]` is read after validation, which accepts the empty message | a chat packet of 64 spaces: it trims to "", is valid, and the index panics | an empty line is ignored | not executed | Handlers.HandleMessageAsWritten, Handlers.BlankMessagePanics | Handlers.HandleMessage |
| core/moderation.go:45-47 | the invalid-name reply reads `args[1]`, which exists only when a reason was given | `ban ab`: `args` has one element and the index panics | the reply names the invalid name `args[0]` | not executed | Moderation.HandleBanAsWritten, Moderation.OneWordInvalidBanPanics | Moderation.HandleBan |

=== FILE: command.dfy ===
/**
 Commands and ranks: chat colour codes, the permission bitmask of a rank with
 its per-command overrides, the default rank's block permissions, and the
 usage line of a command.
 */
module Commands {

  const ColorBlack: string := "&0"
  const ColorDarkBlue: string := "&1"
  const ColorDarkGreen: string := "&2"
  const ColorDarkAqua: string := "&3"
  const ColorDarkRed: string := "&4"
  const ColorDarkPurple: string := "&5"
  const ColorGold: string := "&6"
  const ColorGray: string := "&7"
  const ColorDarkGray: string := "&8"
  const ColorBlue: string := "&9"
  const ColorGreen: string := "&a"
  const ColorAqua: string := "&b"
  const ColorRed: string := "&c"
  const ColorLightPurple: string := "&d"
  const ColorYellow: string := "&e"
  const ColorWhite: string := "&f"

  const ColorDefault: string := ColorWhite

  /** The sixteen colours in code order. */
  const Colors: seq<string> := [
    ColorBlack, ColorDarkBlue, ColorDarkGreen, ColorDarkAqua,
    ColorDarkRed, ColorDarkPurple, ColorGold, ColorGray,
    ColorDarkGray, ColorBlue, ColorGreen, ColorAqua,
    ColorRed, ColorLightPurple, ColorYellow, ColorWhite]

  const HexDigits: string := "0123456789abcdef"

  /** Colour `i` is `&` followed by the lower-case hex digit `i`; the default colour is white. */
  lemma ColorCodes()
    ensures |Colors| == 16
    ensures forall i | 0 <= i < 16 :: Colors[i] == ['&', HexDigits[i]]
    ensures ColorDefault == ColorWhite == Colors[15]
  {
  }

  /** Block ids of the Classic protocol that the default rank restricts. */
  const BlockBedrock: nat := 7
  const BlockActiveWater: nat := 8
  const BlockWater: nat := 9
  const BlockActiveLava: nat := 10
  const BlockLava: nat := 11

  const PlaceBanned: seq<nat> := [BlockBedrock, BlockActiveWater, BlockWater, BlockActiveLava, BlockLava]

  datatype Command = Command(name: string, description: string, usage: string, permissions: bv32)

  datatype Rank = Rank(
    name: string,
    tag: string,
    permissions: bv32,
    rules: map<string, bool>,
    canPlace: seq<bool>,
    canBreak: seq<bool>)

  /** Bit `i` of a permission mask is set. */
  predicate Bit(mask: bv32, i: bv5) {
    (mask >> i) & 1 == 1
  }

  /** Lowest set bit of a mask, searching from bit `i` upwards. */
  function LowestBitFrom(d: bv32, i: bv5): (k: bv5)
    requires d >> i != 0
    ensures Bit(d, k) && k >= i
    decreases 31 - i as int
  {
    if Bit(d, i) then i
    else
      assert i != 31;
      LowestBitFrom(d, i + 1)
  }

  lemma SplitBit(a: bv32, b: bv32, k: bv5)
    ensures Bit(a & !b, k) ==> Bit(a, k) && !Bit(b, k)
  {
  }

  lemma CoveredBit(mask: bv32, held: bv32, i: bv5)
    requires mask & held == mask
    ensures Bit(mask, i) ==> Bit(held, i)
  {
  }

  /** A mask not covered by `held` has a bit that `held` lacks. */
  lemma UncoveredBit(mask: bv32, held: bv32) returns (k: bv5)
    requires mask & held != mask
    ensures Bit(mask, k) && !Bit(held, k)
  {
    var d := mask & !held;
    assert d >> 0 == d;
    k := LowestBitFrom(d, 0);
    SplitBit(mask, held, k);
  }

  /** Every bit set in `mask` is set in `held`. */
  ghost predicate Covers(mask: bv32, held: bv32) {
    forall i: bv5 :: Bit(mask, i) ==> Bit(held, i)
  }

  /** The source's test `(mask & held) == mask`. */
  predicate MaskContained(mask: bv32, held: bv32) {
    mask & held == mask
  }

  /** `(mask & held) == mask` says exactly that every bit of `mask` is held. */
  lemma MaskCovered(mask: bv32, held: bv32)
    ensures MaskContained(mask, held) <==> Covers(mask, held)
  {
    if mask & held == mask {
      forall i: bv5
        ensures Bit(mask, i) ==> Bit(held, i)
      {
        CoveredBit(mask, held, i);
      }
    } else {
      var k := UncoveredBit(mask, held);
    }
  }

  /**
   An explicit rule for the command's name decides; otherwise the rank's mask
   must contain the command's mask.
   */
  function CanExecute(rank: Rank, command: Command): (ok: bool)
    ensures command.name in rank.rules ==> ok == rank.rules[command.name]
    ensures command.name !in rank.rules ==> (ok <==> MaskContained(command.permissions, rank.permissions))
  {
    if command.name in rank.rules then rank.rules[command.name]
    else
      MaskContained(command.permissions, rank.permissions)
  }

  /**
   Without a rule for it, a rank may run a command exactly when it holds every
   permission bit the command asks for.
   */
  lemma CanExecuteByBits(rank: Rank, command: Command)
    requires command.name !in rank.rules
    ensures CanExecute(rank, command) <==> Covers(command.permissions, rank.permissions)
  {
    MaskCovered(command.permissions, rank.permissions);
  }

  /** A command that asks for no permission bit is open to every rank without a rule for it. */
  lemma EmptyMaskAlwaysAllowed(rank: Rank, command: Command)
    requires command.permissions == 0
    requires command.name !in rank.rules
    ensures CanExecute(rank, command)
  {
  }

  /**
   The default rank: every block may be placed and broken, except that bedrock,
   water and lava may not be placed and bedrock may not be broken.
   */
  method DefaultRank(blockCount: nat) returns (rank: Rank)
    requires blockCount > BlockLava
    ensures |rank.canPlace| == blockCount && |rank.canBreak| == blockCount
    ensures forall b | 0 <= b < blockCount :: rank.canBreak[b] <==> b != BlockBedrock
    ensures forall b | 0 <= b < blockCount :: rank.canPlace[b] <==> b !in PlaceBanned
    ensures rank.permissions == 0 && rank.rules == map[]
  {
    var canPlace: seq<bool> := [];
    var canBreak: seq<bool> := [];
    var i := 0;
    while i < blockCount
      invariant 0 <= i <= blockCount
      invariant |canPlace| == i && |canBreak| == i
      invariant forall b | 0 <= b < i :: canPlace[b] && canBreak[b]
    {
      canPlace := canPlace + [true];
      canBreak := canBreak + [true];
      i := i + 1;
    }

    var j := 0;
    while j < |PlaceBanned|
      invariant 0 <= j <= |PlaceBanned|
      invariant |canPlace| == blockCount
      invariant forall b | 0 <= b < blockCount :: canPlace[b] <==> b !in PlaceBanned[..j]
    {
      canPlace := canPlace[PlaceBanned[j] := false];
      j := j + 1;
    }
    assert PlaceBanned[..|PlaceBanned|] == PlaceBanned;
    canBreak := canBreak[BlockBedrock := false];

    rank := Rank("", "", 0, map[], canPlace, canBreak);
  }

  /** The usage line: the fixed prefix followed by the command's usage text. */
  function PrintUsage(command: Command): (line: string)
    ensures |line| == 7 + |command.usage|
    ensures line[..7] == "Usage: " && line[7..] == command.usage
  {
    "Usage: " + command.usage
  }
}

=== FILE: entity.dfy ===
/**
 Entities as the world sees them: a player or other creature with a model,
 a player-list entry, a level and a pose. Every change is a step returning
 the updated entity and the deliveries it causes.

 The synchronisation rule: `location` is where the entity is, `lastLocation`
 is where the other clients last saw it. The periodic update compares the
 two, picks one of four movement packets (or none), sends it to every other
 client in the level, and only then records the new pose as seen.

 Levels, clients and the entity lists of levels live outside this module;
 they are given as a `World`. Clients are named by an abstract id.
 */
module Entities {
  import opened Wire
  import opened Optional
  import opened Geometry

  const ModelChicken: string := "chicken"
  const ModelCreeper: string := "creeper"
  const ModelCrocodile: string := "croc"
  const ModelHumanoid: string := "humanoid"
  const ModelPig: string := "pig"
  const ModelPrinter: string := "printer"
  const ModelSheep: string := "sheep"
  const ModelSkeleton: string := "skeleton"
  const ModelSpider: string := "spider"
  const ModelZombie: string := "zombie"

  type LevelId = nat
  type ClientId = nat

  datatype Entity = Entity(
    client: Option<ClientId>,   // the connection that controls it, if any
    id: byte,
    name: string,
    model: string,
    displayName: string,
    skinName: string,
    listName: string,
    groupName: string,
    groupRank: byte,
    level: Option<LevelId>,
    location: Location,
    lastLocation: Location)

  /** What the entity needs to know about the levels and clients around it. */
  datatype World = World(
    spawn: LevelId -> Location,               // each level's spawn point
    clientsIn: LevelId -> set<ClientId>,      // the clients of each level
    entitiesIn: LevelId -> seq<Entity>,       // the entities of each level
    allClients: set<ClientId>,                // every client of the server
    ownInGame: bool)                          // whether the entity's own client is in the game state

  /** The four movement packets of the periodic update. */
  datatype Movement =
    | Jump          // absolute teleport
    | MoveAndTurn   // relative move with orientation
    | Move          // relative move
    | Turn          // orientation only

  /** What a client is told about an entity. */
  datatype Notice =
    | SpawnOf(entityId: byte, at: Location)
    | DespawnOf(entityId: byte)
    | TeleportOf(entityId: byte, at: Location)
    | ModelOf(entityId: byte, model: string)
    | ListEntryOf(entityId: byte, listName: string, groupName: string, groupRank: byte)
    | LevelData(level: LevelId)
    | Moved(kind: Movement, entityId: byte, from: Location, to: Location)

  datatype Event =
    | EntityMove(from: Location, to: Location)
    | EntityLevelChange(lastLevel: Option<LevelId>, level: Option<LevelId>)

  datatype Delivery =
    | ToAll(recipients: set<ClientId>, notice: Notice)   // the same notice to each client of a set, in no particular order
    | ToOne(recipient: ClientId, notice: Notice)
    | Fire(event: Event)

  datatype EntityStep = EntityStep(entity: Entity, out: seq<Delivery>)

  /** A fresh entity: no id yet (0xff), humanoid, every name equal to `name`, nowhere. */
  function NewEntity(name: string, client: Option<ClientId>): (e: Entity)
    ensures e.id == 0xff && e.model == ModelHumanoid && e.client == client
    ensures e.name == name && e.displayName == name && e.skinName == name && e.listName == name
    ensures e.groupName == "" && e.groupRank == 0 && e.level == None
    ensures e.location == Origin && e.lastLocation == Origin
  {
    Entity(client, 0xff, name, ModelHumanoid, name, name, name, "", 0, None, Origin, Origin)
  }

  /** The clients of a set other than the entity's own. */
  function Others(clients: set<ClientId>, e: Entity): (r: set<ClientId>)
    ensures r <= clients
    ensures forall c | c in clients :: c in r <==> e.client != Some(c)
  {
    if e.client.Some? then clients - {e.client.value} else clients
  }

  /**
   A model change: nothing when the model is unchanged; otherwise the new
   model, announced to every client of the entity's level if it has one.
   */
  function SetModel(e: Entity, model: string, w: World): (r: EntityStep)
    ensures r.entity == e.(model := model)
    ensures model == e.model ==> r.out == []
    ensures model != e.model && e.level.Some? ==> r.out == [ToAll(w.clientsIn(e.level.value), ModelOf(e.id, model))]
    ensures e.level.None? ==> r.out == []
  {
    if model == e.model then EntityStep(e, [])
    else
      var changed := e.(model := model);
      if e.level.Some? then EntityStep(changed, [ToAll(w.clientsIn(e.level.value), ModelOf(e.id, model))])
      else EntityStep(changed, [])
  }

  /** Setting the model twice is setting it once. */
  lemma SetModelIdempotent(e: Entity, model: string, w: World)
    ensures var r := SetModel(e, model, w);
            SetModel(r.entity, model, w) == EntityStep(r.entity, [])
  {
  }

  /**
   A player-list change: nothing when all three fields are unchanged;
   otherwise the new entry, announced to every client of the server.
   */
  function SetList(e: Entity, listName: string, groupName: string, groupRank: byte, w: World): (r: EntityStep)
    ensures r.entity == e.(listName := listName, groupName := groupName, groupRank := groupRank)
    ensures r.out == [] <==> listName == e.listName && groupName == e.groupName && groupRank == e.groupRank
    ensures r.out != [] ==> r.out == [ToAll(w.allClients, ListEntryOf(e.id, listName, groupName, groupRank))]
  {
    if listName == e.listName && groupName == e.groupName && groupRank == e.groupRank then EntityStep(e, [])
    else
      EntityStep(
        e.(listName := listName, groupName := groupName, groupRank := groupRank),
        [ToAll(w.allClients, ListEntryOf(e.id, listName, groupName, groupRank))])
  }

  /** Setting the same list entry twice announces it once. */
  lemma SetListIdempotent(e: Entity, listName: string, groupName: string, groupRank: byte, w: World)
    ensures var r := SetList(e, listName, groupName, groupRank, w);
            SetList(r.entity, listName, groupName, groupRank, w) == EntityStep(r.entity, [])
  {
  }

  /**
   A teleport. To the current location, nothing happens; otherwise a move
   event fires and, unless it is cancelled, the location changes and only
   the entity's own client is told. The pose the others saw stays as it was,
   so the next update carries the move to them.
   */
  function Teleport(e: Entity, to: Location, cancel: bool): (r: EntityStep)
    ensures r.entity.lastLocation == e.lastLocation
    ensures to == e.location ==> r == EntityStep(e, [])
    ensures to != e.location ==> |r.out| >= 1 && r.out[0] == Fire(EntityMove(e.location, to))
    ensures to != e.location && cancel ==> r.entity == e && |r.out| == 1
    ensures to != e.location && !cancel ==> r.entity == e.(location := to)
    ensures forall i | 1 <= i < |r.out| :: r.out[i].ToOne? && Some(r.out[i].recipient) == e.client
    ensures to != e.location && !cancel && e.client.Some? ==>
      r.out == [Fire(EntityMove(e.location, to)), ToOne(e.client.value, TeleportOf(e.id, to))]
    ensures to != e.location && !cancel && e.client.None? ==> r.out == [Fire(EntityMove(e.location, to))]
  {
    if to == e.location then EntityStep(e, [])
    else
      var fired := [Fire(EntityMove(e.location, to))];
      if cancel then EntityStep(e, fired)
      else
        var moved := e.(location := to);
        EntityStep(moved, fired + if e.client.Some? then [ToOne(e.client.value, TeleportOf(e.id, to))] else [])
  }

  /**
   What a level's clients are told when the entity arrives: each of them sees
   it spawn; its own client, if any, also gets the level data, its own spawn
   and the spawn of every entity of the level.
   */
  function Spawn(e: Entity, level: LevelId, w: World): (out: seq<Delivery>)
    ensures |out| >= 1 && out[0] == ToAll(w.clientsIn(level), SpawnOf(e.id, e.location))
    ensures e.client.None? ==> |out| == 1
    ensures e.client.Some? ==>
      && |out| == 3 + |w.entitiesIn(level)|
      && out[1] == ToOne(e.client.value, LevelData(level))
      && out[2] == ToOne(e.client.value, SpawnOf(e.id, e.location))
      && forall i | 0 <= i < |w.entitiesIn(level)| ::
           out[3 + i] == ToOne(e.client.value, SpawnOf(w.entitiesIn(level)[i].id, w.entitiesIn(level)[i].location))
  {
    var all := [ToAll(w.clientsIn(level), SpawnOf(e.id, e.location))];
    if e.client.None? then all
    else
      var c := e.client.value;
      var others := w.entitiesIn(level);
      all + [ToOne(c, LevelData(level)), ToOne(c, SpawnOf(e.id, e.location))]
        + seq(|others|, i requires 0 <= i < |others| => ToOne(c, SpawnOf(others[i].id, others[i].location)))
  }

  /**
   What a level's clients are told when the entity leaves: each of them sees
   it despawn; its own client, when it is in the game, also despawns it and
   every entity of the level.
   */
  function Despawn(e: Entity, level: LevelId, w: World): (out: seq<Delivery>)
    ensures |out| >= 1 && out[0] == ToAll(w.clientsIn(level), DespawnOf(e.id))
    ensures !(e.client.Some? && w.ownInGame) ==> |out| == 1
    ensures e.client.Some? && w.ownInGame ==>
      && |out| == 2 + |w.entitiesIn(level)|
      && out[1] == ToOne(e.client.value, DespawnOf(e.id))
      && forall i | 0 <= i < |w.entitiesIn(level)| :: out[2 + i] == ToOne(e.client.value, DespawnOf(w.entitiesIn(level)[i].id))
  {
    var all := [ToAll(w.clientsIn(level), DespawnOf(e.id))];
    if !(e.client.Some? && w.ownInGame) then all
    else
      var c := e.client.value;
      var others := w.entitiesIn(level);
      all + [ToOne(c, DespawnOf(e.id))]
        + seq(|others|, i requires 0 <= i < |others| => ToOne(c, DespawnOf(others[i].id)))
  }

  /**
   A change of level. To the current level, nothing happens. Otherwise the
   entity leaves its level (if any), arrives in the new one (if any) at its
   spawn point — seen there at that very pose — and a level-change event
   carrying the old and the new level fires last.
   */
  function TeleportLevel(e: Entity, to: Option<LevelId>, w: World): (r: EntityStep)
    ensures to == e.level ==> r == EntityStep(e, [])
    ensures r.entity.level == to
    ensures to != e.level ==> |r.out| >= 1 && r.out[|r.out| - 1] == Fire(EntityLevelChange(e.level, to))
    ensures to != e.level && to.Some? ==> r.entity.location == r.entity.lastLocation == w.spawn(to.value)
    ensures to.None? ==> r.entity == e.(level := None)
    ensures to != e.level && e.level.Some? ==> r.out[0] == ToAll(w.clientsIn(e.level.value), DespawnOf(e.id))
    ensures to != e.level && to.Some? ==>
      r.entity == e.(level := to, location := w.spawn(to.value), lastLocation := w.spawn(to.value))
    ensures to != e.level ==>
      r.out == (if e.level.Some? then Despawn(e.(level := None), e.level.value, w) else [])
               + (if to.Some? then Spawn(r.entity.(level := None), to.value, w) else [])
               + [Fire(EntityLevelChange(e.level, to))]
  {
    if to == e.level then EntityStep(e, [])
    else
      var left := e.(level := None);
      var leaving := if e.level.Some? then Despawn(left, e.level.value, w) else [];
      var placed := if to.Some? then left.(location := w.spawn(to.value), lastLocation := w.spawn(to.value)) else left;
      var arriving := if to.Some? then Spawn(placed, to.value, w) else [];
      EntityStep(placed.(level := to), leaving + arriving + [Fire(EntityLevelChange(e.level, to))])
  }

  predicate PositionChanged(at: Location, seen: Location) {
    at.x != seen.x || at.y != seen.y || at.z != seen.z
  }

  predicate RotationChanged(at: Location, seen: Location) {
    at.yaw != seen.yaw || at.pitch != seen.pitch
  }

  /** Some axis moved by more than one block. */
  predicate FarMove(at: Location, seen: Location) {
    Abs(at.x - seen.x) > 1.0 || Abs(at.y - seen.y) > 1.0 || Abs(at.z - seen.z) > 1.0
  }

  /**
   The packet the update picks: a teleport for a move of more than a block
   on some axis, else a relative move with orientation when both changed,
   else a move, else a turn, else nothing — and nothing exactly when the
   pose the others saw is the current one.
   */
  function Classify(at: Location, seen: Location): (m: Option<Movement>)
    ensures m.None? <==> at == seen
    ensures m == Some(Jump) <==> FarMove(at, seen)
    ensures m == Some(Jump) ==> PositionChanged(at, seen)
    ensures m == Some(MoveAndTurn) <==> !FarMove(at, seen) && PositionChanged(at, seen) && RotationChanged(at, seen)
    ensures m == Some(Move) <==> !FarMove(at, seen) && PositionChanged(at, seen) && !RotationChanged(at, seen)
    ensures m == Some(Turn) <==> !PositionChanged(at, seen) && RotationChanged(at, seen)
  {
    if FarMove(at, seen) then Some(Jump)
    else if PositionChanged(at, seen) && RotationChanged(at, seen) then Some(MoveAndTurn)
    else if PositionChanged(at, seen) then Some(Move)
    else if RotationChanged(at, seen) then Some(Turn)
    else None
  }

  /**
   The periodic update. Without a level it does nothing. Otherwise the
   classified packet, if any, goes to every client of the level except the
   entity's own, and the current pose becomes the one seen; when nothing is
   sent, the seen pose is kept.
   */
  function Update(e: Entity, w: World): (r: EntityStep)
    ensures r.entity == e.(lastLocation := r.entity.lastLocation)
    ensures e.level.None? ==> r == EntityStep(e, [])
    ensures r.out == [] <==> e.level.None? || e.location == e.lastLocation
    ensures r.entity.lastLocation == if r.out == [] then e.lastLocation else e.location
    ensures r.out != [] ==>
      r.out == [ToAll(Others(w.clientsIn(e.level.value), e), Moved(Classify(e.location, e.lastLocation).value, e.id, e.lastLocation, e.location))]
  {
    if e.level.None? then EntityStep(e, [])
    else
      match Classify(e.location, e.lastLocation)
      case None => EntityStep(e, [])
      case Some(kind) =>
        EntityStep(
          e.(lastLocation := e.location),
          [ToAll(Others(w.clientsIn(e.level.value), e), Moved(kind, e.id, e.lastLocation, e.location))])
  }

  /** An update right after an update sends nothing. */
  lemma UpdateSettles(e: Entity, w: World)
    ensures var r := Update(e, w);
            Update(r.entity, w) == EntityStep(r.entity, [])
  {
  }

  /** Arriving in a level is seen at once: the update right after it sends nothing. */
  lemma ArrivalIsQuiet(e: Entity, level: LevelId, w: World)
    requires e.level != Some(level)
    ensures var r := TeleportLevel(e, Some(level), w);
            Update(r.entity, w) == EntityStep(r.entity, [])
  {
  }

  /**
   A teleport the listeners allow reaches the other clients of the level
   through the next update, as a move from the pose they last saw.
   */
  lemma TeleportReachesOthers(e: Entity, to: Location, w: World)
    requires e.level.Some? && to != e.location && to != e.lastLocation
    ensures var t := Teleport(e, to, false);
            Update(t.entity, w).out
              == [ToAll(Others(w.clientsIn(e.level.value), e), Moved(Classify(to, e.lastLocation).value, e.id, e.lastLocation, to))]
  {
  }

  /**
   A respawn. Without a level it does nothing. Otherwise every client of the
   level sees the entity despawn, then spawn again at the level's spawn
   point; the pose seen is reset to the zero location.
   */
  function Respawn(e: Entity, w: World): (r: EntityStep)
    ensures e.level.None? ==> r == EntityStep(e, [])
    ensures e.level.Some? ==>
      var level := e.level.value;
      && r.entity == e.(location := w.spawn(level), lastLocation := Origin)
      && r.out == [ToAll(w.clientsIn(level), DespawnOf(e.id)), ToAll(w.clientsIn(level), SpawnOf(e.id, w.spawn(level)))]
  {
    if e.level.None? then EntityStep(e, [])
    else
      var level := e.level.value;
      var gone := ToAll(w.clientsIn(level), DespawnOf(e.id));
      var back := e.(location := w.spawn(level), lastLocation := Origin);
      EntityStep(back, [gone, ToAll(w.clientsIn(level), SpawnOf(back.id, back.location))])
  }

  /**
   Because the seen pose is reset to the zero location, a spawn point away
   from the origin is broadcast again by the next update — as a teleport
   when it lies more than a block from the origin on some axis.
   */
  lemma RespawnIsRebroadcast(e: Entity, w: World)
    requires e.level.Some? && w.spawn(e.level.value) != Origin
    ensures var r := Respawn(e, w);
            var u := Update(r.entity, w);
            |u.out| == 1 && u.entity.lastLocation == w.spawn(e.level.value)
            && (FarMove(w.spawn(e.level.value), Origin) ==> u.out[0].notice.kind == Jump)
  {
  }
}

=== FILE: framing.dfy ===
/**
 The read side of the session loop: every inbound packet is one opcode byte
 followed by a payload whose length the opcode fixes. The loop reads an opcode,
 looks its frame size up, reads the rest of the frame and dispatches it. An
 opcode missing from the table consumes only its own byte and the loop goes on;
 a stream that ends inside a frame ends the session.

 The opcode values are those of the Classic protocol and its CPE extensions;
 the packet-type declarations are not part of this model.
 */
module Framing {
  import opened Wire
  import opened Optional

  const PacketTypeIdentification: byte := 0x00
  const PacketTypeSetBlockClient: byte := 0x05
  const PacketTypePlayerTeleport: byte := 0x08
  const PacketTypeMessage: byte := 0x0d
  const PacketTypeExtInfo: byte := 0x10
  const PacketTypeExtEntry: byte := 0x11
  const PacketTypeCustomBlockSupportLevel: byte := 0x13

  /** Width of every fixed-size protocol string. */
  const StringWidth: nat := 64

  /** The frame size of an inbound opcode, opcode byte included. */
  function FrameSize(op: byte): Option<nat> {
    if op == PacketTypeIdentification then Some(131)
    else if op == PacketTypeSetBlockClient then Some(9)
    else if op == PacketTypePlayerTeleport then Some(10)
    else if op == PacketTypeMessage then Some(66)
    else if op == PacketTypeExtInfo then Some(67)
    else if op == PacketTypeExtEntry then Some(69)
    else if op == PacketTypeCustomBlockSupportLevel then Some(2)
    else None
  }

  /**
   Each frame size is the opcode byte plus the packet's fields: identification
   carries a version byte, two strings and a type byte; set-block three 16-bit
   coordinates, a mode and a block; teleport an id, three 16-bit coordinates
   and two angle bytes; a message an id and a string; ExtInfo a string and a
   16-bit count; ExtEntry a string and a 32-bit version; the support level one
   byte. Nothing else is known.
   */
  lemma FrameSizesMatchLayouts(op: byte)
    ensures op == PacketTypeIdentification ==> FrameSize(op) == Some(1 + 1 + 2 * StringWidth + 1)
    ensures op == PacketTypeSetBlockClient ==> FrameSize(op) == Some(1 + 3 * 2 + 1 + 1)
    ensures op == PacketTypePlayerTeleport ==> FrameSize(op) == Some(1 + 1 + 3 * 2 + 1 + 1)
    ensures op == PacketTypeMessage ==> FrameSize(op) == Some(1 + 1 + StringWidth)
    ensures op == PacketTypeExtInfo ==> FrameSize(op) == Some(1 + StringWidth + 2)
    ensures op == PacketTypeExtEntry ==> FrameSize(op) == Some(1 + StringWidth + 4)
    ensures op == PacketTypeCustomBlockSupportLevel ==> FrameSize(op) == Some(1 + 1)
    ensures FrameSize(op).Some? <==> op in {0x00, 0x05, 0x08, 0x0d, 0x10, 0x11, 0x13}
    ensures FrameSize(op).Some? ==> FrameSize(op).value >= 2
  {
  }

  /** What one turn of the read loop consumes. */
  datatype Token =
    | Frame(bytes: seq<byte>)      // a complete frame, handed to its handler
    | Skipped(op: byte)            // an unknown opcode: one byte consumed, loop continues
    | Truncated(rest: seq<byte>)   // the stream ended inside a frame: disconnect

  function TokenBytes(t: Token): seq<byte> {
    match t
    case Frame(bs) => bs
    case Skipped(op) => [op]
    case Truncated(rest) => rest
  }

  function Concat(ts: seq<Token>): seq<byte> {
    if |ts| == 0 then [] else TokenBytes(ts[0]) + Concat(ts[1..])
  }

  /** A token the read loop can produce from the bytes it covers. */
  ghost predicate WellFormed(t: Token) {
    match t
    case Frame(bs) => |bs| >= 1 && FrameSize(bs[0]) == Some(|bs|)
    case Skipped(op) => FrameSize(op) == None
    case Truncated(rest) => |rest| >= 1 && FrameSize(rest[0]).Some? && |rest| < FrameSize(rest[0]).value
  }

  /** The turns of the read loop over a whole input stream. */
  function Tokenize(stream: seq<byte>): seq<Token>
    decreases |stream|
  {
    if |stream| == 0 then []
    else
      match FrameSize(stream[0])
      case None => [Skipped(stream[0])] + Tokenize(stream[1..])
      case Some(n) =>
        if |stream| < n then [Truncated(stream)]
        else [Frame(stream[..n])] + Tokenize(stream[n..])
  }

  /**
   The read loop loses no byte and invents none: its tokens cover the stream
   exactly, each token is well formed, and only the last may be truncated.
   */
  lemma {:induction false} TokenizeCoversStream(stream: seq<byte>)
    ensures Concat(Tokenize(stream)) == stream
    ensures forall i | 0 <= i < |Tokenize(stream)| :: WellFormed(Tokenize(stream)[i])
    ensures forall i | 0 <= i < |Tokenize(stream)| - 1 :: !Tokenize(stream)[i].Truncated?
    decreases |stream|
  {
    if |stream| > 0 {
      match FrameSize(stream[0])
      case None =>
        TokenizeCoversStream(stream[1..]);
        assert stream == [stream[0]] + stream[1..];
      case Some(n) =>
        FrameSizesMatchLayouts(stream[0]);
        if |stream| >= n {
          TokenizeCoversStream(stream[n..]);
          assert stream == stream[..n] + stream[n..];
        }
    }
  }

  /**
   The read loop itself: consumes the stream opcode by opcode and stops at the
   end of the stream or inside a frame.
   */
  method ReadLoop(stream: seq<byte>) returns (tokens: seq<Token>)
    ensures tokens == Tokenize(stream)
  {
    tokens := [];
    var pos := 0;
    while pos < |stream|
      invariant 0 <= pos <= |stream|
      invariant tokens + Tokenize(stream[pos..]) == Tokenize(stream)
      decreases |stream| - pos
    {
      var id := stream[pos];
      var rest := stream[pos..];
      match FrameSize(id)
      case None =>
        assert rest[1..] == stream[pos + 1..];
        assert Tokenize(rest) == [Skipped(id)] + Tokenize(stream[pos + 1..]);
        assert tokens + [Skipped(id)] + Tokenize(stream[pos + 1..]) == tokens + Tokenize(rest);
        tokens := tokens + [Skipped(id)];
        pos := pos + 1;
      case Some(size) =>
        if |stream| - pos < size {
          assert Tokenize(rest) == [Truncated(rest)];
          assert stream[|stream|..] == [];
          tokens := tokens + [Truncated(stream[pos..])];
          pos := |stream|;
        } else {
          FrameSizesMatchLayouts(id);
          assert rest[size..] == stream[pos + size..];
          assert rest[..size] == stream[pos..pos + size];
          assert Tokenize(rest) == [Frame(stream[pos..pos + size])] + Tokenize(stream[pos + size..]);
          assert tokens + [Frame(stream[pos..pos + size])] + Tokenize(stream[pos + size..]) == tokens + Tokenize(rest);
          tokens := tokens + [Frame(stream[pos..pos + size])];
          pos := pos + size;
        }
    }
  }
}

=== FILE: geometry.dfy ===
/**
 Poses of entities. The source stores them as `float64`; here they are exact
 reals, so the model is silent about floating-point rounding.

 On the wire a coordinate is a fixed-point number in 1/32 of a block and an
 angle is a byte in 1/256 of a turn; the conversions here are the source's
 `x * 32` and `yaw * 256 / 360` before the integer cast, and their inverses.
 */
module Geometry {
  import opened Wire

  /** X, Y, Z in world units; Yaw and Pitch in degrees. Equality is field-wise. */
  datatype Location = Location(x: real, y: real, z: real, yaw: real, pitch: real)

  /** The zero value `Location{}`. */
  const Origin: Location := Location(0.0, 0.0, 0.0, 0.0, 0.0)

  function Abs(r: real): real {
    if r < 0.0 then -r else r
  }

  /** A fixed-point coordinate in world units. */
  function FromFixed(v: int): real {
    v as real / 32.0
  }

  /** A coordinate as fixed point, truncated toward zero: the largest step of 1/32 not past it. */
  function ToFixed(r: real): (v: int)
    ensures r >= 0.0 ==> FromFixed(v) <= r < FromFixed(v) + 1.0 / 32.0
    ensures r < 0.0 ==> FromFixed(v) - 1.0 / 32.0 < r <= FromFixed(v)
  {
    Trunc(r * 32.0)
  }

  /** An angle byte in degrees. */
  function FromAngle(b: int): real {
    b as real * 360.0 / 256.0
  }

  /** An angle in 1/256 of a turn, truncated toward zero. */
  function ToAngle(r: real): (b: int)
    ensures r >= 0.0 ==> FromAngle(b) <= r < FromAngle(b + 1)
    ensures r < 0.0 ==> FromAngle(b - 1) < r <= FromAngle(b)
  {
    Trunc(r * 256.0 / 360.0)
  }

  /** Every fixed-point coordinate survives the trip to world units and back. */
  lemma FixedRoundTrip(v: int)
    ensures ToFixed(FromFixed(v)) == v
  {
    assert FromFixed(v) * 32.0 == v as real;
  }

  /** Every angle byte survives the trip to degrees and back. */
  lemma AngleRoundTrip(b: int)
    ensures ToAngle(FromAngle(b)) == b
  {
    assert FromAngle(b) * 256.0 / 360.0 == b as real;
  }

  /**
   A pose as the spawn, add-entity and teleport packets carry it: coordinates
   as `int16` in 1/32 of a block, angles as bytes in 1/256 of a turn.
   */
  datatype WirePose = WirePose(x: int, y: int, z: int, yaw: byte, pitch: byte)

  /**
   The outbound encoding `int16(c * 32)` and `byte(a * 256 / 360)`: each
   field is the truncated fixed-point or angle value reduced to its width.
   */
  function EncodePose(l: Location): (p: WirePose)
    ensures -0x8000 <= p.x < 0x8000 && -0x8000 <= p.y < 0x8000 && -0x8000 <= p.z < 0x8000
    ensures (ToFixed(l.x) - p.x) % 0x1_0000 == 0 && (ToFixed(l.y) - p.y) % 0x1_0000 == 0
            && (ToFixed(l.z) - p.z) % 0x1_0000 == 0
    ensures (ToAngle(l.yaw) - p.yaw) % 0x100 == 0 && (ToAngle(l.pitch) - p.pitch) % 0x100 == 0
  {
    WirePose(ToInt16(ToFixed(l.x)), ToInt16(ToFixed(l.y)), ToInt16(ToFixed(l.z)),
             ToAngle(l.yaw) % 0x100, ToAngle(l.pitch) % 0x100)
  }

  /** The pose a client's position packet describes. */
  function WireLocation(x: int, y: int, z: int, yaw: byte, pitch: byte): Location {
    Location(FromFixed(x), FromFixed(y), FromFixed(z), FromAngle(yaw), FromAngle(pitch))
  }

  /**
   A pose read from the wire re-encodes to the same fields, so two position
   packets describe the same pose exactly when their fields agree.
   */
  lemma WireLocationRoundTrip(x: int, y: int, z: int, yaw: byte, pitch: byte)
    ensures var l := WireLocation(x, y, z, yaw, pitch);
            ToFixed(l.x) == x && ToFixed(l.y) == y && ToFixed(l.z) == z
            && ToAngle(l.yaw) == yaw && ToAngle(l.pitch) == pitch
  {
    FixedRoundTrip(x);
    FixedRoundTrip(y);
    FixedRoundTrip(z);
    AngleRoundTrip(yaw);
    AngleRoundTrip(pitch);
  }

  /**
   A pose read from a position packet goes back out as the same five fields,
   so what a client reports is exactly what the others are sent.
   */
  lemma EncodeWireLocation(x: int, y: int, z: int, yaw: byte, pitch: byte)
    requires -0x8000 <= x < 0x8000 && -0x8000 <= y < 0x8000 && -0x8000 <= z < 0x8000
    ensures EncodePose(WireLocation(x, y, z, yaw, pitch)) == WirePose(x, y, z, yaw, pitch)
  {
    WireLocationRoundTrip(x, y, z, yaw, pitch);
  }
}

=== FILE: handlers.dfy ===
/**
 The packet handlers of a session and the read loop that drives them: the
 identification handshake with its optional extension negotiation, block
 edits with the reach check, moves, chat, and the dispatcher and loop over a
 whole input stream.

 Where the source misbehaves, the handler as written is kept next to the
 corrected one; the dispatcher uses the corrected handlers.
 */
module Handlers {
  import opened Wire
  import opened Optional
  import opened Geometry
  import Text
  import Validation
  import Commands
  import Framing
  import Inbound
  import opened Sessions
  import opened Outbound

  /** What the world outside the session contributes to handling one packet. */
  datatype Env = Env(
    md5: string -> string,               // the MD5 digest of the salted name
    join: JoinEnv,                       // the join listeners' verdict and the id the registry hands out
    cancel: bool,                        // whether a listener cancels this packet's move, break or place event
    getBlock: (nat, nat, nat) -> byte,   // reads the block grid of the entity's level
    blockMax: int,                       // the last classic block id
    blockMaxCPE: int,                    // the last block id of the CustomBlocks extension
    fallback: byte -> byte,              // the classic stand-in for a custom block
    software: string)                    // the software name announced with the extensions

  const ProtocolVersion: byte := 0x07
  const ClientTypeCPE: byte := 0x42
  const DigestSize: nat := 16
  const BlockAir: byte := 0

  /** The salted name check: a key of exactly the digest size equal to the digest. */
  function Verify(salt: string, name: string, key: string, md5: string -> string): (ok: bool)
    ensures ok ==> |key| == DigestSize
  {
    |key| == DigestSize && md5(salt + name) == key
  }

  /** The first failed check of a list of (passed, kick reason) pairs. */
  function FirstFailed(checks: seq<(bool, string)>): Option<string> {
    if |checks| == 0 then None
    else if !checks[0].0 then Some(checks[0].1)
    else FirstFailed(checks[1..])
  }

  lemma FirstFailedOfFour(a: (bool, string), b: (bool, string), c: (bool, string), d: (bool, string))
    ensures FirstFailed([a, b, c, d]) ==
      if !a.0 then Some(a.1) else if !b.0 then Some(b.1) else if !c.0 then Some(c.1) else if !d.0 then Some(d.1) else None
  {
    assert [a, b, c, d][1..] == [b, c, d];
    assert [b, c, d][1..] == [c, d];
    assert [c, d][1..] == [d];
    assert [d][1..] == [];
    assert FirstFailed([d]) == if !d.0 then Some(d.1) else None;
    assert FirstFailed([c, d]) == if !c.0 then Some(c.1) else FirstFailed([d]);
    assert FirstFailed([b, c, d]) == if !b.0 then Some(b.1) else FirstFailed([c, d]);
  }

  /**
   The identification checks in the order the handler applies them, each
   with the reason a client failing it is kicked with.
   */
  function IdentificationChecks(sv: Server, p: Inbound.InPacket, md5: string -> string): seq<(bool, string)>
    requires p.Identification?
  {
    var name := Text.TrimString(p.name);
    [ (p.protocolVersion == ProtocolVersion, "Wrong version!"),
      (Validation.IsValidName(name), "Invalid name!"),
      (!sv.config.verify || Verify(sv.config.salt, name, Text.TrimString(p.verificationKey), md5), "Login failed!"),
      (!NameTaken(sv, name), "Already logged in!") ]
  }

  /**
   Identification. Ignored once logged in. Otherwise the first failed check
   kicks with its reason and nothing else happens; a client that passes them
   all and announces the extension protocol gets the extension list, any
   other client logs in directly.
   */
  function HandleIdentification(s: Session, sv: Server, p: Inbound.InPacket, env: Env): (r: Step)
    requires p.Identification?
    ensures s.loggedIn ==> r == Step(s, sv, [])
    ensures !s.loggedIn && FirstFailed(IdentificationChecks(sv, p, env.md5)).Some? ==>
      && !r.session.connected && !r.session.loggedIn && r.server == sv
      && (s.connected ==> |r.effects| >= 1 && r.effects[0] == Send(DisconnectPlayer(FirstFailed(IdentificationChecks(sv, p, env.md5)).value)))
    ensures !s.loggedIn && FirstFailed(IdentificationChecks(sv, p, env.md5)).None? && p.clientType == ClientTypeCPE ==>
      r == Step(s.(clientName := Text.TrimString(p.name), hasCPE := true), sv, SendCPE(s, env.software))
    ensures !s.loggedIn && FirstFailed(IdentificationChecks(sv, p, env.md5)).None? && p.clientType != ClientTypeCPE ==>
      r == Login(s.(clientName := Text.TrimString(p.name)), sv, env.join)
  {
    var checks := IdentificationChecks(sv, p, env.md5);
    FirstFailedOfFour(checks[0], checks[1], checks[2], checks[3]);
    assert checks == [checks[0], checks[1], checks[2], checks[3]];
    if s.loggedIn then Step(s, sv, [])
    else if p.protocolVersion != ProtocolVersion then Kick(s, sv, "Wrong version!")
    else
      var named := s.(clientName := Text.TrimString(p.name));
      if !Validation.IsValidName(named.clientName) then Kick(named, sv, "Invalid name!")
      else if sv.config.verify && !Verify(sv.config.salt, named.clientName, Text.TrimString(p.verificationKey), env.md5) then
        Kick(named, sv, "Login failed!")
      else if NameTaken(sv, named.clientName) then Kick(named, sv, "Already logged in!")
      else if p.clientType == ClientTypeCPE then Step(named.(hasCPE := true), sv, SendCPE(named, env.software))
      else Login(named, sv, env.join)
  }

  /**
   The extension count. It is stored as the number of entries still to come;
   a negative count sign-extends to a huge one. A count of zero logs in at once.
   */
  function HandleExtInfo(s: Session, sv: Server, p: Inbound.InPacket, join: JoinEnv): (r: Step)
    requires p.ExtInfo? && Inbound.InRange(p)
    ensures p.extensionCount == 0 ==> r == Login(s.(remainingExtensions := 0), sv, join)
    ensures p.extensionCount > 0 ==> r == Step(s.(remainingExtensions := p.extensionCount), sv, [])
    ensures p.extensionCount < 0 ==> r.session.remainingExtensions >= Uint64Modulus - 0x8000 && r.effects == []
    ensures p.extensionCount < 0 ==> r == Step(s.(remainingExtensions := Int16ToUint(p.extensionCount)), sv, [])
  {
    var n := Int16ToUint(p.extensionCount);
    var counted := s.(remainingExtensions := n);
    if n == 0 then Login(counted, sv, join) else Step(counted, sv, [])
  }

  /** The first entry of `Extensions[i..]` with exactly this name and version. */
  function MatchFrom(name: string, version: int, i: nat): (m: Option<Extension>)
    requires i <= |Extensions|
    ensures m.Some? <==> exists j | i <= j < |Extensions| :: Extensions[j] == Extension(name, version)
    ensures m.Some? ==> m.value == Extension(name, version)
    decreases |Extensions| - i
  {
    if i == |Extensions| then None
    else if Extensions[i].name == name && Extensions[i].version == version then Some(Extensions[i])
    else MatchFrom(name, version, i + 1)
  }

  /** The extensions after an entry: recorded only when name and version match a table entry exactly. */
  function RecordExtension(s: Session, name: string, version: int): (ext: map<string, int>)
    ensures Extension(name, version) in Extensions ==> ext == s.extensions[name := version]
    ensures Extension(name, version) !in Extensions ==> ext == s.extensions
  {
    match MatchFrom(name, version, 0)
    case Some(e) => s.extensions[e.name := e.version]
    case None => s.extensions
  }

  /** An extension entry as the source handles it: the count is decremented even at zero. */
  function HandleExtEntryAsWritten(s: Session, sv: Server, p: Inbound.InPacket, join: JoinEnv): (r: Step)
    requires p.ExtEntry?
    ensures s.remainingExtensions != 1 ==>
      r == Step(s.(extensions := RecordExtension(s, Text.TrimString(p.extName), p.version),
                   remainingExtensions := DecUint64(s.remainingExtensions)), sv, [])
    ensures s.remainingExtensions == 1 ==>
      r == LoginAsWritten(s.(extensions := RecordExtension(s, Text.TrimString(p.extName), p.version),
                             remainingExtensions := 0), sv, join)
  {
    var recorded := s.(extensions := RecordExtension(s, Text.TrimString(p.extName), p.version));
    var n := DecUint64(s.remainingExtensions);
    var counted := recorded.(remainingExtensions := n);
    if n == 0 then LoginAsWritten(counted, sv, join) else Step(counted, sv, [])
  }

  /**
   The last entry as written logs in through the source's login, so a vetoed
   join there keeps its slot too: the count stays one higher after the kick.
   */
  lemma LastEntryVetoLeaksSlot(s: Session, sv: Server, p: Inbound.InPacket, reason: string)
    requires p.ExtEntry? && s.remainingExtensions == 1
    requires s.connected && !s.loggedIn
    requires sv.playerCount < sv.config.maxPlayers
    ensures var r := HandleExtEntryAsWritten(s, sv, p, JoinEnv(Some(reason), 0, false));
            && !r.session.loggedIn && !r.session.connected
            && r.server.playerCount == sv.playerCount + 1
  {
    var counted := s.(extensions := RecordExtension(s, Text.TrimString(p.extName), p.version), remainingExtensions := 0);
    LoginVetoLeaksSlot(counted, sv, reason);
  }

  /**
   An entry arriving when none is expected wraps the count around to 2^64 - 1:
   the count now claims more entries to come than any announcement could.
   */
  lemma ExtEntryUnderflow(s: Session, sv: Server, p: Inbound.InPacket, join: JoinEnv)
    requires p.ExtEntry? && s.remainingExtensions == 0
    ensures HandleExtEntryAsWritten(s, sv, p, join).session.remainingExtensions == Uint64Modulus - 1
  {
  }

  /**
   An extension entry: recorded on an exact match, and counted against the
   announced number — never below zero. The entry that brings the count to
   zero logs in; the count never grows.
   */
  function HandleExtEntry(s: Session, sv: Server, p: Inbound.InPacket, join: JoinEnv): (r: Step)
    requires p.ExtEntry?
    ensures r.session.remainingExtensions <= s.remainingExtensions
    ensures s.remainingExtensions == 1 ==>
      r == Login(s.(extensions := RecordExtension(s, Text.TrimString(p.extName), p.version), remainingExtensions := 0), sv, join)
    ensures s.remainingExtensions != 1 ==> r.server == sv && r.effects == [] && !r.session.loggedIn == !s.loggedIn
    ensures s.remainingExtensions != 1 ==>
      r.session == s.(extensions := RecordExtension(s, Text.TrimString(p.extName), p.version),
                      remainingExtensions := if s.remainingExtensions == 0 then 0 else s.remainingExtensions - 1)
  {
    var recorded := s.(extensions := RecordExtension(s, Text.TrimString(p.extName), p.version));
    if s.remainingExtensions == 0 then Step(recorded, sv, [])
    else
      var counted := recorded.(remainingExtensions := s.remainingExtensions - 1);
      if counted.remainingExtensions == 0 then Login(counted, sv, join) else Step(counted, sv, [])
  }

  /** The custom-block support level: only levels 0 and 1 are accepted. */
  function HandleCustomBlockSupportLevel(s: Session, p: Inbound.InPacket): (r: Session)
    requires p.CustomBlockSupportLevel?
    ensures r == s.(customBlockSupportLevel := r.customBlockSupportLevel)
    ensures s.customBlockSupportLevel <= 1 ==> r.customBlockSupportLevel <= 1
    ensures p.supportLevel <= 1 ==> r.customBlockSupportLevel == p.supportLevel
    ensures p.supportLevel > 1 ==> r == s
  {
    if p.supportLevel <= 1 then s.(customBlockSupportLevel := p.supportLevel) else s
  }

  /** Go's `uint(f)` for a coordinate: truncation toward zero, then reduction to 64 bits. */
  function FloatToUint(r: real): uint64 {
    WrapUint64(Trunc(r))
  }

  /** `d*d` for the `uint` difference `d := uint(c) - x`, both operations wrapping. */
  function AxisSquare(c: real, x: uint64): uint64 {
    var d := WrapUint64(FloatToUint(c) - x);
    WrapUint64(d * d)
  }

  /** `dx*dx + dy*dy + dz*dz` over `uint` differences, every operation wrapping. */
  function ReachSquare(at: Location, x: uint64, y: uint64, z: uint64): uint64 {
    WrapUint64(WrapUint64(AxisSquare(at.x, x) + AxisSquare(at.y, y)) + AxisSquare(at.z, z))
  }

  /** `sqrt(sq) > reach`, decided on squares: a negative reach refuses everything. */
  predicate OutOfReach(sq: nat, reach: real) {
    reach < 0.0 || sq as real > reach * reach
  }

  lemma ModMultiple(k: int, r: nat)
    requires r < Uint64Modulus
    ensures (Uint64Modulus * k + r) % Uint64Modulus == r
  {
  }

  /** The wrapped square of a difference of 16-bit values is the true square. */
  lemma WrappedSquareExact(a: nat, b: nat)
    requires a < 0x1_0000 && b < 0x1_0000
    ensures WrapUint64(WrapUint64(a - b) * WrapUint64(a - b)) == (a - b) * (a - b)
    ensures (a - b) * (a - b) < 0x1_0000_0000
  {
    var d := a - b;
    assert d * d < 0x1_0000_0000 by {
      assert -0x1_0000 < d < 0x1_0000;
    }
    if d < 0 {
      var w := Uint64Modulus + d;
      assert WrapUint64(d) == w;
      assert w * w == Uint64Modulus * (Uint64Modulus + 2 * d) + d * d;
      ModMultiple(Uint64Modulus + 2 * d, d * d);
    }
  }

  /**
   For an entity and a target cell both within 16-bit coordinates, the
   wrapping `uint` arithmetic yields the exact squared distance.
   */
  lemma ReachSquareExact(at: Location, x: nat, y: nat, z: nat)
    requires 0.0 <= at.x < 65536.0 && 0.0 <= at.y < 65536.0 && 0.0 <= at.z < 65536.0
    requires x < 0x1_0000 && y < 0x1_0000 && z < 0x1_0000
    ensures var ex, ey, ez := at.x.Floor, at.y.Floor, at.z.Floor;
            ReachSquare(at, x, y, z) == (ex - x) * (ex - x) + (ey - y) * (ey - y) + (ez - z) * (ez - z)
  {
    AxisSquareExact(at.x, x);
    AxisSquareExact(at.y, y);
    AxisSquareExact(at.z, z);
  }

  lemma AxisSquareExact(c: real, x: nat)
    requires 0.0 <= c < 65536.0 && x < 0x1_0000
    ensures AxisSquare(c, x) == (c.Floor - x) * (c.Floor - x)
    ensures AxisSquare(c, x) < 0x1_0000_0000
  {
    SmallFloatToUint(c);
    WrappedSquareExact(c.Floor, x);
  }

  lemma SmallFloatToUint(c: real)
    requires 0.0 <= c < 65536.0
    ensures FloatToUint(c) == c.Floor && c.Floor < 0x1_0000
  {
  }

  /** Whether the effects contain a change to the block grid. */
  predicate EditsWorld(effects: seq<Effect>) {
    |effects| > 0 && (effects[0].WorldSetBlock? || EditsWorld(effects[1..]))
  }

  lemma {:induction false} EditsWorldAppend(a: seq<Effect>, b: seq<Effect>)
    ensures EditsWorld(a + b) <==> EditsWorld(a) || EditsWorld(b)
  {
    if |a| == 0 {
      assert a + b == b;
    } else {
      assert (a + b)[0] == a[0];
      assert (a + b)[1..] == a[1..] + b;
      EditsWorldAppend(a[1..], b);
    }
  }

  /** Packets sent to the client never touch the grid. */
  lemma {:induction false} SendsDoNotEdit(out: seq<Effect>)
    requires forall i | 0 <= i < |out| :: out[i].Send?
    ensures !EditsWorld(out)
  {
    if |out| > 0 {
      SendsDoNotEdit(out[1..]);
    }
  }

  /** The block id a client may place: within the custom range, and classic unless it supports custom blocks. */
  predicate PlaceAllowed(s: Session, block: byte, env: Env) {
    !(block > env.blockMaxCPE || (s.customBlockSupportLevel < 1 && block > env.blockMax))
  }

  /** How a block edit that reaches the handler ends. */
  datatype EditVerdict =
    | NoOp                                  // a mode other than break (0) or place (1)
    | TooFar                                // out of reach: message and revert
    | BadBlock                              // a place of a block the client may not use: message and revert
    | Cancelled(event: Event)               // a listener cancelled the break or place: revert
    | Applied(event: Event, block: byte)    // the cell is set to `block`

  /** The verdict on an edit of cell (x, y, z) by a logged-in session. */
  function Judge(s: Session, x: uint64, y: uint64, z: uint64, mode: byte, block: byte, env: Env): (v: EditVerdict)
    requires Valid(s) && s.loggedIn
    ensures v.Applied? <==>
      && !OutOfReach(ReachSquare(s.entity.value.location, x, y, z), s.clickDistance)
      && (mode == 0 || (mode == 1 && PlaceAllowed(s, block, env)))
      && !env.cancel
    ensures v.Applied? ==> v.block == (if mode == 0 then BlockAir else block)
    ensures v.TooFar? <==> OutOfReach(ReachSquare(s.entity.value.location, x, y, z), s.clickDistance)
    ensures v.NoOp? <==> !OutOfReach(ReachSquare(s.entity.value.location, x, y, z), s.clickDistance) && mode != 0 && mode != 1
    ensures v.BadBlock? <==>
      !OutOfReach(ReachSquare(s.entity.value.location, x, y, z), s.clickDistance) && mode == 1 && !PlaceAllowed(s, block, env)
    ensures v.Cancelled? <==>
      && !OutOfReach(ReachSquare(s.entity.value.location, x, y, z), s.clickDistance)
      && (mode == 0 || (mode == 1 && PlaceAllowed(s, block, env)))
      && env.cancel
    ensures v.Cancelled? || v.Applied? ==> v.event == (if mode == 0 then BlockBreakEvent else BlockPlaceEvent)
  {
    if OutOfReach(ReachSquare(s.entity.value.location, x, y, z), s.clickDistance) then TooFar
    else if mode == 0 then
      if env.cancel then Cancelled(BlockBreakEvent) else Applied(BlockBreakEvent, BlockAir)
    else if mode == 1 then
      if !PlaceAllowed(s, block, env) then BadBlock
      else if env.cancel then Cancelled(BlockPlaceEvent) else Applied(BlockPlaceEvent, block)
    else NoOp
  }

  /** What the client and the world see of a verdict; a refused edit re-sends the true block. */
  function EditEffects(s: Session, x: uint64, y: uint64, z: uint64, v: EditVerdict, env: Env): (out: seq<Effect>)
    ensures EditsWorld(out) <==> v.Applied?
    ensures v.Applied? ==> out[|out| - 1] == WorldSetBlock(x, y, z, v.block)
    ensures !v.Applied? && !v.NoOp? && s.loggedIn && s.connected ==>
      |out| > 0 && out[|out| - 1] == Send(SetBlock(ToInt16(x), ToInt16(y), ToInt16(z), ConvertBlock(s, env.getBlock(x, y, z), env.fallback)))
    ensures v.NoOp? ==> out == []
    ensures v.TooFar? ==>
      out == SendMessage(s, "You can't build that far away.") + SendBlockChange(s, x, y, z, env.getBlock(x, y, z), env.fallback)
    ensures v.BadBlock? ==>
      out == SendMessage(s, "Invalid block!") + SendBlockChange(s, x, y, z, env.getBlock(x, y, z), env.fallback)
    ensures v.Cancelled? ==> out == [Fire(v.event)] + SendBlockChange(s, x, y, z, env.getBlock(x, y, z), env.fallback)
    ensures v.Applied? ==> out == [Fire(v.event), WorldSetBlock(x, y, z, v.block)]
  {
    var revert := SendBlockChange(s, x, y, z, env.getBlock(x, y, z), env.fallback);
    SendsDoNotEdit(revert);
    match v
    case NoOp => []
    case TooFar => Refuse(s, "You can't build that far away.", revert)
    case BadBlock => Refuse(s, "Invalid block!", revert)
    case Cancelled(event) =>
      EditsWorldAppend([Fire(event)], revert);
      assert [Fire(event)][1..] == [];
      [Fire(event)] + revert
    case Applied(event, block) =>
      var out := [Fire(event), WorldSetBlock(x, y, z, block)];
      assert out[1..][0].WorldSetBlock?;
      out
  }

  /** A refusal: the message, then the revert. */
  function Refuse(s: Session, text: string, revert: seq<Effect>): (out: seq<Effect>)
    requires !EditsWorld(revert)
    ensures !EditsWorld(out)
    ensures |out| >= |revert|
    ensures |revert| > 0 ==> out[|out| - 1] == revert[|revert| - 1]
  {
    var message := SendMessage(s, text);
    SendsDoNotEdit(message);
    EditsWorldAppend(message, revert);
    message + revert
  }

  /**
   A block edit. Ignored before login. An edit out of reach is refused with a
   message and the true block re-sent; a break clears the cell to air and a
   place writes the block, each only if no listener cancels it (a cancelled
   edit re-sends the true block); a place of a block the client may not use
   is refused like an edit out of reach. Other modes do nothing.
   */
  function HandleSetBlock(s: Session, sv: Server, p: Inbound.InPacket, env: Env): (r: Step)
    requires Valid(s) && p.SetBlockClient? && Inbound.InRange(p)
    ensures r.session == s && r.server == sv
    ensures !s.loggedIn ==> r.effects == []
    ensures EditsWorld(r.effects) <==>
      && s.loggedIn
      && !OutOfReach(ReachSquare(s.entity.value.location, Int16ToUint(p.x), Int16ToUint(p.y), Int16ToUint(p.z)), s.clickDistance)
      && (p.mode == 0 || (p.mode == 1 && PlaceAllowed(s, p.blockType, env)))
      && !env.cancel
    ensures EditsWorld(r.effects) ==>
      r.effects[|r.effects| - 1] ==
        WorldSetBlock(Int16ToUint(p.x), Int16ToUint(p.y), Int16ToUint(p.z), if p.mode == 0 then BlockAir else p.blockType)
    ensures s.loggedIn && p.mode != 0 && p.mode != 1
            && !OutOfReach(ReachSquare(s.entity.value.location, Int16ToUint(p.x), Int16ToUint(p.y), Int16ToUint(p.z)), s.clickDistance) ==>
      r.effects == []
    ensures s.loggedIn && (p.mode == 0 || (p.mode == 1 && PlaceAllowed(s, p.blockType, env)))
            && !OutOfReach(ReachSquare(s.entity.value.location, Int16ToUint(p.x), Int16ToUint(p.y), Int16ToUint(p.z)), s.clickDistance) ==>
      |r.effects| >= 1 && r.effects[0] == Fire(if p.mode == 0 then BlockBreakEvent else BlockPlaceEvent)
  {
    if !s.loggedIn then Step(s, sv, [])
    else
      var x, y, z := Int16ToUint(p.x), Int16ToUint(p.y), Int16ToUint(p.z);
      Step(s, sv, EditEffects(s, x, y, z, Judge(s, x, y, z, p.mode, p.blockType, env), env))
  }

  /**
   A position report. Ignored before login and for any id but 0xff (the
   client itself). A report of the pose the entity already has does nothing;
   any other fires a move event, and then either snaps the client back to its
   old pose (the event was cancelled) or stores the new one.
   */
  function HandlePlayerTeleport(s: Session, sv: Server, p: Inbound.InPacket, cancel: bool): (r: Step)
    requires Valid(s) && p.PlayerTeleport?
    ensures r.server == sv && Valid(r.session)
    ensures r.session == s.(entity := r.session.entity)
    ensures !s.loggedIn || p.playerId != 0xff ==> r == Step(s, sv, [])
    ensures s.loggedIn && p.playerId == 0xff ==>
      var target := WireLocation(p.x, p.y, p.z, p.yaw, p.pitch);
      var before := s.entity.value;
      && r.session.entity.Some?
      && r.session.entity.value == before.(location := r.session.entity.value.location)
      && (target == before.location ==> r == Step(s, sv, []))
      && (target != before.location ==> |r.effects| >= 1 && r.effects[0] == Fire(MoveEvent))
      && (target != before.location && !cancel ==> r.session.entity.value.location == target && |r.effects| == 1)
      && (target != before.location && cancel ==> r.session == s && r.effects[1..] == SendTeleport(s, before))
  {
    if !s.loggedIn || p.playerId != 0xff then Step(s, sv, [])
    else
      var target := WireLocation(p.x, p.y, p.z, p.yaw, p.pitch);
      var e := s.entity.value;
      if target == e.location then Step(s, sv, [])
      else if cancel then Step(s, sv, [Fire(MoveEvent)] + SendTeleport(s, e))
      else Step(s.(entity := Some(e.(location := target))), sv, [Fire(MoveEvent)])
  }

  /** Once a move is stored, the same report again changes nothing and fires nothing. */
  lemma RepeatedMoveIsQuiet(s: Session, sv: Server, p: Inbound.InPacket)
    requires Valid(s) && p.PlayerTeleport?
    ensures var r := HandlePlayerTeleport(s, sv, p, false);
            HandlePlayerTeleport(r.session, r.server, p, false) == Step(r.session, r.server, [])
  {
  }

  /**
   A stored move keeps the client's own fixed-point fields: re-encoding the
   entity's pose, as every teleport and spawn packet does, gives back exactly
   the coordinates and angles the client sent.
   */
  lemma StoredMoveReencodes(s: Session, sv: Server, p: Inbound.InPacket)
    requires Valid(s) && s.loggedIn && p.PlayerTeleport? && p.playerId == 0xff
    ensures var l := HandlePlayerTeleport(s, sv, p, false).session.entity.value.location;
            ToFixed(l.x) == p.x && ToFixed(l.y) == p.y && ToFixed(l.z) == p.z
            && ToAngle(l.yaw) == p.yaw && ToAngle(l.pitch) == p.pitch
  {
    WireLocationRoundTrip(p.x, p.y, p.z, p.yaw, p.pitch);
  }

  /**
   After a stored move, the teleport packet the others are sent for this
   entity carries exactly the fields of the client's own report.
   */
  lemma StoredMoveIsEchoed(s: Session, sv: Server, p: Inbound.InPacket, viewer: Session)
    requires Valid(s) && s.loggedIn && p.PlayerTeleport? && p.playerId == 0xff && Inbound.InRange(p)
    requires Valid(viewer) && viewer.loggedIn
    ensures var r := HandlePlayerTeleport(s, sv, p, false);
            var out := SendTeleport(viewer, r.session.entity.value);
            |out| == 1 && out[0].packet.pose == WirePose(p.x, p.y, p.z, p.yaw, p.pitch)
  {
    var r := HandlePlayerTeleport(s, sv, p, false);
    assert r.session.entity.value.location == WireLocation(p.x, p.y, p.z, p.yaw, p.pitch);
    EncodeWireLocation(p.x, p.y, p.z, p.yaw, p.pitch);
  }

  /**
   A block a client may place is shown back to it unchanged, provided the
   fallback leaves classic blocks alone: a client without custom-block support
   may only place classic blocks.
   */
  lemma AllowedBlockShownUnchanged(s: Session, block: byte, env: Env)
    requires PlaceAllowed(s, block, env)
    requires forall b: byte | b <= env.blockMax :: env.fallback(b) == b
    ensures ConvertBlock(s, block, env.fallback) == block
  {
  }

  /**
   Announcing support level 1 makes every later block travel unchanged;
   announcing level 0 routes every block through the fallback; a higher level
   is ignored.
   */
  lemma SupportLevelDecidesConversion(s: Session, p: Inbound.InPacket, block: byte, fallback: byte -> byte)
    requires p.CustomBlockSupportLevel?
    ensures var t := HandleCustomBlockSupportLevel(s, p);
            && (p.supportLevel == 1 ==> ConvertBlock(t, block, fallback) == block)
            && (p.supportLevel == 0 ==> ConvertBlock(t, block, fallback) == fallback(block))
            && (p.supportLevel > 1 ==> ConvertBlock(t, block, fallback) == ConvertBlock(s, block, fallback))
  {
  }

  /** The chat line so far, with this packet's text appended. */
  function ChatLine(s: Session, p: Inbound.InPacket): string
    requires p.Message?
  {
    s.message + Text.TrimString(p.message)
  }

  /** A packet that only continues a longer message: a nonzero id and the LongerMessages extension. */
  predicate Continues(s: Session, p: Inbound.InPacket)
    requires p.Message?
  {
    p.playerId != 0 && HasExtension(s, "LongerMessages")
  }

  /**
   The chat handler. `panicOnEmpty` selects what happens to a complete line
   that is empty: the source indexes its first character and panics.
   */
  function MessageSteps(s: Session, sv: Server, p: Inbound.InPacket, panicOnEmpty: bool): (r: Step)
    requires Valid(s) && p.Message?
    ensures r.server == sv && r.session == s.(message := r.session.message)
  {
    if !s.loggedIn then Step(s, sv, [])
    else
      var line := ChatLine(s, p);
      if Continues(s, p) then Step(s.(message := line), sv, [])
      else
        var cleared := s.(message := "");
        if !Validation.IsValidMessage(line) then Step(cleared, sv, SendMessage(cleared, "Invalid message!"))
        else if |line| == 0 then Step(cleared, sv, if panicOnEmpty then [Panic("index out of range")] else [])
        else if line[0] == '/' then Step(cleared, sv, [RunCommand(line[1..])])
        else Step(cleared, sv, [ChatFrom(s.entity.value.name, line)])
  }

  /** The chat handler as the source writes it. */
  function HandleMessageAsWritten(s: Session, sv: Server, p: Inbound.InPacket): (r: Step)
    requires Valid(s) && p.Message?
    ensures r.server == sv && r.session == s.(message := r.session.message)
    ensures !s.loggedIn ==> r == Step(s, sv, [])
  {
    MessageSteps(s, sv, p, true)
  }

  /**
   Whenever the line to be handled is not empty, the source's chat handler and
   the corrected one are the same: they differ only on the blank line.
   */
  lemma MessageAsWrittenAgreesOffBlank(s: Session, sv: Server, p: Inbound.InPacket)
    requires Valid(s) && p.Message?
    requires s.loggedIn && !Continues(s, p) ==> |ChatLine(s, p)| > 0
    ensures HandleMessageAsWritten(s, sv, p) == HandleMessage(s, sv, p)
  {
  }

  /**
   A complete line of padding only — an all-space message with id 0 and
   nothing buffered — trims to the empty string, passes the validity check,
   and is then indexed at position 0.
   */
  lemma BlankMessagePanics(s: Session, sv: Server, text: string)
    requires Valid(s) && s.loggedIn && s.message == ""
    requires forall i | 0 <= i < |text| :: text[i] == ' '
    ensures HandleMessageAsWritten(s, sv, Inbound.Message(0, text)).effects == [Panic("index out of range")]
  {
    Text.AllSpacesTrimToEmpty(text);
    Validation.EmptyMessageIsValid();
  }

  /**
   Chat. Before login nothing happens. A continuation packet only grows the
   buffered line. Otherwise the buffer is emptied and the complete line is
   refused when invalid, ignored when empty, run as a command when it starts
   with `/` (without the slash), and broadcast as the player's chat otherwise.
   */
  function HandleMessage(s: Session, sv: Server, p: Inbound.InPacket): (r: Step)
    requires Valid(s) && p.Message?
    ensures r.server == sv && r.session == s.(message := r.session.message)
    ensures !s.loggedIn ==> r == Step(s, sv, [])
    ensures s.loggedIn && Continues(s, p) ==> r.session.message == ChatLine(s, p) && r.effects == []
    ensures s.loggedIn && !Continues(s, p) ==>
      var line := ChatLine(s, p);
      && r.session.message == ""
      && (!Validation.IsValidMessage(line) ==> r.effects == SendMessage(s, "Invalid message!"))
      && (Validation.IsValidMessage(line) && |line| == 0 ==> r.effects == [])
      && (Validation.IsValidMessage(line) && |line| > 0 && line[0] == '/' ==> r.effects == [RunCommand(line[1..])])
      && (Validation.IsValidMessage(line) && |line| > 0 && line[0] != '/' ==> r.effects == [ChatFrom(s.entity.value.name, line)])
    ensures forall e | e in r.effects :: !e.Panic?
  {
    MessageSteps(s, sv, p, false)
  }

  /** Feeds the chat handler a run of packets in order. */
  function FeedMessages(s: Session, sv: Server, ps: seq<Inbound.InPacket>): (r: Step)
    requires Valid(s)
    requires forall i | 0 <= i < |ps| :: ps[i].Message?
    ensures r.server == sv && Valid(r.session)
    decreases |ps|
  {
    if |ps| == 0 then Step(s, sv, [])
    else
      var first := HandleMessage(s, sv, ps[0]);
      var rest := FeedMessages(first.session, sv, ps[1..]);
      Step(rest.session, sv, first.effects + rest.effects)
  }

  /** The concatenation of the trimmed texts of a run of chat packets. */
  function TrimmedTexts(ps: seq<Inbound.InPacket>): string
    requires forall i | 0 <= i < |ps| :: ps[i].Message?
  {
    if |ps| == 0 then "" else Text.TrimString(ps[0].message) + TrimmedTexts(ps[1..])
  }

  /**
   Continuation packets of a client with LongerMessages only grow the buffer:
   after a run of them the buffer holds their trimmed texts in order, and
   nothing has been said.
   */
  lemma {:induction false} ContinuationsBuffer(s: Session, sv: Server, ps: seq<Inbound.InPacket>)
    requires Valid(s) && s.loggedIn && HasExtension(s, "LongerMessages")
    requires forall i | 0 <= i < |ps| :: ps[i].Message? && ps[i].playerId != 0
    ensures FeedMessages(s, sv, ps).session == s.(message := s.message + TrimmedTexts(ps))
    ensures FeedMessages(s, sv, ps).effects == []
    decreases |ps|
  {
    if |ps| > 0 {
      var first := HandleMessage(s, sv, ps[0]);
      ContinuationsBuffer(first.session, sv, ps[1..]);
      assert s.message + Text.TrimString(ps[0].message) + TrimmedTexts(ps[1..]) == s.message + TrimmedTexts(ps);
    }
  }

  /**
   A long chat line arrives in pieces: after a run of continuation packets,
   the closing packet broadcasts every piece, trimmed, in order.
   */
  lemma LongMessageAssembles(s: Session, sv: Server, ps: seq<Inbound.InPacket>, last: Inbound.InPacket)
    requires Valid(s) && s.loggedIn && s.message == "" && HasExtension(s, "LongerMessages")
    requires forall i | 0 <= i < |ps| :: ps[i].Message? && ps[i].playerId != 0
    requires last.Message? && last.playerId == 0
    requires var line := TrimmedTexts(ps) + Text.TrimString(last.message);
             Validation.IsValidMessage(line) && |line| > 0 && line[0] != '/'
    ensures var b := FeedMessages(s, sv, ps);
            HandleMessage(b.session, sv, last).effects
              == [ChatFrom(s.entity.value.name, TrimmedTexts(ps) + Text.TrimString(last.message))]
  {
    ContinuationsBuffer(s, sv, ps);
    var b := FeedMessages(s, sv, ps).session;
    assert b == s.(message := TrimmedTexts(ps));
    assert ChatLine(b, last) == TrimmedTexts(ps) + Text.TrimString(last.message);
    assert !Continues(b, last);
  }

  /**
   One packet, handed to its handler. Whatever the packet, the session stays
   consistent, the counter moves exactly as the login flag does and never
   past the maximum, the configuration is untouched, and nothing panics.
   */
  function Dispatch(s: Session, sv: Server, p: Inbound.InPacket, env: Env): (r: Step)
    requires Valid(s) && s.connected && Inbound.InRange(p)
    ensures Valid(r.session)
    ensures SlotsBalanced(Step(s, sv, []), r)
    ensures r.server.config == sv.config
    ensures sv.playerCount <= sv.config.maxPlayers ==> r.server.playerCount <= sv.config.maxPlayers
  {
    match p
    case Identification(_, _, _, _) => HandleIdentification(s, sv, p, env)
    case SetBlockClient(_, _, _, _, _) => HandleSetBlock(s, sv, p, env)
    case PlayerTeleport(_, _, _, _, _, _) => HandlePlayerTeleport(s, sv, p, env.cancel)
    case Message(_, _) => HandleMessage(s, sv, p)
    case ExtInfo(_, _) => HandleExtInfo(s, sv, p, env.join)
    case ExtEntry(_, _) => HandleExtEntry(s, sv, p, env.join)
    case CustomBlockSupportLevel(_) => Step(HandleCustomBlockSupportLevel(s, p), sv, [])
  }

  /**
   The read loop over the turns of a stream; turn `t` sees `world(t)`. It
   stops once the session is closed; the end of the stream, or a frame cut
   short, disconnects; an unknown opcode is skipped. However the stream
   ends, the session ends closed, and a session that was not logged in
   when the loop started leaves the counter where it found it.
   */
  function ServeTokens(s: Session, sv: Server, tokens: seq<Framing.Token>, world: nat -> Env, t: nat): (r: Step)
    requires Valid(s)
    requires forall i | 0 <= i < |tokens| :: Framing.WellFormed(tokens[i])
    ensures Valid(r.session) && !r.session.connected && !r.session.loggedIn
    ensures SlotsBalanced(Step(s, sv, []), r)
    ensures r.server.config == sv.config
    ensures sv.playerCount <= sv.config.maxPlayers ==> r.server.playerCount <= sv.config.maxPlayers
    decreases |tokens|
  {
    if !s.connected then Step(s, sv, [])
    else if |tokens| == 0 then Disconnect(s, sv)
    else
      match tokens[0]
      case Skipped(_) => ServeTokens(s, sv, tokens[1..], world, t + 1)
      case Truncated(_) => Disconnect(s, sv)
      case Frame(bs) =>
        assert Framing.WellFormed(tokens[0]);
        var d := Dispatch(s, sv, Inbound.Decode(bs), world(t));
        var rest := ServeTokens(d.session, d.server, tokens[1..], world, t + 1);
        Step(rest.session, rest.server, d.effects + rest.effects)
  }

  /** A whole connection: the read loop over the stream the client sends. */
  function Serve(s: Session, sv: Server, stream: seq<byte>, world: nat -> Env): (r: Step)
    requires Valid(s)
    ensures !r.session.connected && !r.session.loggedIn
    ensures SlotsBalanced(Step(s, sv, []), r)
    ensures r.server.config == sv.config
  {
    Framing.TokenizeCoversStream(stream);
    ServeTokens(s, sv, Framing.Tokenize(stream), world, 0)
  }

  /** A connection gives back every slot it takes, whatever the client sends and the listeners decide. */
  lemma ServeReleasesSlot(sv: Server, stream: seq<byte>, world: nat -> Env)
    ensures Serve(NewSession(), sv, stream, world).server.playerCount == sv.playerCount
  {
  }

  /** The number of logged-in sessions. */
  function LoggedInCount(ss: seq<Session>): nat {
    if |ss| == 0 then 0 else Held(ss[0]) + LoggedInCount(ss[1..])
  }

  lemma {:induction false} CountReplace(ss: seq<Session>, k: nat, s: Session)
    requires k < |ss|
    ensures LoggedInCount(ss[k := s]) == LoggedInCount(ss) - Held(ss[k]) + Held(s)
    decreases |ss|
  {
    if k > 0 {
      assert ss[k := s][1..] == ss[1..][k - 1 := s];
      CountReplace(ss[1..], k - 1, s);
    } else {
      assert ss[k := s][1..] == ss[1..];
    }
  }

  /**
   The counter equals the number of logged-in sessions, and a packet handled
   on any one connected session keeps it so.
   */
  lemma DispatchKeepsCount(ss: seq<Session>, sv: Server, k: nat, p: Inbound.InPacket, env: Env)
    requires k < |ss| && Valid(ss[k]) && ss[k].connected && Inbound.InRange(p)
    requires sv.playerCount == LoggedInCount(ss)
    ensures var r := Dispatch(ss[k], sv, p, env);
            r.server.playerCount == LoggedInCount(ss[k := r.session])
  {
    var r := Dispatch(ss[k], sv, p, env);
    CountReplace(ss, k, r.session);
  }

  /** A whole connection served on one of the sessions keeps the count too. */
  lemma ServeKeepsCount(ss: seq<Session>, sv: Server, k: nat, stream: seq<byte>, world: nat -> Env)
    requires k < |ss| && Valid(ss[k])
    requires sv.playerCount == LoggedInCount(ss)
    ensures var r := Serve(ss[k], sv, stream, world);
            r.server.playerCount == LoggedInCount(ss[k := r.session])
  {
    var r := Serve(ss[k], sv, stream, world);
    CountReplace(ss, k, r.session);
  }

  /** The entries a client sends back, one per extension, in order. */
  function FeedEntries(s: Session, sv: Server, es: seq<Extension>, join: JoinEnv): (r: Step)
    decreases |es|
  {
    if |es| == 0 then Step(s, sv, [])
    else
      var first := HandleExtEntry(s, sv, Inbound.ExtEntry(es[0].name, es[0].version), join);
      var rest := FeedEntries(first.session, first.server, es[1..], join);
      Step(rest.session, rest.server, first.effects + rest.effects)
  }

  /** The extension table after recording a run of entries. */
  function Recorded(m: map<string, int>, es: seq<Extension>): map<string, int>
    decreases |es|
  {
    if |es| == 0 then m else Recorded(m[es[0].name := es[0].version], es[1..])
  }

  lemma TrimUnpadded(name: string)
    requires |name| == 0 || name[|name| - 1] != ' '
    ensures Text.TrimString(name) == name
  {
  }

  /** An extension name of the table carries no padding. */
  predicate Unpadded(name: string) {
    |name| == 0 || name[|name| - 1] != ' '
  }

  /**
   While more entries are expected than arrive, each entry of the server's
   own table is recorded, the count goes down by one per entry, and nothing
   else happens.
   */
  lemma {:induction false} EntriesRecorded(s: Session, sv: Server, es: seq<Extension>, join: JoinEnv)
    requires s.remainingExtensions > |es|
    requires forall i | 0 <= i < |es| :: es[i] in Extensions && Unpadded(es[i].name)
    ensures FeedEntries(s, sv, es, join)
      == Step(s.(extensions := Recorded(s.extensions, es), remainingExtensions := s.remainingExtensions - |es|), sv, [])
    decreases |es|
  {
    if |es| > 0 {
      var e := es[0];
      TrimUnpadded(e.name);
      var first := HandleExtEntry(s, sv, Inbound.ExtEntry(e.name, e.version), join);
      assert first == Step(s.(extensions := s.extensions[e.name := e.version], remainingExtensions := s.remainingExtensions - 1), sv, []);
      EntriesRecorded(first.session, sv, es[1..], join);
    }
  }

  /**
   The extension handshake of a client that supports everything: it
   announces as many entries as the server offered and echoes the server's
   own list. The last entry logs in with every extension recorded.
   */
  lemma EchoedHandshakeLogsIn(s: Session, sv: Server, join: JoinEnv)
    requires Valid(s) && s.connected && !s.loggedIn
    ensures var info := HandleExtInfo(s, sv, Inbound.ExtInfo("", |Extensions|), join);
            var fed := FeedEntries(info.session, info.server, Extensions, join);
            var done := Login(s.(extensions := Recorded(s.extensions, Extensions), remainingExtensions := 0), sv, join);
            fed.session == done.session && fed.server == done.server
  {
    var info := HandleExtInfo(s, sv, Inbound.ExtInfo("", |Extensions|), join);
    assert info == Step(s.(remainingExtensions := 7), sv, []);
    var init, last := Extensions[..6], Extensions[6];
    assert Extensions == init + [last];
    TableUnpadded();
    assert forall i | 0 <= i < |init| :: init[i] == Extensions[i];
    EntriesRecorded(info.session, sv, init, join);
    var mid := FeedEntries(info.session, sv, init, join);
    assert mid.session == s.(extensions := Recorded(s.extensions, init), remainingExtensions := 1);
    FeedSplit(info.session, sv, init, [last], join);
    LastEntryLogsIn(mid.session, mid.server, last, join);
    RecordedSnoc(s.extensions, init, last);
  }

  lemma TableUnpadded()
    ensures forall i | 0 <= i < |Extensions| :: Extensions[i] in Extensions && Unpadded(Extensions[i].name)
  {
  }

  /** The entry that brings the count from one to zero logs in, with the entry recorded. */
  lemma LastEntryLogsIn(s: Session, sv: Server, e: Extension, join: JoinEnv)
    requires s.remainingExtensions == 1 && e in Extensions && Unpadded(e.name)
    ensures var fed := FeedEntries(s, sv, [e], join);
            var done := Login(s.(extensions := s.extensions[e.name := e.version], remainingExtensions := 0), sv, join);
            fed.session == done.session && fed.server == done.server
  {
    TrimUnpadded(e.name);
    assert [e][1..] == [];
  }

  /** Feeding two runs ends where feeding the second from the end of the first ends. */
  lemma {:induction false} FeedSplit(s: Session, sv: Server, a: seq<Extension>, b: seq<Extension>, join: JoinEnv)
    ensures var fa := FeedEntries(s, sv, a, join);
            var fb := FeedEntries(fa.session, fa.server, b, join);
            var whole := FeedEntries(s, sv, a + b, join);
            whole.session == fb.session && whole.server == fb.server
    decreases |a|
  {
    if |a| == 0 {
      assert a + b == b;
    } else {
      assert (a + b)[0] == a[0];
      assert (a + b)[1..] == a[1..] + b;
      var first := HandleExtEntry(s, sv, Inbound.ExtEntry(a[0].name, a[0].version), join);
      FeedSplit(first.session, first.server, a[1..], b, join);
    }
  }

  lemma {:induction false} RecordedSnoc(m: map<string, int>, es: seq<Extension>, e: Extension)
    ensures Recorded(m, es + [e]) == Recorded(m, es)[e.name := e.version]
    decreases |es|
  {
    if |es| == 0 {
      assert es + [e] == [e];
    } else {
      assert (es + [e])[1..] == es[1..] + [e];
      RecordedSnoc(m[es[0].name := es[0].version], es[1..], e);
    }
  }

  /** The axis term for a player at coordinate 0: the square of the block coordinate. */
  lemma AxisAt0(x: nat)
    requires x < 0x1_0000
    ensures AxisSquare(0.0, x) == x * x
  {
    AxisSquareExact(0.0, x);
  }

  /**
   Reach decided on squares, for a player at the origin with the default
   reach of 5: a block 10 away is refused, one exactly 5 away is accepted.
   */
  lemma ReachExamples()
    ensures OutOfReach(ReachSquare(Origin, 10, 0, 0), 5.0)
    ensures !OutOfReach(ReachSquare(Origin, 3, 4, 0), 5.0)
    ensures !OutOfReach(ReachSquare(Origin, 5, 0, 0), 5.0)
  {
    AxisAt0(10);
    AxisAt0(5);
    AxisAt0(4);
    AxisAt0(3);
    AxisAt0(0);
    assert ReachSquare(Origin, 10, 0, 0) == WrapUint64(WrapUint64(100 + 0) + 0) == 100;
    assert ReachSquare(Origin, 3, 4, 0) == WrapUint64(WrapUint64(9 + 16) + 0) == 25;
    assert ReachSquare(Origin, 5, 0, 0) == WrapUint64(WrapUint64(25 + 0) + 0) == 25;
  }
}

=== FILE: inbound.dfy ===
/**
 The packets a client sends, decoded from the frames the read loop cuts out
 of the stream. Fields are big-endian; coordinates and the extension count
 are signed 16-bit, the extension version signed 32-bit, and strings are
 64-byte fields whose bytes become the characters of the string (the
 handlers trim the padding).
 */
module Inbound {
  import opened Wire
  import opened Optional
  import opened Framing

  datatype InPacket =
    | Identification(protocolVersion: byte, name: string, verificationKey: string, clientType: byte)
    | SetBlockClient(x: int, y: int, z: int, mode: byte, blockType: byte)
    | PlayerTeleport(playerId: byte, x: int, y: int, z: int, yaw: byte, pitch: byte)
    | Message(playerId: byte, message: string)
    | ExtInfo(appName: string, extensionCount: int)
    | ExtEntry(extName: string, version: int)
    | CustomBlockSupportLevel(supportLevel: byte)

  /** A frame as the read loop hands it over: an opcode and exactly its frame size. */
  predicate IsFrame(frame: seq<byte>) {
    |frame| >= 1 && FrameSize(frame[0]) == Some(|frame|)
  }

  /** A string field: one character per byte. */
  function Str(bs: seq<byte>): (s: string)
    ensures |s| == |bs| && forall i | 0 <= i < |bs| :: s[i] as int == bs[i]
  {
    seq(|bs|, i requires 0 <= i < |bs| => bs[i] as char)
  }

  /** A signed 16-bit field. */
  function I16(hi: byte, lo: byte): (v: int)
    ensures -0x8000 <= v < 0x8000
  {
    ToInt16(hi as int * 0x100 + lo as int)
  }

  /** A signed 32-bit field. */
  function I32(bs: seq<byte>): (v: int)
    requires |bs| == 4
    ensures -0x8000_0000 <= v < 0x8000_0000
  {
    var u := FromBE32(bs);
    if u >= 0x8000_0000 then u - Uint32Modulus else u
  }

  /** Numeric fields within their wire widths. */
  predicate InRange(p: InPacket) {
    match p
    case SetBlockClient(x, y, z, _, _) => -0x8000 <= x < 0x8000 && -0x8000 <= y < 0x8000 && -0x8000 <= z < 0x8000
    case PlayerTeleport(_, x, y, z, _, _) => -0x8000 <= x < 0x8000 && -0x8000 <= y < 0x8000 && -0x8000 <= z < 0x8000
    case ExtInfo(_, count) => -0x8000 <= count < 0x8000
    case ExtEntry(_, version) => -0x8000_0000 <= version < 0x8000_0000
    case _ => true
  }

  /** The packet a frame carries; its numeric fields always fit their widths. */
  function Decode(frame: seq<byte>): (p: InPacket)
    requires IsFrame(frame)
    ensures InRange(p)
    ensures p.Identification? ==> |p.name| == StringWidth && |p.verificationKey| == StringWidth
    ensures p.Message? ==> |p.message| == StringWidth
  {
    var op := frame[0];
    FrameSizesMatchLayouts(op);
    if op == PacketTypeIdentification then
      Identification(frame[1], Str(frame[2..66]), Str(frame[66..130]), frame[130])
    else if op == PacketTypeSetBlockClient then
      SetBlockClient(I16(frame[1], frame[2]), I16(frame[3], frame[4]), I16(frame[5], frame[6]), frame[7], frame[8])
    else if op == PacketTypePlayerTeleport then
      PlayerTeleport(frame[1], I16(frame[2], frame[3]), I16(frame[4], frame[5]), I16(frame[6], frame[7]), frame[8], frame[9])
    else if op == PacketTypeMessage then
      Message(frame[1], Str(frame[2..66]))
    else if op == PacketTypeExtInfo then
      ExtInfo(Str(frame[1..65]), I16(frame[65], frame[66]))
    else if op == PacketTypeExtEntry then
      ExtEntry(Str(frame[1..65]), I32(frame[65..69]))
    else
      CustomBlockSupportLevel(frame[1])
  }

  /** Characters that fit in one byte. */
  predicate IsByteString(s: string) {
    forall i | 0 <= i < |s| :: s[i] as int < 0x100
  }

  function Bytes(s: string): (bs: seq<byte>)
    requires IsByteString(s)
    ensures |bs| == |s|
  {
    seq(|s|, i requires 0 <= i < |s| => s[i] as int)
  }

  function EncodeI16(v: int): (bs: seq<byte>)
    requires -0x8000 <= v < 0x8000
    ensures |bs| == 2
  {
    BE16((v + 0x1_0000) % 0x1_0000)
  }

  /** Fields that fit their wire widths, with 64-byte strings. */
  predicate Encodable(p: InPacket) {
    match p
    case Identification(_, name, key, _) => |name| == StringWidth && |key| == StringWidth && IsByteString(name) && IsByteString(key)
    case SetBlockClient(x, y, z, _, _) => -0x8000 <= x < 0x8000 && -0x8000 <= y < 0x8000 && -0x8000 <= z < 0x8000
    case PlayerTeleport(_, x, y, z, _, _) => -0x8000 <= x < 0x8000 && -0x8000 <= y < 0x8000 && -0x8000 <= z < 0x8000
    case Message(_, message) => |message| == StringWidth && IsByteString(message)
    case ExtInfo(name, count) => |name| == StringWidth && IsByteString(name) && -0x8000 <= count < 0x8000
    case ExtEntry(name, version) => |name| == StringWidth && IsByteString(name) && -0x8000_0000 <= version < 0x8000_0000
    case CustomBlockSupportLevel(_) => true
  }

  /** The frame a client writes for a packet. */
  function Encode(p: InPacket): (frame: seq<byte>)
    requires Encodable(p)
  {
    match p
    case Identification(v, name, key, t) => [PacketTypeIdentification, v] + Bytes(name) + Bytes(key) + [t]
    case SetBlockClient(x, y, z, mode, block) => [PacketTypeSetBlockClient] + EncodeI16(x) + EncodeI16(y) + EncodeI16(z) + [mode, block]
    case PlayerTeleport(id, x, y, z, yaw, pitch) => [PacketTypePlayerTeleport, id] + EncodeI16(x) + EncodeI16(y) + EncodeI16(z) + [yaw, pitch]
    case Message(id, message) => [PacketTypeMessage, id] + Bytes(message)
    case ExtInfo(name, count) => [PacketTypeExtInfo] + Bytes(name) + EncodeI16(count)
    case ExtEntry(name, version) => [PacketTypeExtEntry] + Bytes(name) + BE32(version)
    case CustomBlockSupportLevel(level) => [PacketTypeCustomBlockSupportLevel, level]
  }

  lemma I16RoundTrip(v: int)
    requires -0x8000 <= v < 0x8000
    ensures I16(EncodeI16(v)[0], EncodeI16(v)[1]) == v
  {
    var u := (v + 0x1_0000) % 0x1_0000;
    var bs := EncodeI16(v);
    assert bs[0] as int * 0x100 + bs[1] as int == u;
    assert v < 0 ==> u == v + 0x1_0000;
    assert v >= 0 ==> u == v;
  }

  lemma I32RoundTrip(v: int)
    requires -0x8000_0000 <= v < 0x8000_0000
    ensures I32(BE32(v)) == v
  {
    assert v < 0 ==> v % Uint32Modulus == v + Uint32Modulus;
    assert v >= 0 ==> v % Uint32Modulus == v;
  }

  lemma StrBytes(s: string)
    requires IsByteString(s)
    ensures Str(Bytes(s)) == s
  {
  }

  /**
   Every packet a client can write comes back out of the decoder unchanged,
   from a frame of exactly the size the read loop expects for its opcode.
   */
  lemma DecodeEncode(p: InPacket)
    requires Encodable(p)
    ensures IsFrame(Encode(p))
    ensures Decode(Encode(p)) == p
  {
    var f := Encode(p);
    match p
    case Identification(v, name, key, t) =>
      assert f[2..66] == Bytes(name);
      assert f[66..130] == Bytes(key);
      StrBytes(name);
      StrBytes(key);
    case SetBlockClient(x, y, z, mode, block) =>
      I16RoundTrip(x);
      I16RoundTrip(y);
      I16RoundTrip(z);
    case PlayerTeleport(id, x, y, z, yaw, pitch) =>
      I16RoundTrip(x);
      I16RoundTrip(y);
      I16RoundTrip(z);
    case Message(id, message) =>
      assert f[2..66] == Bytes(message);
      StrBytes(message);
    case ExtInfo(name, count) =>
      assert f[1..65] == Bytes(name);
      StrBytes(name);
      I16RoundTrip(count);
    case ExtEntry(name, version) =>
      assert f[1..65] == Bytes(name);
      assert f[65..69] == BE32(version);
      StrBytes(name);
      I32RoundTrip(version);
    case CustomBlockSupportLevel(level) =>
  }
}

=== FILE: lvlstorage.dfy ===
/**
 The `.lvl` level file: an 18-byte big-endian header — the format version
 1874, the three dimensions, the spawn point in fixed point, the spawn angles
 and two permission bytes — followed by one byte per block, y outermost, then
 z, then x. The file is gzip-compressed on disk; the bytes here are the
 uncompressed stream.
 */
module LvlStorage {
  import opened Wire
  import opened Geometry

  const LvlVersion: uint16 := 1874
  const HeaderSize: nat := 18
  const FileSuffix: string := ".lvl"

  datatype Header = Header(
    version: uint16,
    width: uint16, height: uint16, depth: uint16,
    spawnX: uint16, spawnY: uint16, spawnZ: uint16,
    spawnYaw: byte, spawnPitch: byte,
    permissionVisit: byte, permissionBuild: byte)

  /** A block position. */
  type Cell = (nat, nat, nat)

  /** A level as storage sees it: its name, dimensions, spawn point and blocks. */
  datatype Level = Level(
    name: string,
    width: nat, height: nat, depth: nat,
    spawn: Location,
    blocks: map<Cell, byte>)

  /** The file that holds a level: the storage directory, the level's name and the suffix. */
  function GetPath(directory: string, name: string): (path: string)
    ensures |path| == |directory| + |name| + |FileSuffix|
    ensures path[..|directory|] == directory
    ensures path[|directory|..|path| - |FileSuffix|] == name
    ensures path[|path| - |FileSuffix|..] == FileSuffix
  {
    directory + name + FileSuffix
  }

  /** The header's fields in declaration order, big-endian. */
  function EncodeHeader(h: Header): (bs: seq<byte>)
    ensures |bs| == HeaderSize
  {
    BE16(h.version) + BE16(h.width) + BE16(h.height) + BE16(h.depth)
      + BE16(h.spawnX) + BE16(h.spawnY) + BE16(h.spawnZ)
      + [h.spawnYaw, h.spawnPitch, h.permissionVisit, h.permissionBuild]
  }

  function DecodeHeader(bs: seq<byte>): Header
    requires |bs| == HeaderSize
  {
    Header(
      FromBE16(bs[0], bs[1]),
      FromBE16(bs[2], bs[3]), FromBE16(bs[4], bs[5]), FromBE16(bs[6], bs[7]),
      FromBE16(bs[8], bs[9]), FromBE16(bs[10], bs[11]), FromBE16(bs[12], bs[13]),
      bs[14], bs[15], bs[16], bs[17])
  }

  /** Every header survives encoding and decoding. */
  lemma DecodeEncodeHeader(h: Header)
    ensures DecodeHeader(EncodeHeader(h)) == h
  {
    var bs := EncodeHeader(h);
    assert bs[0..2] == BE16(h.version);
    assert bs[2..4] == BE16(h.width);
    assert bs[4..6] == BE16(h.height);
    assert bs[6..8] == BE16(h.depth);
    assert bs[8..10] == BE16(h.spawnX);
    assert bs[10..12] == BE16(h.spawnY);
    assert bs[12..14] == BE16(h.spawnZ);
  }

  /** Every 18 bytes are the encoding of the header they decode to. */
  lemma EncodeDecodeHeader(bs: seq<byte>)
    requires |bs| == HeaderSize
    ensures EncodeHeader(DecodeHeader(bs)) == bs
  {
    var e := EncodeHeader(DecodeHeader(bs));
    assert e[0..2] == [bs[0], bs[1]];
    assert e[2..4] == [bs[2], bs[3]];
    assert e[4..6] == [bs[4], bs[5]];
    assert e[6..8] == [bs[6], bs[7]];
    assert e[8..10] == [bs[8], bs[9]];
    assert e[10..12] == [bs[10], bs[11]];
    assert e[12..14] == [bs[12], bs[13]];
    assert forall i | 0 <= i < HeaderSize :: e[i] == bs[i];
  }

  /** `uint16(c * 32)`: fixed point, truncated, kept to 16 bits. */
  function CoordField(c: real): uint16 {
    ToFixed(c) % 0x1_0000
  }

  /** `byte(a * 256 / 360)`: the angle in 1/256 turns, truncated, kept to 8 bits. */
  function AngleField(a: real): byte {
    ToAngle(a) % 0x100
  }

  /** The spawn point a header describes. */
  function HeaderSpawn(h: Header): Location {
    Location(FromFixed(h.spawnX), FromFixed(h.spawnY), FromFixed(h.spawnZ), FromAngle(h.spawnYaw), FromAngle(h.spawnPitch))
  }

  /** The spawn fields of every header decode to a point that encodes back to them. */
  lemma SpawnFieldsRoundTrip(h: Header)
    ensures var s := HeaderSpawn(h);
            CoordField(s.x) == h.spawnX && CoordField(s.y) == h.spawnY && CoordField(s.z) == h.spawnZ
            && AngleField(s.yaw) == h.spawnYaw && AngleField(s.pitch) == h.spawnPitch
  {
    FixedRoundTrip(h.spawnX);
    FixedRoundTrip(h.spawnY);
    FixedRoundTrip(h.spawnZ);
    AngleRoundTrip(h.spawnYaw);
    AngleRoundTrip(h.spawnPitch);
  }

  /**
   A spawn point on the storage grid — coordinates in steps of 1/32 within
   [0, 2048), angles in steps of 360/256 within [0, 360) — is stored exactly.
   */
  lemma GridSpawnRoundTrip(x: uint16, y: uint16, z: uint16, yaw: byte, pitch: byte)
    ensures var s := Location(FromFixed(x), FromFixed(y), FromFixed(z), FromAngle(yaw), FromAngle(pitch));
            HeaderSpawn(Header(LvlVersion, 0, 0, 0, CoordField(s.x), CoordField(s.y), CoordField(s.z),
                               AngleField(s.yaw), AngleField(s.pitch), 0, 0)) == s
  {
    FixedRoundTrip(x);
    FixedRoundTrip(y);
    FixedRoundTrip(z);
    AngleRoundTrip(yaw);
    AngleRoundTrip(pitch);
    assert CoordField(FromFixed(x)) == x;
    assert CoordField(FromFixed(y)) == y;
    assert CoordField(FromFixed(z)) == z;
    assert AngleField(FromAngle(yaw)) == yaw;
    assert AngleField(FromAngle(pitch)) == pitch;
  }

  /**
   `a * b` by repeated addition, so that sizes and positions in the block
   section are reasoned about step by step.
   */
  function Times(a: nat, b: nat): nat {
    if a == 0 then 0 else b + Times(a - 1, b)
  }

  lemma {:induction false} TimesIsProduct(a: nat, b: nat)
    ensures Times(a, b) == a * b
  {
    if a > 0 {
      TimesIsProduct(a - 1, b);
    }
  }

  lemma {:induction false} TimesMonotone(a: nat, a': nat, b: nat)
    requires a <= a'
    ensures Times(a, b) <= Times(a', b)
    decreases a'
  {
    if a < a' {
      TimesMonotone(a, a' - 1, b);
    }
  }

  /** The number of blocks of a level: `height` layers of `depth` rows of `width` blocks. */
  function Volume(width: nat, height: nat, depth: nat): nat {
    Times(height, Times(depth, width))
  }

  lemma VolumeIsProduct(width: nat, height: nat, depth: nat)
    ensures Volume(width, height, depth) == width * height * depth
  {
    TimesIsProduct(depth, width);
    TimesIsProduct(height, depth * width);
  }

  /** The position of block (x, y, z) in the block section: y outermost, then z, then x. */
  function Offset(x: nat, y: nat, z: nat, width: nat, depth: nat): nat {
    Times(y, Times(depth, width)) + Times(z, width) + x
  }

  /** Every block of the level has its place inside the block section. */
  lemma OffsetInVolume(x: nat, y: nat, z: nat, width: nat, height: nat, depth: nat)
    requires x < width && y < height && z < depth
    ensures Offset(x, y, z, width, depth) < Volume(width, height, depth)
  {
    TimesMonotone(z + 1, depth, width);
    TimesMonotone(y + 1, height, Times(depth, width));
  }

  /** The blocks `Load` reads from a block section, each from its place in the stream. */
  function LoadBlocks(body: seq<byte>, width: nat, height: nat, depth: nat): (blocks: map<Cell, byte>)
    requires |body| >= Volume(width, height, depth)
    ensures forall c :: c in blocks <==> c.0 < width && c.1 < height && c.2 < depth
    ensures forall x: nat, y: nat, z: nat | x < width && y < height && z < depth ::
      && (x, y, z) in blocks
      && Offset(x, y, z, width, depth) < |body|
      && blocks[(x, y, z)] == body[Offset(x, y, z, width, depth)]
  {
    assert forall x: nat, y: nat, z: nat | x < width && y < height && z < depth ::
      Offset(x, y, z, width, depth) < |body| by {
      forall x: nat, y: nat, z: nat | x < width && y < height && z < depth
        ensures Offset(x, y, z, width, depth) < |body|
      {
        OffsetInVolume(x, y, z, width, height, depth);
      }
    }
    map x: nat, y: nat, z: nat | x < width && y < height && z < depth :: (x, y, z) := body[Offset(x, y, z, width, depth)]
  }

  datatype LoadError = HeaderTruncated | InvalidFormat | BlocksTruncated

  datatype LoadResult = Loaded(level: Level) | Failed(error: LoadError)

  /**
   Reads a level stream: a stream too short for the header, or for the
   blocks the header's dimensions call for, fails; a version other than 1874
   is an invalid format. Bytes after the last block are not read.
   */
  function Load(name: string, stream: seq<byte>): (r: LoadResult)
    ensures r.Loaded? <==>
      |stream| >= HeaderSize && DecodeHeader(stream[..HeaderSize]).version == LvlVersion
      && |stream| - HeaderSize >= (var h := DecodeHeader(stream[..HeaderSize]); Volume(h.width, h.height, h.depth))
    ensures r == Failed(InvalidFormat) <==> |stream| >= HeaderSize && DecodeHeader(stream[..HeaderSize]).version != LvlVersion
    ensures r.Loaded? ==>
      var h := DecodeHeader(stream[..HeaderSize]);
      && r.level.name == name
      && r.level.width == h.width && r.level.height == h.height && r.level.depth == h.depth
      && r.level.spawn == HeaderSpawn(h)
      && forall x: nat, y: nat, z: nat | x < h.width && y < h.height && z < h.depth ::
           && (x, y, z) in r.level.blocks
           && HeaderSize + Offset(x, y, z, h.width, h.depth) < |stream|
           && r.level.blocks[(x, y, z)] == stream[HeaderSize + Offset(x, y, z, h.width, h.depth)]
  {
    if |stream| < HeaderSize then Failed(HeaderTruncated)
    else
      var h := DecodeHeader(stream[..HeaderSize]);
      if h.version != LvlVersion then Failed(InvalidFormat)
      else
        var body := stream[HeaderSize..];
        if |body| < Volume(h.width, h.height, h.depth) then Failed(BlocksTruncated)
        else Loaded(Level(name, h.width, h.height, h.depth, HeaderSpawn(h), LoadBlocks(body, h.width, h.height, h.depth)))
  }

  /** A level whose blocks are exactly the positions inside its dimensions. */
  ghost predicate Complete(l: Level) {
    forall c: Cell :: c in l.blocks <==> c.0 < l.width && c.1 < l.height && c.2 < l.depth
  }

  /** The header `Save` writes: version 1874, the dimensions and spawn cut to their widths, no permissions. */
  function SaveHeader(l: Level): (h: Header)
    ensures h.version == LvlVersion && h.permissionVisit == 0 && h.permissionBuild == 0
    ensures l.width < 0x1_0000 ==> h.width == l.width
    ensures l.height < 0x1_0000 ==> h.height == l.height
    ensures l.depth < 0x1_0000 ==> h.depth == l.depth
  {
    Header(LvlVersion, l.width % 0x1_0000, l.height % 0x1_0000, l.depth % 0x1_0000,
           CoordField(l.spawn.x), CoordField(l.spawn.y), CoordField(l.spawn.z),
           AngleField(l.spawn.yaw), AngleField(l.spawn.pitch), 0, 0)
  }

  /** The innermost loop: the blocks of row (y, z) from x on. */
  function SaveRow(l: Level, y: nat, z: nat, x: nat): (bs: seq<byte>)
    requires Complete(l) && y < l.height && z < l.depth && x <= l.width
    ensures |bs| == l.width - x
    decreases l.width - x
  {
    if x == l.width then [] else [l.blocks[(x, y, z)]] + SaveRow(l, y, z, x + 1)
  }

  /** The middle loop: the rows of layer y from z on. */
  function SaveLayer(l: Level, y: nat, z: nat): (bs: seq<byte>)
    requires Complete(l) && y < l.height && z <= l.depth
    ensures |bs| == Times(l.depth - z, l.width)
    decreases l.depth - z
  {
    if z == l.depth then [] else SaveRow(l, y, z, 0) + SaveLayer(l, y, z + 1)
  }

  /** The outer loop: the layers from y on. */
  function SaveBlocks(l: Level, y: nat): (bs: seq<byte>)
    requires Complete(l) && y <= l.height
    ensures |bs| == Times(l.height - y, Times(l.depth, l.width))
    decreases l.height - y
  {
    if y == l.height then [] else SaveLayer(l, y, 0) + SaveBlocks(l, y + 1)
  }

  lemma {:induction false} SaveRowAt(l: Level, y: nat, z: nat, x: nat, x': nat)
    requires Complete(l) && y < l.height && z < l.depth && x <= x' < l.width
    ensures SaveRow(l, y, z, x)[x' - x] == l.blocks[(x', y, z)]
    decreases l.width - x
  {
    if x < x' {
      SaveRowAt(l, y, z, x + 1, x');
    }
  }

  lemma {:induction false} SaveLayerAt(l: Level, y: nat, z: nat, x': nat, z': nat)
    requires Complete(l) && y < l.height && z <= z' < l.depth && x' < l.width
    ensures Times(z' - z, l.width) + x' < |SaveLayer(l, y, z)|
    ensures SaveLayer(l, y, z)[Times(z' - z, l.width) + x'] == l.blocks[(x', y, z')]
    decreases l.depth - z
  {
    var row, rest := SaveRow(l, y, z, 0), SaveLayer(l, y, z + 1);
    assert SaveLayer(l, y, z) == row + rest;
    if z == z' {
      SaveRowAt(l, y, z, 0, x');
    } else {
      SaveLayerAt(l, y, z + 1, x', z');
      assert Times(z' - z, l.width) + x' == |row| + (Times(z' - (z + 1), l.width) + x');
    }
  }

  lemma {:induction false} SaveBlocksAt(l: Level, y: nat, x': nat, y': nat, z': nat)
    requires Complete(l) && y <= y' < l.height && z' < l.depth && x' < l.width
    ensures Offset(x', y' - y, z', l.width, l.depth) < |SaveBlocks(l, y)|
    ensures SaveBlocks(l, y)[Offset(x', y' - y, z', l.width, l.depth)] == l.blocks[(x', y', z')]
    decreases l.height - y
  {
    var layer, rest := SaveLayer(l, y, 0), SaveBlocks(l, y + 1);
    assert SaveBlocks(l, y) == layer + rest;
    var i := Offset(x', y' - y, z', l.width, l.depth);
    if y == y' {
      SaveLayerAt(l, y, 0, x', z');
      assert i == Times(z' - 0, l.width) + x';
      PrefixIndex(layer, rest, i);
    } else {
      SaveBlocksAt(l, y + 1, x', y', z');
      var k := Offset(x', y' - (y + 1), z', l.width, l.depth);
      OffsetNextLayer(x', y' - y, z', l.width, l.depth);
      assert i == |layer| + k;
      AppendIndex(layer, rest, k);
    }
  }

  lemma PrefixIndex(a: seq<byte>, b: seq<byte>, k: nat)
    requires k < |a|
    ensures k < |a + b| && (a + b)[k] == a[k]
  {
  }

  /** One layer further down the block section is one layer's worth of blocks further on. */
  lemma OffsetNextLayer(x: nat, y: nat, z: nat, width: nat, depth: nat)
    requires y > 0
    ensures Offset(x, y, z, width, depth) == Times(depth, width) + Offset(x, y - 1, z, width, depth)
  {
  }

  lemma AppendIndex(a: seq<byte>, b: seq<byte>, k: nat)
    requires k < |b|
    ensures |a| + k < |a + b| && (a + b)[|a| + k] == b[k]
  {
  }

  /**
   The stream `Save` writes: the header, then every block in y, z, x order,
   each at the place `Load` reads it from.
   */
  function Save(l: Level): (stream: seq<byte>)
    requires Complete(l)
    ensures |stream| == HeaderSize + Volume(l.width, l.height, l.depth)
    ensures stream[..HeaderSize] == EncodeHeader(SaveHeader(l))
    ensures forall x: nat, y: nat, z: nat | x < l.width && y < l.height && z < l.depth ::
      HeaderSize + Offset(x, y, z, l.width, l.depth) < |stream|
      && stream[HeaderSize + Offset(x, y, z, l.width, l.depth)] == l.blocks[(x, y, z)]
  {
    var body := SaveBlocks(l, 0);
    forall x: nat, y: nat, z: nat | x < l.width && y < l.height && z < l.depth
      ensures Offset(x, y, z, l.width, l.depth) < |body| && body[Offset(x, y, z, l.width, l.depth)] == l.blocks[(x, y, z)]
    {
      SaveBlocksAt(l, 0, x, y, z);
    }
    EncodeHeader(SaveHeader(l)) + body
  }

  /** `Save` always writes the current format with both permissions cleared. */
  lemma SaveWritesFormat(l: Level)
    requires Complete(l)
    ensures var h := DecodeHeader(Save(l)[..HeaderSize]);
            h.version == LvlVersion && h.permissionVisit == 0 && h.permissionBuild == 0
  {
    DecodeEncodeHeader(SaveHeader(l));
  }

  /** A stream of any other format version is refused, whatever follows the header. */
  lemma LoadRejectsOtherVersions(name: string, h: Header, body: seq<byte>)
    requires h.version != LvlVersion
    ensures Load(name, EncodeHeader(h) + body) == Failed(InvalidFormat)
  {
    DecodeEncodeHeader(h);
    assert (EncodeHeader(h) + body)[..HeaderSize] == EncodeHeader(h);
  }

  /** The spawn point `Save` writes for a spawn on the storage grid reads back exactly. */
  lemma SaveSpawnExact(l: Level, x: uint16, y: uint16, z: uint16, yaw: byte, pitch: byte)
    requires l.spawn == Location(FromFixed(x), FromFixed(y), FromFixed(z), FromAngle(yaw), FromAngle(pitch))
    ensures HeaderSpawn(SaveHeader(l)) == l.spawn
  {
    GridSpawnRoundTrip(x, y, z, yaw, pitch);
  }

  /** Two block maps over the same dimensions that agree on every position are the same map. */
  lemma SameBlocks(l: Level, blocks: map<Cell, byte>)
    requires Complete(l)
    requires forall c :: c in blocks <==> c.0 < l.width && c.1 < l.height && c.2 < l.depth
    requires forall x: nat, y: nat, z: nat | x < l.width && y < l.height && z < l.depth ::
      (x, y, z) in blocks && blocks[(x, y, z)] == l.blocks[(x, y, z)]
    ensures blocks == l.blocks
  {
    forall c | c in l.blocks
      ensures blocks[c] == l.blocks[c]
    {
      var (x, y, z) := c;
      assert blocks[(x, y, z)] == l.blocks[(x, y, z)];
    }
  }

  /**
   A level with dimensions below 65536 and a spawn point on the storage grid
   loads back exactly as it was saved: same name, dimensions, spawn point and
   every block.
   */
  lemma LoadSave(l: Level, x: uint16, y: uint16, z: uint16, yaw: byte, pitch: byte)
    requires Complete(l)
    requires l.width < 0x1_0000 && l.height < 0x1_0000 && l.depth < 0x1_0000
    requires l.spawn == Location(FromFixed(x), FromFixed(y), FromFixed(z), FromAngle(yaw), FromAngle(pitch))
    ensures Load(l.name, Save(l)) == Loaded(l)
  {
    var stream := Save(l);
    var h := SaveHeader(l);
    DecodeEncodeHeader(h);
    assert DecodeHeader(stream[..HeaderSize]) == h;
    SaveSpawnExact(l, x, y, z, yaw, pitch);
    var r := Load(l.name, stream);
    SameBlocks(l, r.level.blocks);
  }
}

=== FILE: moderation.dfy ===
/**
 The moderation commands of the core plugin: `ban`, `banip`, `kick`, `rank`,
 `unban` and `unbanip`. Each handler parses its argument text and consults
 the ban, player and rank stores. Here the stores are plain maps and sets, the
 server's connected players a map from name to remote address, and the IP
 parser a predicate passed in. A handler answers with the effects it has:
 replies to the sender, kicks, and permission refreshes.
 */
module Moderation {
  import opened Text
  import opened Validation

  const DefaultBanReason: string := "You have been banned"
  const IndexOutOfRange: string := "index out of range"

  /** A ban record: the reason shown to the banned player and who banned them. */
  datatype Ban = Ban(reason: string, bannedBy: string)

  /**
   The stores the commands consult: bans by player name and by address, the
   rank recorded for every known (possibly offline) player, the configured
   rank names, and the players the player store holds as online.
   */
  datatype Stores = Stores(
    nameBans: map<string, Ban>,
    ipBans: map<string, Ban>,
    ranks: map<string, string>,
    rankNames: set<string>,
    loaded: set<string>)

  /** What a handler does besides updating the stores. */
  datatype Effect =
    | Reply(text: string)
    | Kick(players: set<string>, reason: string)
    | UpdatePermissions(player: string)
    | Panic(reason: string)

  datatype Outcome = Outcome(stores: Stores, effects: seq<Effect>)

  /** The players some effect kicks. */
  function Kicked(effects: seq<Effect>): set<string> {
    if |effects| == 0 then {}
    else (if effects[0].Kick? then effects[0].players else {}) + Kicked(effects[1..])
  }

  lemma KickedCons(e: Effect, rest: seq<Effect>)
    ensures Kicked([e] + rest) == (if e.Kick? then e.players else {}) + Kicked(rest)
  {
    assert ([e] + rest)[1..] == rest;
  }

  /** Every kick among the effects gives `reason`. */
  predicate KicksWith(effects: seq<Effect>, reason: string) {
    forall i | 0 <= i < |effects| :: effects[i].Kick? ==> effects[i].reason == reason
  }

  /** The sender hears exactly one reply, first, and nothing panics. */
  predicate RepliesOnce(effects: seq<Effect>) {
    && |effects| >= 1
    && effects[0].Reply?
    && forall i | 1 <= i < |effects| :: !effects[i].Reply? && !effects[i].Panic?
  }

  function Usage(command: string, arguments: string): string {
    "Usage: " + command + " " + arguments
  }

  /**
   The argument text of `ban`, `banip` and `kick`, cut at its first space into
   a target and a reason that may itself hold spaces. Without a space the whole
   text is the target and the reason is the command's default.
   */
  function TargetAndReason(message: string, fallback: string): (r: (string, string))
    ensures ' ' !in r.0
    ensures ' ' in message ==> r.0 + " " + r.1 == message
    ensures ' ' !in message ==> r.0 == message && r.1 == fallback
  {
    var args := SplitN2(message, ' ');
    (args[0], if |args| > 1 then args[1] else fallback)
  }

  /**
   `ban <player> [reason]`: bans a valid player name that is not banned yet
   and kicks that player if connected. The name bans gain at most the one
   record, existing records are never overwritten, and exactly the newly
   banned player, if online, is kicked with the ban's reason.
   */
  function HandleBan(s: Stores, online: map<string, string>, sender: string, message: string): (out: Outcome)
    ensures RepliesOnce(out.effects)
    ensures |message| == 0 ==> out == Outcome(s, [Reply(Usage("ban", "<player> <reason>"))])
    ensures out.stores.(nameBans := s.nameBans) == s
    ensures s.nameBans.Keys <= out.stores.nameBans.Keys
    ensures forall n | n in s.nameBans :: out.stores.nameBans[n] == s.nameBans[n]
    ensures forall n | n in out.stores.nameBans && n !in s.nameBans ::
      && |message| > 0
      && n == TargetAndReason(message, DefaultBanReason).0
      && IsValidName(n)
      && out.stores.nameBans[n] == Ban(TargetAndReason(message, DefaultBanReason).1, sender)
    ensures |message| > 0 && IsValidName(TargetAndReason(message, DefaultBanReason).0) ==>
      TargetAndReason(message, DefaultBanReason).0 in out.stores.nameBans
    ensures Kicked(out.effects) == (out.stores.nameBans.Keys - s.nameBans.Keys) * online.Keys
    ensures KicksWith(out.effects, TargetAndReason(message, DefaultBanReason).1)
  {
    if |message| == 0 then Outcome(s, [Reply(Usage("ban", "<player> <reason>"))])
    else
      var (target, reason) := TargetAndReason(message, DefaultBanReason);
      if !IsValidName(target) then Outcome(s, [Reply(target + " is not a valid name")])
      else if target in s.nameBans then Outcome(s, [Reply("Player " + target + " is already banned")])
      else
        var banned := s.(nameBans := s.nameBans[target := Ban(reason, sender)]);
        assert banned.nameBans.Keys - s.nameBans.Keys == {target};
        var kick := if target in online then [Kick({target}, reason)] else [];
        KickedCons(Reply("Player " + target + " banned"), kick);
        assert Kicked(kick) == {target} * online.Keys;
        Outcome(banned, [Reply("Player " + target + " banned")] + kick)
  }

  /**
   `ban` as written: the invalid-name branch names the second argument, which
   exists only when a reason follows the name.
   */
  function HandleBanAsWritten(s: Stores, online: map<string, string>, sender: string, message: string): (out: Outcome)
    ensures |message| > 0 && !IsValidName(TargetAndReason(message, DefaultBanReason).0) ==>
      out.stores == s && (out.effects == [Panic(IndexOutOfRange)] <==> ' ' !in message)
  {
    if |message| == 0 then Outcome(s, [Reply(Usage("ban", "<player> <reason>"))])
    else
      var args := SplitN2(message, ' ');
      if !IsValidName(args[0]) then
        if |args| > 1 then Outcome(s, [Reply(args[1] + " is not a valid name")])
        else Outcome(s, [Panic(IndexOutOfRange)])
      else HandleBan(s, online, sender, message)
  }

  /** A one-word ban of an invalid name crashes the handler. */
  lemma OneWordInvalidBanPanics(s: Stores, online: map<string, string>, sender: string)
    ensures HandleBanAsWritten(s, online, sender, "ab").effects == [Panic(IndexOutOfRange)]
    ensures HandleBan(s, online, sender, "ab").effects == [Reply("ab is not a valid name")]
  {
    assert !IsValidName("ab");
    assert ' ' !in "ab";
    assert TargetAndReason("ab", DefaultBanReason).0 == "ab";
    assert "ab" + " is not a valid name" == "ab is not a valid name";
  }

  /** On a valid name the handler as written and the corrected one agree. */
  lemma BanAsWrittenAgreesOnValidNames(s: Stores, online: map<string, string>, sender: string, message: string)
    requires |message| > 0 ==> IsValidName(TargetAndReason(message, DefaultBanReason).0)
    ensures HandleBanAsWritten(s, online, sender, message) == HandleBan(s, online, sender, message)
  {
  }

  /** The players connected from `address`. */
  function At(online: map<string, string>, address: string): (players: set<string>)
    ensures forall p :: p in players <==> p in online && online[p] == address
  {
    set p | p in online && online[p] == address
  }

  /**
   `banip <ip> [reason]`: bans an address the parser accepts and that is not
   banned yet, and kicks every player connected from it. The address bans gain
   at most the one record, and exactly the players at a newly banned address
   are kicked.
   */
  function HandleBanIp(s: Stores, online: map<string, string>, isIP: string -> bool, sender: string, message: string): (out: Outcome)
    ensures RepliesOnce(out.effects)
    ensures |message| == 0 ==> out == Outcome(s, [Reply(Usage("banip", "<ip> <reason>"))])
    ensures out.stores.(ipBans := s.ipBans) == s
    ensures s.ipBans.Keys <= out.stores.ipBans.Keys
    ensures forall a | a in s.ipBans :: out.stores.ipBans[a] == s.ipBans[a]
    ensures forall a | a in out.stores.ipBans && a !in s.ipBans ::
      && |message| > 0
      && a == TargetAndReason(message, DefaultBanReason).0
      && isIP(a)
      && out.stores.ipBans[a] == Ban(TargetAndReason(message, DefaultBanReason).1, sender)
    ensures |message| > 0 && isIP(TargetAndReason(message, DefaultBanReason).0) ==>
      TargetAndReason(message, DefaultBanReason).0 in out.stores.ipBans
    ensures forall p :: p in Kicked(out.effects) <==>
      p in online && online[p] in out.stores.ipBans && online[p] !in s.ipBans
    ensures KicksWith(out.effects, TargetAndReason(message, DefaultBanReason).1)
  {
    if |message| == 0 then Outcome(s, [Reply(Usage("banip", "<ip> <reason>"))])
    else
      var (target, reason) := TargetAndReason(message, DefaultBanReason);
      if !isIP(target) then Outcome(s, [Reply(target + " is not a valid IP address")])
      else if target in s.ipBans then Outcome(s, [Reply("IP " + target + " is already banned")])
      else
        var banned := s.(ipBans := s.ipBans[target := Ban(reason, sender)]);
        KickedCons(Reply("IP " + target + " banned"), [Kick(At(online, target), reason)]);
        KickedCons(Kick(At(online, target), reason), []);
        Outcome(banned, [Reply("IP " + target + " banned")] + [Kick(At(online, target), reason)])
  }

  /**
   `kick <player> [reason]`: kicks a connected player, by default naming the
   sender. The stores never change, and only the named player is kicked, and
   only when connected.
   */
  function HandleKick(s: Stores, online: map<string, string>, sender: string, message: string): (out: Outcome)
    ensures RepliesOnce(out.effects) || (|out.effects| == 1 && out.effects[0].Kick?)
    ensures out.stores == s
    ensures |message| == 0 ==> out.effects == [Reply(Usage("kick", "<player> <reason>"))]
    ensures Kicked(out.effects) ==
      if |message| > 0 && TargetAndReason(message, "").0 in online then {TargetAndReason(message, "").0} else {}
    ensures KicksWith(out.effects, TargetAndReason(message, "Kicked by " + sender).1)
  {
    if |message| == 0 then Outcome(s, [Reply(Usage("kick", "<player> <reason>"))])
    else
      var (target, reason) := TargetAndReason(message, "Kicked by " + sender);
      if target !in online then Outcome(s, [Reply("Player " + target + " not found")])
      else Outcome(s, [Kick({target}, reason)])
  }

  /**
   `rank <player>` reports the player's rank; `rank <player> <rank>` sets it
   when both the player and the rank exist, and refreshes the permissions of
   that player if online; any other word count prints the usage line. Only
   the one player's rank can change, and only to a configured rank.
   */
  function HandleRank(s: Stores, message: string): (out: Outcome)
    ensures RepliesOnce(out.effects)
    ensures |Fields(message)| != 2 ==> out.stores == s && |out.effects| == 1
    ensures out.stores.(ranks := s.ranks) == s
    ensures out.stores.ranks.Keys == s.ranks.Keys
    ensures forall n | n in s.ranks && out.stores.ranks[n] != s.ranks[n] ::
      |Fields(message)| == 2 && n == Fields(message)[0] && out.stores.ranks[n] == Fields(message)[1]
    ensures |Fields(message)| == 2 && Fields(message)[0] in s.ranks && Fields(message)[1] in s.rankNames ==>
      out.stores.ranks[Fields(message)[0]] == Fields(message)[1]
    ensures forall n | n in out.stores.ranks :: out.stores.ranks[n] in s.rankNames || out.stores.ranks[n] == s.ranks[n]
    ensures forall i | 0 <= i < |out.effects| && out.effects[i].UpdatePermissions? ::
      out.effects[i].player in s.loaded && out.effects[i].player == Fields(message)[0]
    ensures !exists i | 0 <= i < |out.effects| :: out.effects[i].Kick?
  {
    var args := Fields(message);
    if |args| == 1 then
      if args[0] in s.ranks then Outcome(s, [Reply("The rank of " + args[0] + " is " + s.ranks[args[0]])])
      else Outcome(s, [Reply("Player " + args[0] + " not found")])
    else if |args| == 2 then
      if args[0] !in s.ranks then Outcome(s, [Reply("Player " + args[0] + " not found")])
      else if args[1] !in s.rankNames then Outcome(s, [Reply("Rank " + args[1] + " not found")])
      else
        var refresh := if args[0] in s.loaded then [UpdatePermissions(args[0])] else [];
        Outcome(s.(ranks := s.ranks[args[0] := args[1]]), [Reply("Rank of " + args[0] + " set to " + args[1])] + refresh)
    else Outcome(s, [Reply(Usage("rank", "<player> <rank>"))])
  }

  /**
   `unban <player>`: removes the one named player's ban. The text must hold
   exactly one word; nothing but that name's ban record changes.
   */
  function HandleUnban(s: Stores, message: string): (out: Outcome)
    ensures RepliesOnce(out.effects) && |out.effects| == 1
    ensures out.stores.(nameBans := s.nameBans) == s
    ensures |Fields(message)| != 1 ==> out.stores == s && out.effects == [Reply(Usage("unban", "<player>"))]
    ensures |Fields(message)| == 1 ==>
      && Fields(message)[0] !in out.stores.nameBans
      && forall n :: n in out.stores.nameBans <==> n in s.nameBans && n != Fields(message)[0]
    ensures forall n | n in out.stores.nameBans :: out.stores.nameBans[n] == s.nameBans[n]
  {
    var args := Fields(message);
    if |args| != 1 then Outcome(s, [Reply(Usage("unban", "<player>"))])
    else if args[0] in s.nameBans then
      Outcome(s.(nameBans := s.nameBans - {args[0]}), [Reply("Player " + args[0] + " unbanned")])
    else Outcome(s, [Reply("Player " + args[0] + " is not banned")])
  }

  /**
   `unbanip <ip>`: removes the one named address's ban. The text must hold
   exactly one word; nothing but that address's ban record changes.
   */
  function HandleUnbanIp(s: Stores, message: string): (out: Outcome)
    ensures RepliesOnce(out.effects) && |out.effects| == 1
    ensures out.stores.(ipBans := s.ipBans) == s
    ensures |Fields(message)| != 1 ==> out.stores == s && out.effects == [Reply(Usage("unbanip", "<ip>"))]
    ensures |Fields(message)| == 1 ==>
      && Fields(message)[0] !in out.stores.ipBans
      && forall a :: a in out.stores.ipBans <==> a in s.ipBans && a != Fields(message)[0]
    ensures forall a | a in out.stores.ipBans :: out.stores.ipBans[a] == s.ipBans[a]
  {
    var args := Fields(message);
    if |args| != 1 then Outcome(s, [Reply(Usage("unbanip", "<ip>"))])
    else if args[0] in s.ipBans then
      Outcome(s.(ipBans := s.ipBans - {args[0]}), [Reply("IP " + args[0] + " unbanned")])
    else Outcome(s, [Reply("IP " + args[0] + " is not banned")])
  }

  /** A word without spaces is a single field. */
  lemma {:induction false} OneField(w: string)
    requires IsWord(w)
    ensures Fields(w) == [w]
  {
    FieldsOfJoin([w]);
  }

  /** Two words joined by a space are two fields. */
  lemma {:induction false} TwoFields(a: string, b: string)
    requires IsWord(a) && IsWord(b)
    ensures Fields(a + " " + b) == [a, b]
  {
    FieldsOfJoin([a, b]);
    assert Join([a, b], ' ') == a + " " + b;
  }

  /** A valid player name is a single word. */
  lemma ValidNameIsWord(name: string)
    requires IsValidName(name)
    ensures IsWord(name)
    ensures ' ' !in name
  {
    assert forall j | 0 <= j < |name| :: IsNameChar(name[j]);
  }

  /** Banning a player who was not banned, then unbanning them, restores the stores. */
  lemma {:induction false} UnbanUndoesBan(s: Stores, online: map<string, string>, sender: string, name: string)
    requires IsValidName(name) && name !in s.nameBans
    ensures HandleUnban(HandleBan(s, online, sender, name).stores, name).stores == s
  {
    ValidNameIsWord(name);
    OneField(name);
    var banned := HandleBan(s, online, sender, name).stores;
    assert banned.nameBans == s.nameBans[name := Ban(DefaultBanReason, sender)];
    assert banned.nameBans - {name} == s.nameBans;
  }

  /** A second ban of the same player changes nothing and kicks nobody. */
  lemma BanTwiceIsAlreadyBanned(s: Stores, online: map<string, string>, sender: string, again: string, message: string)
    requires |message| > 0 && IsValidName(TargetAndReason(message, DefaultBanReason).0)
    ensures
      var first := HandleBan(s, online, sender, message).stores;
      var second := HandleBan(first, online, again, message);
      second.stores == first && Kicked(second.effects) == {}
  {
  }

  /** Banning an address that was not banned, then unbanning it, restores the stores. */
  lemma {:induction false} UnbanIpUndoesBanIp(s: Stores, online: map<string, string>, isIP: string -> bool, sender: string, address: string)
    requires IsWord(address) && ' ' !in address && isIP(address) && address !in s.ipBans
    ensures HandleUnbanIp(HandleBanIp(s, online, isIP, sender, address).stores, address).stores == s
  {
    OneField(address);
    var banned := HandleBanIp(s, online, isIP, sender, address).stores;
    assert banned.ipBans == s.ipBans[address := Ban(DefaultBanReason, sender)];
    assert banned.ipBans - {address} == s.ipBans;
  }

  /** After a rank is set, asking for the player's rank reports it. */
  lemma {:induction false} RankSetThenQuery(s: Stores, name: string, rank: string)
    requires IsWord(name) && IsWord(rank)
    requires name in s.ranks && rank in s.rankNames
    ensures HandleRank(HandleRank(s, name + " " + rank).stores, name).effects ==
      [Reply("The rank of " + name + " is " + rank)]
  {
    TwoFields(name, rank);
    OneField(name);
  }
}

=== FILE: option.dfy ===
/** An optional value: Go's nil pointers and the `ok` of a map lookup. */
module Optional {

  datatype Option<+T> = None | Some(value: T)
}

=== FILE: outbound.dfy ===
/**
 What a session sends on its own initiative: the spawn, despawn, teleport,
 player-list and model packets about some entity, block changes, the
 operator flag and reach, the extension announcement, and the level
 transfer in 1024-byte chunks.

 Every packet about an entity names it by id, except that a client is never
 told its own entity's id: it is always addressed as 0xff.
 */
module Outbound {
  import opened Wire
  import opened Optional
  import opened Geometry
  import opened Sessions

  /** The id a packet carries for entity `id` when sent to the client whose own entity is `self`. */
  function WireId(id: byte, self: byte): byte {
    if id == self then 0xff else id
  }

  /** How a client reads an id it receives: 0xff means its own entity. */
  function Resolve(wire: int, self: byte): int {
    if wire == 0xff then self else wire
  }

  /** A client resolves every assigned entity id it is sent back to that entity. */
  lemma WireIdResolves(id: byte, self: byte)
    requires id != 0xff
    ensures Resolve(WireId(id, self), self) == id
    ensures WireId(id, self) == 0xff <==> id == self
  {
  }

  /** The id of the entity a packet is about, if it is about one. */
  function Subject(p: Packet): Option<int> {
    match p
    case SpawnPlayer(id, _, _) => Some(id)
    case ExtAddEntity2(id, _, _, _) => Some(id)
    case PlayerTeleport(id, _) => Some(id)
    case DespawnPlayer(id) => Some(id)
    case ChangeModel(id, _) => Some(id)
    case ExtAddPlayerName(id, _, _, _, _) => Some(id)
    case ExtRemovePlayerName(id) => Some(id)
    case _ => None
  }

  /**
   Every packet in `out` that is about an entity is about `e`, carries 0xff
   when `e` is the receiver's own entity, and resolves to `e`'s id otherwise.
   */
  ghost predicate AddressedTo(out: seq<Effect>, e: Avatar, self: byte) {
    forall x | x in out ::
      && x.Send?
      && Subject(x.packet).Some?
      && (e.nameId == self ==> Subject(x.packet) == Some(0xff))
      && (e.nameId != 0xff ==> Resolve(Subject(x.packet).value, self) == e.nameId)
  }

  /** The receiver's own entity id; a logged-in session always has an entity. */
  function SelfId(s: Session): byte
    requires Valid(s) && s.loggedIn
  {
    s.entity.value.nameId
  }

  /** Tells the client that `e` changed model; needs the ChangeModel extension. */
  function SendChangeModel(s: Session, e: Avatar): (out: seq<Effect>)
    requires Valid(s)
    ensures |out| <= 1
    ensures |out| == 1 <==> s.loggedIn && s.connected && HasExtension(s, "ChangeModel")
    ensures |out| == 1 ==> out[0].Send? && out[0].packet.ChangeModel? && out[0].packet.modelName == e.modelName
    ensures s.loggedIn ==> AddressedTo(out, e, SelfId(s))
  {
    if !s.loggedIn || !HasExtension(s, "ChangeModel") then []
    else SendPacket(s, ChangeModel(WireId(e.nameId, SelfId(s)), e.modelName))
  }

  /**
   Spawns `e` for the client: the extended spawn with display and skin name
   when the client speaks ExtPlayerList, the classic one with the plain name
   otherwise, followed by a model change for a non-humanoid model.
   */
  function SendSpawn(s: Session, e: Avatar): (out: seq<Effect>)
    requires Valid(s)
    ensures !s.loggedIn ==> out == []
    ensures s.loggedIn ==> AddressedTo(out, e, SelfId(s))
    ensures s.loggedIn ==>
      && 1 <= |out| <= 2
      && (out[0].packet.ExtAddEntity2? <==> HasExtension(s, "ExtPlayerList"))
      && (out[0].packet.ExtAddEntity2? ==> out[0].packet.inGameName == e.displayName && out[0].packet.skinName == e.skinName)
      && (out[0].packet.SpawnPlayer? ==> out[0].packet.playerName == e.name)
      && out[0].Send? && (out[0].packet.ExtAddEntity2? || out[0].packet.SpawnPlayer?)
      && out[0].packet.pose == EncodePose(e.location)
      && (|out| == 2 <==> e.modelName != ModelHumanoid && HasExtension(s, "ChangeModel"))
    ensures s.loggedIn && |out| == 2 ==> out[1..] == SendChangeModel(s, e)
  {
    if !s.loggedIn then []
    else
      var id := WireId(e.nameId, SelfId(s));
      var spawn :=
        if HasExtension(s, "ExtPlayerList") then SendPacket(s, ExtAddEntity2(id, e.displayName, e.skinName, EncodePose(e.location)))
        else SendPacket(s, SpawnPlayer(id, e.name, EncodePose(e.location)));
      spawn + (if e.modelName != ModelHumanoid then SendChangeModel(s, e) else [])
  }

  /** Removes `e` from the client's view. */
  function SendDespawn(s: Session, e: Avatar): (out: seq<Effect>)
    requires Valid(s)
    ensures |out| <= 1
    ensures |out| == 1 <==> s.loggedIn && s.connected
    ensures |out| == 1 ==> out[0].Send? && out[0].packet.DespawnPlayer?
    ensures s.loggedIn ==> AddressedTo(out, e, SelfId(s))
  {
    if !s.loggedIn then []
    else SendPacket(s, DespawnPlayer(WireId(e.nameId, SelfId(s))))
  }

  /** Moves `e` to its current location in the client's view. */
  function SendTeleport(s: Session, e: Avatar): (out: seq<Effect>)
    requires Valid(s)
    ensures |out| <= 1
    ensures |out| == 1 <==> s.loggedIn && s.connected
    ensures |out| == 1 ==> out[0].Send? && out[0].packet.PlayerTeleport? && out[0].packet.pose == EncodePose(e.location)
    ensures s.loggedIn ==> AddressedTo(out, e, SelfId(s))
  {
    if !s.loggedIn then []
    else SendPacket(s, PlayerTeleport(WireId(e.nameId, SelfId(s)), EncodePose(e.location)))
  }

  /** Adds `e` to the client's player list; needs the ExtPlayerList extension. */
  function SendAddPlayerList(s: Session, e: Avatar): (out: seq<Effect>)
    requires Valid(s)
    ensures |out| <= 1
    ensures |out| == 1 <==> s.loggedIn && s.connected && HasExtension(s, "ExtPlayerList")
    ensures |out| == 1 ==>
      && out[0].Send? && out[0].packet.ExtAddPlayerName? && out[0].packet.listName == e.listName
      && out[0].packet.groupName == e.groupName && out[0].packet.groupRank == e.groupRank
    ensures s.loggedIn ==> AddressedTo(out, e, SelfId(s))
  {
    if !s.loggedIn || !HasExtension(s, "ExtPlayerList") then []
    else
      var id := WireId(e.nameId, SelfId(s));
      SendPacket(s, ExtAddPlayerName(ToInt16(id), e.name, e.listName, e.groupName, e.groupRank))
  }

  /** Removes `e` from the client's player list; needs the ExtPlayerList extension. */
  function SendRemovePlayerList(s: Session, e: Avatar): (out: seq<Effect>)
    requires Valid(s)
    ensures |out| <= 1
    ensures |out| == 1 <==> s.loggedIn && s.connected && HasExtension(s, "ExtPlayerList")
    ensures |out| == 1 ==> out[0].Send? && out[0].packet.ExtRemovePlayerName?
    ensures s.loggedIn ==> AddressedTo(out, e, SelfId(s))
  {
    if !s.loggedIn || !HasExtension(s, "ExtPlayerList") then []
    else SendPacket(s, ExtRemovePlayerName(ToInt16(WireId(e.nameId, SelfId(s)))))
  }

  /**
   The block id a client can display: a client without custom-block support
   gets the fallback of a custom block, translated by `fallback`.
   */
  function ConvertBlock(s: Session, block: byte, fallback: byte -> byte): (b: byte)
    ensures s.customBlockSupportLevel >= 1 ==> b == block
    ensures s.customBlockSupportLevel < 1 ==> b == fallback(block)
  {
    if s.customBlockSupportLevel < 1 then fallback(block) else block
  }

  /** Sets one block in the client's view; coordinates travel as `int16`. */
  function SendBlockChange(s: Session, x: nat, y: nat, z: nat, block: byte, fallback: byte -> byte): (out: seq<Effect>)
    ensures |out| <= 1
    ensures |out| == 1 <==> s.loggedIn && s.connected
    ensures |out| == 1 ==>
      && out[0].Send?
      && var p := out[0].packet;
      && p.SetBlock? && p.blockType == ConvertBlock(s, block, fallback)
      && (x < 0x8000 ==> p.x == x) && (y < 0x8000 ==> p.y == y) && (z < 0x8000 ==> p.z == z)
  {
    if !s.loggedIn then []
    else SendPacket(s, SetBlock(ToInt16(x), ToInt16(y), ToInt16(z), ConvertBlock(s, block, fallback)))
  }

  /** The result of an update that touches only the session. */
  datatype Change = Change(session: Session, effects: seq<Effect>)

  /**
   Sets the operator flag, telling a logged-in client about an actual change
   with the user type 0x64 (operator) or 0x00.
   */
  function SetOperator(s: Session, value: bool): (r: Change)
    ensures r.session == s.(operator := value)
    ensures |r.effects| <= 1
    ensures |r.effects| == 1 <==> s.loggedIn && s.connected && value != s.operator
    ensures |r.effects| == 1 ==> r.effects[0] == Send(UpdateUserType(if value then 0x64 else 0x00))
  {
    var sent := if s.loggedIn && value != s.operator then SendPacket(s, UpdateUserType(UserType(value))) else [];
    Change(s.(operator := value), sent)
  }

  /** Setting the same operator flag twice tells the client once. */
  lemma SetOperatorIdempotent(s: Session, value: bool)
    ensures var once := SetOperator(s, value);
            var twice := SetOperator(once.session, value);
            twice.session == once.session && twice.effects == []
  {
  }

  /**
   Sets the reach; a logged-in client that speaks ClickDistance is told the
   new value in 1/32 block units, the fraction discarded.
   */
  function SetClickDistance(s: Session, value: real): (r: Change)
    ensures r.session == s.(clickDistance := value)
    ensures |r.effects| <= 1
    ensures |r.effects| == 1 <==> s.loggedIn && s.connected && HasExtension(s, "ClickDistance")
    ensures |r.effects| == 1 ==> r.effects[0].Send? && r.effects[0].packet.SetClickDistance?
    ensures |r.effects| == 1 && 0.0 <= value < 1024.0 ==>
      r.effects[0].Send? && r.effects[0].packet.SetClickDistance? &&
      var units := r.effects[0].packet.distance as real;
      units <= value * 32.0 < units + 1.0
  {
    var sent :=
      if s.loggedIn && HasExtension(s, "ClickDistance") then SendPacket(s, Packet.SetClickDistance(ToInt16(Trunc(value * 32.0))))
      else [];
    Change(s.(clickDistance := value), sent)
  }

  function SendEntries(s: Session, exts: seq<Extension>): (out: seq<Effect>)
    ensures s.connected ==> |out| == |exts| && forall i | 0 <= i < |exts| :: out[i] == Send(ExtEntry(exts[i].name, exts[i].version))
    ensures !s.connected ==> out == []
  {
    if |exts| == 0 then [] else SendPacket(s, ExtEntry(exts[0].name, exts[0].version)) + SendEntries(s, exts[1..])
  }

  /**
   The extension announcement: the software name with the number of entries,
   then one entry per extension in table order. The announced count is the
   number of entries that follow.
   */
  function SendCPE(s: Session, software: string): (out: seq<Effect>)
    ensures !s.connected ==> out == []
    ensures s.connected ==>
      && |out| == 1 + |Extensions|
      && out[0] == Send(ExtInfo(software, |out| - 1))
      && forall i | 1 <= i < |out| :: out[i] == Send(ExtEntry(Extensions[i - 1].name, Extensions[i - 1].version))
  {
    SendPacket(s, ExtInfo(software, ToInt16(|Extensions|))) + SendEntries(s, Extensions)
  }

  /** The environment of a level, as the EnvMapAppearance extension carries it. */
  datatype Appearance = Appearance(
    texturePackUrl: string,
    sideBlock: byte,
    edgeBlock: byte,
    sideLevel: int,
    cloudLevel: int,
    maxViewDistance: int)

  /** The parts of a level that the transfer reads. */
  datatype LevelView = LevelView(
    width: nat,
    height: nat,
    depth: nat,
    blocks: seq<byte>,
    appearance: Appearance,
    weather: byte)

  const ChunkSize: nat := 1024

  /** `math.Ceil(n / 1024)`: the fewest 1024-byte chunks that hold `n` bytes. */
  function ChunkCount(n: nat): (k: nat)
    ensures k * ChunkSize >= n
    ensures k > 0 ==> (k - 1) * ChunkSize < n
    ensures k == 0 <==> n == 0
  {
    (n + ChunkSize - 1) / ChunkSize
  }

  function Zeros(n: nat): (z: seq<byte>)
    ensures |z| == n && forall i | 0 <= i < n :: z[i] == 0
  {
    seq(n, _ => 0)
  }

  lemma ChunkInRange(n: nat, i: nat)
    requires i < ChunkCount(n)
    ensures ChunkSize * i < n
  {
    var k := ChunkCount(n);
    assert ChunkSize * i <= ChunkSize * (k - 1);
  }

  lemma PercentBelow100(i: nat, packets: nat)
    requires i < packets
    ensures i * 100 / packets < 100
  {
    assert i * 100 < packets * 100;
  }

  /**
   Chunk `i` of `packets`: up to 1024 bytes from offset 1024·i, zero-padded
   to the fixed field, with the percentage `i·100/packets`. The percentage
   stays below 100, so its `byte` conversion loses nothing.
   */
  function ChunkAt(data: seq<byte>, i: nat, packets: nat): Packet
    requires packets == ChunkCount(|data|) && i < packets
  {
    ChunkInRange(|data|, i);
    PercentBelow100(i, packets);
    var offset := ChunkSize * i;
    var size := if |data| - offset > ChunkSize then ChunkSize else |data| - offset;
    LevelDataChunk(ToInt16(size), data[offset..offset + size] + Zeros(ChunkSize - size), i * 100 / packets)
  }

  /** All chunks of a compressed level, in order. */
  function Chunks(data: seq<byte>): (cs: seq<Packet>)
    ensures |cs| == ChunkCount(|data|)
  {
    var packets := ChunkCount(|data|);
    seq(packets, i requires 0 <= i < packets => ChunkAt(data, i, packets))
  }

  /** The meaningful bytes of each chunk, in order: what the client reassembles. */
  function Payload(cs: seq<Packet>): seq<byte>
    requires forall i | 0 <= i < |cs| :: cs[i].LevelDataChunk? && 0 <= cs[i].chunkLength <= |cs[i].chunkData|
  {
    if |cs| == 0 then [] else cs[0].chunkData[..cs[0].chunkLength] + Payload(cs[1..])
  }

  /**
   Every chunk carries 1 to 1024 meaningful bytes in a 1024-byte field, and
   its percentage is below 100 and never falls from one chunk to the next.
   */
  lemma ChunkShapes(data: seq<byte>)
    ensures var cs := Chunks(data);
      && (forall i | 0 <= i < |cs| ::
            && cs[i].LevelDataChunk?
            && 1 <= cs[i].chunkLength <= ChunkSize
            && |cs[i].chunkData| == ChunkSize
            && 0 <= cs[i].percentComplete < 100)
      && (forall i, j | 0 <= i <= j < |cs| :: cs[i].percentComplete <= cs[j].percentComplete)
  {
    var cs := Chunks(data);
    var packets := |cs|;
    forall i, j | 0 <= i <= j < packets
      ensures cs[i].percentComplete <= cs[j].percentComplete
    {
      DivMonotone(i * 100, j * 100, packets);
    }
  }

  lemma DivMonotone(a: nat, b: nat, d: nat)
    requires a <= b && d > 0
    ensures a / d <= b / d
  {
    var qa, ra := a / d, a % d;
    var qb, rb := b / d, b % d;
    assert (qa - qb) * d == (a - b) + (rb - ra);
    assert (qa - qb) * d < d;
    LessThanOneMultiple(qa - qb, d);
  }

  lemma LessThanOneMultiple(x: int, d: nat)
    requires d > 0 && x * d < d
    ensures x < 1
  {
  }

  lemma {:induction false} PayloadFrom(data: seq<byte>, i: nat)
    requires i <= |Chunks(data)|
    ensures ChunkShapesHold(Chunks(data)[i..])
    ensures Payload(Chunks(data)[i..]) == data[if ChunkSize * i < |data| then ChunkSize * i else |data|..]
    decreases |Chunks(data)| - i
  {
    var cs := Chunks(data);
    ChunkShapes(data);
    if i == |cs| {
      assert ChunkSize * i >= |data|;
    } else {
      ChunkInRange(|data|, i);
      var offset := ChunkSize * i;
      var size := if |data| - offset > ChunkSize then ChunkSize else |data| - offset;
      assert cs[i] == ChunkAt(data, i, |cs|);
      assert cs[i].chunkLength == size;
      assert cs[i].chunkData[..size] == data[offset..offset + size];
      PayloadFrom(data, i + 1);
      assert cs[i..][1..] == cs[i + 1..];
      assert data[offset..] == data[offset..offset + size] + data[offset + size..];
    }
  }

  ghost predicate ChunkShapesHold(cs: seq<Packet>) {
    forall i | 0 <= i < |cs| :: cs[i].LevelDataChunk? && 0 <= cs[i].chunkLength <= |cs[i].chunkData|
  }

  /** The chunks reassemble to exactly the compressed level. */
  lemma ChunksReassemble(data: seq<byte>)
    ensures ChunkShapesHold(Chunks(data))
    ensures Payload(Chunks(data)) == data
  {
    PayloadFrom(data, 0);
    assert Chunks(data)[0..] == Chunks(data);
  }

  /**
   The bytes the transfer compresses: the level volume as a big-endian
   `int32`, then every block as this client can display it.
   */
  function LevelPayload(s: Session, level: LevelView, fallback: byte -> byte): (bs: seq<byte>)
    ensures |bs| == 4 + |level.blocks|
    ensures FromBE32(bs[..4]) == (level.width * level.height * level.depth) % Uint32Modulus
    ensures forall i | 0 <= i < |level.blocks| :: bs[4 + i] == ConvertBlock(s, level.blocks[i], fallback)
  {
    var header := BE32(level.width * level.height * level.depth);
    var body := seq(|level.blocks|, i requires 0 <= i < |level.blocks| => ConvertBlock(s, level.blocks[i], fallback));
    assert (header + body)[..4] == header;
    header + body
  }

  /** The level's environment; needs the EnvMapAppearance extension. */
  function SendLevelAppearance(s: Session, a: Appearance, fallback: byte -> byte): (out: seq<Effect>)
    ensures |out| <= 1
    ensures |out| == 1 <==> s.loggedIn && s.connected && HasExtension(s, "EnvMapAppearance")
    ensures |out| == 1 ==>
      out[0] == Send(EnvSetMapAppearance(a.texturePackUrl, ConvertBlock(s, a.sideBlock, fallback), ConvertBlock(s, a.edgeBlock, fallback),
                                         ToInt16(a.sideLevel), ToInt16(a.cloudLevel), ToInt16(a.maxViewDistance)))
  {
    if !s.loggedIn || !HasExtension(s, "EnvMapAppearance") then []
    else
      SendPacket(s, EnvSetMapAppearance(a.texturePackUrl, ConvertBlock(s, a.sideBlock, fallback), ConvertBlock(s, a.edgeBlock, fallback),
                                        ToInt16(a.sideLevel), ToInt16(a.cloudLevel), ToInt16(a.maxViewDistance)))
  }

  /** The level's weather; needs the EnvWeatherType extension. */
  function SendWeather(s: Session, weather: byte): (out: seq<Effect>)
    ensures |out| <= 1
    ensures |out| == 1 <==> s.loggedIn && s.connected && HasExtension(s, "EnvWeatherType")
    ensures |out| == 1 ==> out[0] == Send(EnvSetWeatherType(weather))
  {
    if !s.loggedIn || !HasExtension(s, "EnvWeatherType") then [] else SendPacket(s, EnvSetWeatherType(weather))
  }

  function SendAll(s: Session, ps: seq<Packet>): (out: seq<Effect>)
    ensures s.connected ==> |out| == |ps| && forall i | 0 <= i < |ps| :: out[i] == Send(ps[i])
    ensures !s.connected ==> out == []
  {
    if s.connected then seq(|ps|, i requires 0 <= i < |ps| => Send(ps[i])) else []
  }

  /** The level chunks among the packets a client receives, in order. */
  function Received(out: seq<Effect>): seq<Packet> {
    if |out| == 0 then []
    else (if out[0].Send? && out[0].packet.LevelDataChunk? then [out[0].packet] else []) + Received(out[1..])
  }

  lemma {:induction false} ReceivedAppend(a: seq<Effect>, b: seq<Effect>)
    ensures Received(a + b) == Received(a) + Received(b)
  {
    if |a| == 0 {
      assert a + b == b;
    } else {
      var head := if a[0].Send? && a[0].packet.LevelDataChunk? then [a[0].packet] else [];
      assert (a + b)[0] == a[0];
      assert (a + b)[1..] == a[1..] + b;
      assert Received(a + b) == head + Received(a[1..] + b);
      ReceivedAppend(a[1..], b);
      assert Received(a) == head + Received(a[1..]);
    }
  }

  lemma {:induction false} ReceivedNone(out: seq<Effect>)
    requires forall i | 0 <= i < |out| :: !(out[i].Send? && out[i].packet.LevelDataChunk?)
    ensures Received(out) == []
  {
    if |out| > 0 {
      ReceivedNone(out[1..]);
    }
  }

  lemma {:induction false} ReceivedChunks(cs: seq<Packet>)
    requires forall i | 0 <= i < |cs| :: cs[i].LevelDataChunk?
    ensures Received(seq(|cs|, i requires 0 <= i < |cs| => Send(cs[i]))) == cs
  {
    var out := seq(|cs|, i requires 0 <= i < |cs| => Send(cs[i]));
    if |cs| > 0 {
      assert out[1..] == seq(|cs[1..]|, i requires 0 <= i < |cs[1..]| => Send(cs[1..][i]));
      ReceivedChunks(cs[1..]);
      assert cs == [cs[0]] + cs[1..];
    }
  }

  lemma ChunksAreChunks(data: seq<byte>)
    ensures forall i | 0 <= i < |Chunks(data)| :: Chunks(data)[i].LevelDataChunk?
  {
  }

  /**
   The level transfer: initialise, the compressed level in chunks, the
   environment and weather for clients that speak those extensions, and the
   dimensions as `int16`s to finish. `compress` stands for gzip.
   */
  function SendLevel(s: Session, level: LevelView, compress: seq<byte> -> seq<byte>, fallback: byte -> byte): (out: seq<Effect>)
    ensures !(s.loggedIn && s.connected) ==> out == []
    ensures s.loggedIn && s.connected ==>
      && |out| >= 2
      && out[0] == Send(LevelInitialize)
      && out[|out| - 1] == Send(LevelFinalize(ToInt16(level.width), ToInt16(level.height), ToInt16(level.depth)))
  {
    if !s.loggedIn then []
    else
      var data := compress(LevelPayload(s, level, fallback));
      SendPacket(s, LevelInitialize)
      + SendAll(s, Chunks(data))
      + SendLevelAppearance(s, level.appearance, fallback)
      + SendWeather(s, level.weather)
      + SendPacket(s, LevelFinalize(ToInt16(level.width), ToInt16(level.height), ToInt16(level.depth)))
  }

  lemma LevelReceivedIsChunks(s: Session, level: LevelView, compress: seq<byte> -> seq<byte>, fallback: byte -> byte)
    requires s.loggedIn && s.connected
    ensures Received(SendLevel(s, level, compress, fallback)) == Chunks(compress(LevelPayload(s, level, fallback)))
  {
    var cs := Chunks(compress(LevelPayload(s, level, fallback)));
    var init := SendPacket(s, LevelInitialize);
    var chunks := SendAll(s, cs);
    var app := SendLevelAppearance(s, level.appearance, fallback);
    var weather := SendWeather(s, level.weather);
    var fin := SendPacket(s, LevelFinalize(ToInt16(level.width), ToInt16(level.height), ToInt16(level.depth)));
    assert SendLevel(s, level, compress, fallback) == init + chunks + app + weather + fin;
    ReceivedAppend(init + chunks + app + weather, fin);
    ReceivedAppend(init + chunks + app, weather);
    ReceivedAppend(init + chunks, app);
    ReceivedAppend(init, chunks);
    ReceivedNone(init);
    ReceivedNone(app);
    ReceivedNone(weather);
    ReceivedNone(fin);
    ChunksAreChunks(compress(LevelPayload(s, level, fallback)));
    assert chunks == seq(|cs|, i requires 0 <= i < |cs| => Send(cs[i]));
    ReceivedChunks(cs);
  }

  /**
   A logged-in client receives the compressed level exactly: the chunks it is
   sent are `ceil(n / 1024)` in number and their meaningful bytes, put
   together in order, are the compressed payload.
   */
  lemma LevelTransferDelivers(s: Session, level: LevelView, compress: seq<byte> -> seq<byte>, fallback: byte -> byte)
    requires s.loggedIn && s.connected
    ensures var data := compress(LevelPayload(s, level, fallback));
            var got := Received(SendLevel(s, level, compress, fallback));
            && |got| == ChunkCount(|data|)
            && ChunkShapesHold(got)
            && Payload(got) == data
  {
    LevelReceivedIsChunks(s, level, compress, fallback);
    ChunksReassemble(compress(LevelPayload(s, level, fallback)));
  }
}

=== FILE: session.dfy ===
/**
 The per-connection session of the server: its state record, the shared
 player counter, and the lifecycle steps every handler builds on — sending a
 packet, kicking, disconnecting and logging in.

 A step takes the session and the server and returns both, updated, with the
 effects the step caused, in order. The concurrency of the source (atomic
 flags, the compare-and-swap admission loop) is modelled sequentially: one
 step runs at a time.
 */
module Sessions {
  import opened Wire
  import opened Optional
  import opened Geometry
  import Text
  import Commands

  /** The player entity a session owns once it has logged in. */
  datatype Avatar = Avatar(
    nameId: byte,
    name: string,
    displayName: string,
    skinName: string,
    modelName: string,
    listName: string,
    groupName: string,
    groupRank: byte,
    location: Location)

  const ModelHumanoid: string := "humanoid"

  /** A freshly constructed player entity, before the registry assigns its id. */
  function NewAvatar(name: string): (a: Avatar)
    ensures a.nameId == 0xff && a.modelName == ModelHumanoid
    ensures a.name == name && a.displayName == name && a.skinName == name && a.listName == name
  {
    Avatar(0xff, name, name, name, ModelHumanoid, name, "", 0, Origin)
  }

  /** A protocol extension and the version the server speaks. */
  datatype Extension = Extension(name: string, version: int)

  /** The extensions the server offers, in the order it announces them. */
  const Extensions: seq<Extension> := [
    Extension("ClickDistance", 1),
    Extension("CustomBlocks", 1),
    Extension("ExtPlayerList", 2),
    Extension("LongerMessages", 1),
    Extension("ChangeModel", 1),
    Extension("EnvMapAppearance", 2),
    Extension("EnvWeatherType", 1)]

  /** The state of one client connection. */
  datatype Session = Session(
    connected: bool,
    loggedIn: bool,
    clientName: string,
    operator: bool,
    permissions: seq<seq<string>>,
    hasCPE: bool,
    remainingExtensions: uint64,
    extensions: map<string, int>,
    message: string,
    customBlockSupportLevel: byte,
    clickDistance: real,
    entity: Option<Avatar>)

  /** The session as the read loop starts it: connected, nothing negotiated, reach 5. */
  function NewSession(): (s: Session)
    ensures s.connected && !s.loggedIn && s.entity == None
    ensures s.extensions == map[] && s.remainingExtensions == 0 && s.message == ""
    ensures s.clickDistance == 5.0
  {
    Session(true, false, "", false, [], false, 0, map[], "", 0, 5.0, None)
  }

  /** A session that has logged in is still connected and owns an entity. */
  ghost predicate Valid(s: Session) {
    s.loggedIn ==> s.connected && s.entity.Some?
  }

  datatype Config = Config(
    name: string,
    motd: string,
    maxPlayers: int,
    verify: bool,
    salt: string,
    software: string)

  /**
   The server state a session step reads and writes: the admission counter and
   the directories of entities (by id) and of logged-in clients (by name).
   */
  datatype Server = Server(
    playerCount: int,
    config: Config,
    entities: map<byte, string>,
    clients: set<string>)

  /** `FindEntity(name) != nil`. */
  predicate NameTaken(sv: Server, name: string) {
    name in sv.entities.Values
  }

  /** Outbound packets, with the fields the model keeps. */
  datatype Packet =
    | ServerIdentification(protocolVersion: byte, name: string, motd: string, userType: byte)
    | Ping
    | LevelInitialize
    | LevelDataChunk(chunkLength: int, chunkData: seq<byte>, percentComplete: int)
    | LevelFinalize(width: int, height: int, depth: int)
    | SetBlock(x: int, y: int, z: int, blockType: byte)
    | SpawnPlayer(playerId: byte, playerName: string, pose: WirePose)
    | PlayerTeleport(playerId: byte, pose: WirePose)
    | DespawnPlayer(playerId: byte)
    | Message(playerId: byte, text: string)
    | DisconnectPlayer(reason: string)
    | UpdateUserType(userType: byte)
    | ExtInfo(appName: string, extensionCount: int)
    | ExtEntry(extName: string, version: int)
    | SetClickDistance(distance: int)
    | CustomBlockSupportLevel(supportLevel: byte)
    | ExtAddPlayerName(nameId: int, playerName: string, listName: string, groupName: string, groupRank: byte)
    | ExtRemovePlayerName(nameId: int)
    | ExtAddEntity2(entityId: byte, inGameName: string, skinName: string, pose: WirePose)
    | ChangeModel(entityId: byte, modelName: string)
    | EnvSetMapAppearance(texturePackUrl: string, sideBlock: byte, edgeBlock: byte,
                          sideLevel: int, cloudLevel: int, maxViewDistance: int)
    | EnvSetWeatherType(weatherType: byte)

  datatype Event = JoinEvent | QuitEvent | DisconnectEvent | MoveEvent | BlockBreakEvent | BlockPlaceEvent

  /** What a step causes outside the session record, in order. */
  datatype Effect =
    | Send(packet: Packet)                 // written to this session's own connection
    | Broadcast(text: string)              // chat line to every logged-in client
    | ChatFrom(sender: string, text: string)  // a player's chat line, colour codes converted, to every client
    | RunCommand(commandLine: string)      // handed to the command dispatcher
    | Fire(event: Event)                   // raised to the event listeners
    | CloseConnection                      // keep-alive stopped and socket closed
    | StartKeepAlive                       // the two-second ping ticker starts
    | EnterMainLevel                       // the entity moves into the main level
    | LeaveLevel                           // the entity leaves its level
    | WorldSetBlock(x: int, y: int, z: int, block: byte)  // a block edit applied and echoed
    | Panic(reason: string)                // a Go runtime panic

  datatype Step = Step(session: Session, server: Server, effects: seq<Effect>)

  /** 1 for a logged-in session, 0 otherwise. */
  function Held(s: Session): int {
    if s.loggedIn then 1 else 0
  }

  /**
   The admission counter moved exactly as the session's login flag did: one
   slot taken per login, one given back per logout.
   */
  ghost predicate SlotsBalanced(before: Step, after: Step) {
    after.server.playerCount - before.server.playerCount == Held(after.session) - Held(before.session)
  }

  function HasExtension(s: Session, name: string): bool {
    name in s.extensions
  }

  /** Writes a packet to the connection; nothing happens once it is closed. */
  function SendPacket(s: Session, p: Packet): (out: seq<Effect>)
    ensures s.connected ==> out == [Send(p)]
    ensures !s.connected ==> out == []
  {
    if s.connected then [Send(p)] else []
  }

  function SendLines(s: Session, lines: seq<string>): (out: seq<Effect>)
    ensures s.connected ==> |out| == |lines| && forall i | 0 <= i < |lines| :: out[i] == Send(Message(0, lines[i]))
    ensures !s.connected ==> out == []
  {
    if |lines| == 0 then [] else SendPacket(s, Message(0, lines[0])) + SendLines(s, lines[1..])
  }

  /** A chat message to this client, one packet per line. */
  function SendMessage(s: Session, text: string): (out: seq<Effect>)
    ensures s.connected ==> |out| == |Text.Split(text, '\n')|
    ensures s.connected && '\n' !in text ==> out == [Send(Message(0, text))]
    ensures s.connected ==> forall i | 0 <= i < |out| :: out[i] == Send(Message(0, Text.Split(text, '\n')[i]))
    ensures !s.connected ==> out == []
  {
    SendLines(s, Text.Split(text, '\n'))
  }

  /** The name other players see for this session's entity. */
  function EntityName(s: Session): string {
    if s.entity.Some? then s.entity.value.name else s.clientName
  }

  /**
   Ends the session once: closes the connection and, if it had logged in,
   withdraws the entity, announces the departure and gives the admission slot
   back. A second call is a no-op.
   */
  function Disconnect(s: Session, sv: Server): (r: Step)
    ensures !r.session.connected
    ensures Valid(s) ==> Valid(r.session)
    ensures !s.connected ==> r == Step(s, sv, [])
    ensures s.connected ==> r.session == s.(connected := false, loggedIn := false)
    ensures SlotsBalanced(Step(s, sv, []), r)
    ensures r.server.config == sv.config
    ensures s.connected ==>
      |r.effects| >= 2 && r.effects[0] == CloseConnection && r.effects[|r.effects| - 1] == Fire(DisconnectEvent)
    ensures s.connected && s.loggedIn ==>
      Broadcast(Commands.ColorYellow + EntityName(s) + " has left the game!") in r.effects
      && r.server.clients == sv.clients - {s.clientName}
    ensures !(s.connected && s.loggedIn) ==>
      r.server == sv && forall e | e in r.effects :: !e.Broadcast?
    ensures s.connected && s.loggedIn ==>
      && r.effects[1] == Fire(QuitEvent) && r.effects[2] == LeaveLevel
      && r.server.playerCount == sv.playerCount - 1
    ensures s.connected && s.loggedIn && s.entity.Some? ==> r.server.entities == sv.entities - {s.entity.value.nameId}
  {
    if !s.connected then Step(s, sv, [])
    else
      var closed := s.(connected := false);
      if s.loggedIn then
        var name := EntityName(s);
        var id := if s.entity.Some? then s.entity.value.nameId else 0xff;
        Step(
          closed.(loggedIn := false),
          sv.(playerCount := sv.playerCount - 1,
              entities := sv.entities - {id},
              clients := sv.clients - {s.clientName}),
          [CloseConnection, Fire(QuitEvent), LeaveLevel,
           Broadcast(Commands.ColorYellow + name + " has left the game!"),
           Fire(DisconnectEvent)])
      else
        Step(closed, sv, [CloseConnection, Fire(DisconnectEvent)])
  }

  /** Disconnecting twice gives one leave announcement and one slot release. */
  lemma DisconnectIdempotent(s: Session, sv: Server)
    ensures var r := Disconnect(s, sv);
            Disconnect(r.session, r.server) == Step(r.session, r.server, [])
  {
  }

  /** Sends the disconnect packet with the reason, then disconnects. */
  function Kick(s: Session, sv: Server, reason: string): (r: Step)
    ensures !r.session.connected
    ensures Valid(s) ==> Valid(r.session)
    ensures s.connected ==> |r.effects| >= 1 && r.effects[0] == Send(DisconnectPlayer(reason))
    ensures !s.connected ==> r == Step(s, sv, [])
    ensures r.session == s.(connected := r.session.connected, loggedIn := r.session.loggedIn)
    ensures !s.loggedIn ==> r.server == sv
    ensures SlotsBalanced(Step(s, sv, []), r)
    ensures r.server.config == sv.config
  {
    var d := Disconnect(s, sv);
    Step(d.session, d.server, SendPacket(s, DisconnectPlayer(reason)) + d.effects)
  }

  /** What the login sequence learns from outside the session. */
  datatype JoinEnv = JoinEnv(
    veto: Option<string>,   // a join listener's cancellation reason
    assignedId: byte,       // the entity id the registry hands out; 0xff when none is free
    hasMainLevel: bool)     // whether the server has a main level to enter

  /** `0x64` marks an operator in the identification and user-type packets. */
  function UserType(operator: bool): byte {
    if operator then 0x64 else 0x00
  }

  /**
   The login sequence. `releaseOnVeto` selects what happens to the slot taken
   for a session whose join a listener vetoes: the source keeps it.
   */
  function LoginSequence(s: Session, sv: Server, env: JoinEnv, releaseOnVeto: bool): Step {
    if s.loggedIn then Step(s, sv, [])
    else if sv.playerCount >= sv.config.maxPlayers then Kick(s, sv, "Server full!")
    else
      var blocks := if HasExtension(s, "CustomBlocks") then SendPacket(s, CustomBlockSupportLevel(1)) else [];
      var ident := SendPacket(s, ServerIdentification(0x07, sv.config.name, sv.config.motd, UserType(s.operator)));
      var rest := AfterGreeting(s, sv, env, releaseOnVeto);
      Step(rest.session, rest.server, blocks + ident + [Fire(JoinEvent)] + rest.effects)
  }

  /**
   The login of an admitted session after its greeting: a veto kicks it, and
   otherwise it is announced and either placed in the game or, with no entity
   id left, kicked.
   */
  function AfterGreeting(s: Session, sv: Server, env: JoinEnv, releaseOnVeto: bool): Step {
    var admitted := sv.(playerCount := sv.playerCount + 1);
    var avatar := NewAvatar(s.clientName);
    var withEntity := s.(entity := Some(avatar));
    match env.veto
    case Some(reason) =>
      var back := if releaseOnVeto then admitted.(playerCount := sv.playerCount) else admitted;
      Kick(withEntity, back, reason)
    case None =>
      var joined := withEntity.(loggedIn := true);
      var registered := admitted.(clients := admitted.clients + {s.clientName});
      var announce := [Broadcast(Commands.ColorYellow + s.clientName + " has joined the game!")];
      if env.assignedId == 0xff then
        var k := Kick(joined, registered, "Server full!");
        Step(k.session, k.server, announce + k.effects)
      else
        var placed := joined.(entity := Some(avatar.(nameId := env.assignedId)));
        var listed := registered.(entities := registered.entities[env.assignedId := s.clientName]);
        Step(placed, listed, announce + (if env.hasMainLevel then [EnterMainLevel] else []) + [StartKeepAlive])
  }

  /** The login sequence as the source writes it: a vetoed join keeps its slot. */
  function LoginAsWritten(s: Session, sv: Server, env: JoinEnv): (r: Step)
    ensures s.loggedIn ==> r == Step(s, sv, [])
    ensures !s.loggedIn && sv.playerCount >= sv.config.maxPlayers ==> r == Kick(s, sv, "Server full!")
    ensures !s.loggedIn && s.connected && sv.playerCount < sv.config.maxPlayers ==>
      |r.effects| >= |Greeting(s, sv)| && r.effects[..|Greeting(s, sv)|] == Greeting(s, sv)
  {
    LoginGreets(s, sv, env, false);
    LoginSequence(s, sv, env, false)
  }

  /** Away from a veto, the source's login and the corrected one are the same. */
  lemma LoginAsWrittenAgreesWithoutVeto(s: Session, sv: Server, env: JoinEnv)
    requires env.veto.None?
    ensures LoginAsWritten(s, sv, env) == Login(s, sv, env)
  {
  }

  /**
   A vetoed join takes a slot that nothing ever gives back: the session ends
   disconnected and not logged in, so its later disconnect releases nothing,
   yet the counter stays one higher.
   */
  lemma LoginVetoLeaksSlot(s: Session, sv: Server, reason: string)
    requires s.connected && !s.loggedIn
    requires sv.playerCount < sv.config.maxPlayers
    ensures var r := LoginAsWritten(s, sv, JoinEnv(Some(reason), 0, false));
            && !r.session.loggedIn && !r.session.connected
            && r.server.playerCount == sv.playerCount + 1
            && Disconnect(r.session, r.server).server.playerCount == sv.playerCount + 1
            && !SlotsBalanced(Step(s, sv, []), r)
  {
  }

  /**
   Admission: a session logs in at most once, is refused without any change to
   the counter when the server is full, never pushes the counter past the
   maximum, and moves the counter exactly as its login flag moves — including
   on a vetoed join, which gives its slot back.
   */
  function Login(s: Session, sv: Server, env: JoinEnv): (r: Step)
    ensures s.loggedIn ==> r == Step(s, sv, [])
    ensures !s.loggedIn && sv.playerCount >= sv.config.maxPlayers ==>
      r == Kick(s, sv, "Server full!") && r.server.playerCount == sv.playerCount
    ensures r.session == s.(connected := r.session.connected, loggedIn := r.session.loggedIn, entity := r.session.entity)
    ensures SlotsBalanced(Step(s, sv, []), r)
    ensures sv.playerCount <= sv.config.maxPlayers ==> r.server.playerCount <= sv.config.maxPlayers
    ensures r.server.config == sv.config
    ensures Valid(s) && s.connected ==> Valid(r.session)
    ensures !s.loggedIn && r.session.loggedIn && s.connected ==>
      && env.veto.None? && env.assignedId != 0xff
      && r.session.entity == Some(NewAvatar(s.clientName).(nameId := env.assignedId))
      && r.server.entities == sv.entities[env.assignedId := s.clientName]
      && r.server.clients == sv.clients + {s.clientName}
    ensures !s.loggedIn && s.connected && sv.playerCount < sv.config.maxPlayers && env.veto.None? && env.assignedId != 0xff ==>
      r.session.loggedIn && r.session.connected && r.server.playerCount == sv.playerCount + 1
    ensures !s.loggedIn && s.connected && sv.playerCount < sv.config.maxPlayers ==>
      |r.effects| >= |Greeting(s, sv)| && r.effects[..|Greeting(s, sv)|] == Greeting(s, sv)
    ensures !s.loggedIn && s.connected && sv.playerCount < sv.config.maxPlayers && env.veto.None? ==>
      Broadcast(Commands.ColorYellow + s.clientName + " has joined the game!") in r.effects
  {
    LoginGreets(s, sv, env, true);
    LoginSequence(s, sv, env, true)
  }

  /**
   What an admitted client is sent first: the custom-block support level if
   it negotiated CustomBlocks, then the server identification, then the join
   event fires.
   */
  function Greeting(s: Session, sv: Server): seq<Effect> {
    (if HasExtension(s, "CustomBlocks") then [Send(CustomBlockSupportLevel(1))] else [])
    + [Send(ServerIdentification(0x07, sv.config.name, sv.config.motd, UserType(s.operator))), Fire(JoinEvent)]
  }

  /**
   Both logins greet an admitted client before anything else. A join nobody
   vetoes is announced to everyone; a join that also gets an entity id ends
   by starting the keep-alive, and enters the main level iff there is one.
   */
  lemma LoginGreets(s: Session, sv: Server, env: JoinEnv, releaseOnVeto: bool)
    ensures !s.loggedIn && s.connected && sv.playerCount < sv.config.maxPlayers ==>
            var r := LoginSequence(s, sv, env, releaseOnVeto);
            && |r.effects| >= |Greeting(s, sv)| && r.effects[..|Greeting(s, sv)|] == Greeting(s, sv)
            && (env.veto.None? ==> Broadcast(Commands.ColorYellow + s.clientName + " has joined the game!") in r.effects)
            && (env.veto.None? && env.assignedId != 0xff ==>
                  && r.effects[|r.effects| - 1] == StartKeepAlive
                  && (EnterMainLevel in r.effects <==> env.hasMainLevel))
  {
    if s.loggedIn || !s.connected || sv.playerCount >= sv.config.maxPlayers {
      return;
    }
    var g := Greeting(s, sv);
    var rest := AfterGreeting(s, sv, env, releaseOnVeto).effects;
    assert LoginSequence(s, sv, env, releaseOnVeto).effects == g + rest;
    PrefixOfAppend(g, rest);
    if env.veto.None? {
      var announce := Broadcast(Commands.ColorYellow + s.clientName + " has joined the game!");
      assert rest[0] == announce;
      assert (g + rest)[|g|] == announce;
      if env.assignedId != 0xff {
        var main := if env.hasMainLevel then [EnterMainLevel] else [];
        assert g + rest == (g + [announce]) + main + [StartKeepAlive];
        assert EnterMainLevel !in g + [announce];
      }
    }
  }

  lemma PrefixOfAppend<T>(a: seq<T>, b: seq<T>)
    ensures |a + b| >= |a| && (a + b)[..|a|] == a
  {
  }

}

=== FILE: text.dfy ===
/**
 The string conventions the server relies on: the protocol's right-trimmed,
 space-padded strings, and the three ways Go's `strings` package splits text
 (`Split` on a separator, `SplitN(s, " ", 2)` and `Fields`).

 A Go string is a sequence of bytes holding UTF-8; here a string is the
 sequence of code points those bytes decode to.
 */
module Text {

  /** Right-trims the padding spaces of a fixed-width protocol string. */
  function TrimString(s: string): (r: string)
    ensures r <= s
    ensures |r| == 0 || r[|r| - 1] != ' '
    ensures forall i | |r| <= i < |s| :: s[i] == ' '
    decreases |s|
  {
    if |s| > 0 && s[|s| - 1] == ' ' then TrimString(s[..|s| - 1]) else s
  }

  /** A padded field holding only spaces trims to the empty string. */
  lemma AllSpacesTrimToEmpty(s: string)
    requires forall i | 0 <= i < |s| :: s[i] == ' '
    ensures TrimString(s) == ""
  {
    var r := TrimString(s);
    assert forall i | 0 <= i < |r| :: r[i] == s[i];
  }

  /** Position of the first occurrence of `c` in `s`. */
  function IndexOf(s: string, c: char): (i: nat)
    requires c in s
    ensures i < |s| && s[i] == c
    ensures c !in s[..i]
  {
    if s[0] == c then 0
    else
      assert c in s[1..] by {
        var k :| 0 <= k < |s| && s[k] == c;
        assert s[1..][k - 1] == c;
      }
      var j := IndexOf(s[1..], c);
      assert s[..j + 1] == [s[0]] + s[1..][..j];
      j + 1
  }

  /** The index of the separator after a separator-free prefix. */
  lemma IndexAfterPrefix(a: string, sep: char, b: string)
    requires sep !in a
    ensures sep in a + [sep] + b
    ensures IndexOf(a + [sep] + b, sep) == |a|
  {
    var s := a + [sep] + b;
    assert s[|a|] == sep;
    assert forall k | 0 <= k < |a| :: s[k] == a[k];
    var i := IndexOf(s, sep);
    assert forall k | |a| < k <= |s| :: s[..k][|a|] == sep;
  }

  /** Go's `strings.Split(s, sep)` for a one-character separator. */
  function Split(s: string, sep: char): (parts: seq<string>)
    ensures |parts| >= 1
    ensures forall i | 0 <= i < |parts| :: sep !in parts[i]
    decreases |s|
  {
    if sep !in s then [s]
    else
      var i := IndexOf(s, sep);
      [s[..i]] + Split(s[i + 1..], sep)
  }

  /** Go's `strings.Join(parts, sep)`: the inverse of `Split`. */
  function Join(parts: seq<string>, sep: char): string
    requires |parts| >= 1
  {
    if |parts| == 1 then parts[0] else parts[0] + [sep] + Join(parts[1..], sep)
  }

  /** Splitting and joining again gives back the original string. */
  lemma {:induction false} SplitJoin(s: string, sep: char)
    ensures Join(Split(s, sep), sep) == s
    decreases |s|
  {
    if sep in s {
      var i := IndexOf(s, sep);
      var rest := Split(s[i + 1..], sep);
      assert Split(s, sep) == [s[..i]] + rest;
      assert ([s[..i]] + rest)[1..] == rest;
      assert Join(Split(s, sep), sep) == s[..i] + [sep] + Join(rest, sep);
      SplitJoin(s[i + 1..], sep);
      assert s == s[..i] + [sep] + s[i + 1..];
    }
  }

  /** Joining separator-free parts and splitting again gives back the parts. */
  lemma {:induction false} JoinSplit(parts: seq<string>, sep: char)
    requires |parts| >= 1
    requires forall i | 0 <= i < |parts| :: sep !in parts[i]
    ensures Split(Join(parts, sep), sep) == parts
  {
    if |parts| > 1 {
      var rest := Join(parts[1..], sep);
      IndexAfterPrefix(parts[0], sep, rest);
      var s := parts[0] + [sep] + rest;
      assert s[..|parts[0]|] == parts[0];
      assert s[|parts[0]| + 1..] == rest;
      assert Split(s, sep) == [parts[0]] + Split(rest, sep);
      JoinSplit(parts[1..], sep);
      assert parts == [parts[0]] + parts[1..];
    }
  }

  /** Go's `strings.SplitN(s, sep, 2)`: cut at the first separator only. */
  function SplitN2(s: string, sep: char): (parts: seq<string>)
    ensures 1 <= |parts| <= 2
    ensures sep !in parts[0]
    ensures |parts| == 1 <==> sep !in s
    ensures |parts| == 1 ==> parts[0] == s
    ensures |parts| == 2 ==> parts[0] + [sep] + parts[1] == s
  {
    if sep !in s then [s]
    else
      var i := IndexOf(s, sep);
      assert s == s[..i] + [sep] + s[i + 1..];
      [s[..i], s[i + 1..]]
  }

  /**
   White space as `strings.Fields` sees it, Go's `unicode.IsSpace`: the ASCII
   space and tab to carriage return, U+0085 and U+00A0 in Latin-1, and above
   it the code points with the Unicode White_Space property.
   */
  predicate IsSpace(c: char) {
    var n := c as int;
    || n == 0x20 || 0x09 <= n <= 0x0D
    || n == 0x85 || n == 0xA0
    || n == 0x1680 || 0x2000 <= n <= 0x200A
    || n == 0x2028 || n == 0x2029 || n == 0x202F || n == 0x205F || n == 0x3000
  }

  /** Length of the leading run of non-space characters. */
  function WordLen(s: string): (n: nat)
    ensures n <= |s|
    ensures forall i | 0 <= i < n :: !IsSpace(s[i])
    ensures n < |s| ==> IsSpace(s[n])
  {
    if |s| == 0 || IsSpace(s[0]) then 0 else 1 + WordLen(s[1..])
  }

  predicate AllSpace(s: string) {
    forall j | 0 <= j < |s| :: IsSpace(s[j])
  }

  predicate IsWord(w: string) {
    |w| > 0 && forall j | 0 <= j < |w| :: !IsSpace(w[j])
  }

  /** Go's `strings.Fields(s)`: the maximal runs of non-space characters. */
  function Fields(s: string): (fs: seq<string>)
    ensures forall i | 0 <= i < |fs| :: IsWord(fs[i])
    ensures fs == [] <==> AllSpace(s)
    decreases |s|
  {
    if |s| == 0 then []
    else if IsSpace(s[0]) then
      assert AllSpace(s) <==> AllSpace(s[1..]) by {
        assert forall i | 1 <= i < |s| :: s[i] == s[1..][i - 1];
      }
      Fields(s[1..])
    else
      var n := WordLen(s);
      [s[..n]] + Fields(s[n..])
  }

  /** A word with text after it is read up to the first space. */
  lemma WordLenOfWord(w: string, rest: string)
    requires IsWord(w)
    requires rest == [] || IsSpace(rest[0])
    ensures WordLen(w + rest) == |w|
  {
    var s := w + rest;
    assert forall k | 0 <= k < |w| :: s[k] == w[k];
    assert |w| < |s| ==> IsSpace(s[|w|]);
  }

  /** `Fields` recovers words joined by single spaces. */
  lemma {:induction false} FieldsOfJoin(words: seq<string>)
    requires |words| >= 1
    requires forall i | 0 <= i < |words| :: IsWord(words[i])
    ensures Fields(Join(words, ' ')) == words
  {
    var w := words[0];
    if |words| == 1 {
      WordLenOfWord(w, []);
      assert w[..|w|] == w;
      assert w[|w|..] == [];
    } else {
      var rest := Join(words[1..], ' ');
      var s := w + [' '] + rest;
      WordLenOfWord(w, [' '] + rest);
      assert s == w + ([' '] + rest);
      assert s[..|w|] == w;
      assert s[|w|..] == [' '] + rest;
      assert ([' '] + rest)[1..] == rest;
      FieldsOfJoin(words[1..]);
      assert words == [w] + words[1..];
    }
  }

  /** Leading white space contributes no field. */
  lemma {:induction false} FieldsSkipSpaces(gap: string, t: string)
    requires AllSpace(gap)
    ensures Fields(gap + t) == Fields(t)
    decreases |gap|
  {
    if |gap| == 0 {
      assert gap + t == t;
    } else {
      assert (gap + t)[0] == gap[0];
      assert IsSpace(gap[0]);
      assert (gap + t)[1..] == gap[1..] + t;
      assert AllSpace(gap[1..]) by {
        assert forall j | 0 <= j < |gap[1..]| :: gap[1..][j] == gap[j + 1];
      }
      FieldsSkipSpaces(gap[1..], t);
    }
  }

  /** A word followed by white space or the end is one field. */
  lemma FieldsWordThen(w: string, t: string)
    requires IsWord(w)
    requires t == [] || IsSpace(t[0])
    ensures Fields(w + t) == [w] + Fields(t)
  {
    WordLenOfWord(w, t);
    assert (w + t)[..|w|] == w;
    assert (w + t)[|w|..] == t;
  }

  /**
   Words laid out between runs of white space: `gaps[0] + words[0] + gaps[1]
   + ... + words[n - 1] + gaps[n]`.
   */
  function Interleave(words: seq<string>, gaps: seq<string>): string
    requires |gaps| == |words| + 1
  {
    if |words| == 0 then gaps[0] else gaps[0] + words[0] + Interleave(words[1..], gaps[1..])
  }

  /** A layout starts with its first gap, or with its first word when that gap is empty. */
  lemma {:induction false} InterleaveStart(words: seq<string>, gaps: seq<string>)
    requires |gaps| == |words| + 1
    requires AllSpace(gaps[0])
    requires |words| > 0 ==> |gaps[0]| > 0
    ensures var t := Interleave(words, gaps); t == [] || IsSpace(t[0])
  {
    var t := Interleave(words, gaps);
    if |gaps[0]| > 0 {
      assert IsSpace(gaps[0][0]);
      if |words| > 0 {
        assert t == gaps[0] + (words[0] + Interleave(words[1..], gaps[1..]));
      } else {
        assert t == gaps[0];
      }
      assert t[0] == gaps[0][0];
    } else {
      assert |words| == 0 && t == gaps[0];
    }
  }

  /**
   `Fields` recovers the words from any layout with white space between them:
   runs of any length and kind of white space between words, and optional
   runs before the first and after the last.
   */
  lemma {:induction false} FieldsOfInterleave(words: seq<string>, gaps: seq<string>)
    requires |gaps| == |words| + 1
    requires forall i | 0 <= i < |words| :: IsWord(words[i])
    requires forall i | 0 <= i < |gaps| :: AllSpace(gaps[i])
    requires forall i | 1 <= i < |words| :: |gaps[i]| > 0
    ensures Fields(Interleave(words, gaps)) == words
  {
    if |words| == 0 {
      FieldsSkipSpaces(gaps[0], []);
      assert gaps[0] + [] == gaps[0];
    } else {
      var ws, gs := words[1..], gaps[1..];
      var t := Interleave(ws, gs);
      assert Interleave(words, gaps) == gaps[0] + (words[0] + t);
      FieldsSkipSpaces(gaps[0], words[0] + t);
      InterleaveStart(ws, gs);
      FieldsWordThen(words[0], t);
      assert forall i | 0 <= i < |ws| :: ws[i] == words[i + 1];
      assert forall i | 0 <= i < |gs| :: gs[i] == gaps[i + 1];
      FieldsOfInterleave(ws, gs);
      assert words == [words[0]] + ws;
    }
  }
}

=== FILE: validation.dfy ===
/**
 The pure validators of the client session: player names, chat text, and the
 dotted-path permission matcher with its `*` wildcard segment.
 */
module Validation {
  import Text

  /** The largest code point `unicode.MaxASCII`. */
  const MaxAscii: int := 0x7f

  predicate IsAsciiLetter(c: char) {
    'A' <= c <= 'Z' || 'a' <= c <= 'z'
  }

  predicate IsAsciiDigit(c: char) {
    '0' <= c <= '9'
  }

  /** A character allowed in a player name. */
  predicate IsNameChar(c: char) {
    IsAsciiLetter(c) || IsAsciiDigit(c) || c == '_'
  }

  /** A printable ASCII character (space through tilde). */
  predicate IsPrintableAscii(c: char) {
    0x20 <= c as int <= 0x7e
  }

  /**
   The character scan of `IsValidName`: rejects a character above the ASCII
   range, or one that is neither a letter, a digit nor an underscore.
   */
  function NameCharsFrom(name: string, i: nat): (ok: bool)
    requires i <= |name|
    ensures ok <==> forall j | i <= j < |name| :: IsNameChar(name[j])
    decreases |name| - i
  {
    if i == |name| then true
    else
      var c := name[i];
      if c as int > MaxAscii || (!IsAsciiLetter(c) && !IsAsciiDigit(c) && c != '_') then false
      else NameCharsFrom(name, i + 1)
  }

  /** A name is 3 to 16 characters, each an ASCII letter, digit or `_`. */
  function IsValidName(name: string): (ok: bool)
    ensures ok <==> 3 <= |name| <= 16 && forall j | 0 <= j < |name| :: IsNameChar(name[j])
  {
    if |name| < 3 || |name| > 16 then false else NameCharsFrom(name, 0)
  }

  /** The character scan of `IsValidMessage`. */
  function MessageCharsFrom(message: string, i: nat): (ok: bool)
    requires i <= |message|
    ensures ok <==> forall j | i <= j < |message| :: IsPrintableAscii(message[j]) && message[j] != '&'
    decreases |message| - i
  {
    if i == |message| then true
    else
      var c := message[i];
      if c as int > MaxAscii || !IsPrintableAscii(c) || c == '&' then false
      else MessageCharsFrom(message, i + 1)
  }

  /** Chat text is valid when every character is printable ASCII other than `&`. */
  function IsValidMessage(message: string): (ok: bool)
    ensures ok <==> forall j | 0 <= j < |message| :: IsPrintableAscii(message[j]) && message[j] != '&'
  {
    MessageCharsFrom(message, 0)
  }

  /** The empty chat line is valid: nothing in it is rejected. */
  lemma EmptyMessageIsValid()
    ensures IsValidMessage("")
  {
  }

  /** `template` grants `permission` through a `*` at segment `k`. */
  ghost predicate WildcardAt(permission: seq<string>, template: seq<string>, k: nat) {
    && k < |permission|
    && k < |template|
    && template[k] == "*"
    && permission[..k] == template[..k]
  }

  function Min(x: int, y: int): int {
    if x < y then x else y
  }

  /** The loop of `CheckPermission` from segment `i` on. */
  function CheckPermissionFrom(permission: seq<string>, template: seq<string>, i: nat): (ok: bool)
    requires i <= |permission| && i <= |template|
    requires permission[..i] == template[..i]
    requires forall k | 0 <= k < i :: template[k] != "*"
    ensures ok <==> (exists k :: WildcardAt(permission, template, k)) || permission == template
    decreases |permission| - i
  {
    if i == Min(|permission|, |template|) then
      assert |permission| == |template| ==> permission == permission[..i];
      assert |permission| == |template| ==> template == template[..i];
      |permission| == |template|
    else if template[i] == "*" then
      assert WildcardAt(permission, template, i);
      true
    else if permission[i] != template[i] then
      assert forall k | i < k :: WildcardAt(permission, template, k) ==> permission[..k][i] == template[..k][i];
      false
    else
      assert permission[..i + 1] == permission[..i] + [permission[i]];
      assert template[..i + 1] == template[..i] + [template[i]];
      CheckPermissionFrom(permission, template, i + 1)
  }

  /**
   Matches a split permission against one permission template: a `*` reached
   after all earlier segments matched grants everything below it; otherwise the
   two paths must be equal.
   */
  function CheckPermission(permission: seq<string>, template: seq<string>): (ok: bool)
    ensures ok <==> (exists k :: WildcardAt(permission, template, k)) || permission == template
  {
    CheckPermissionFrom(permission, template, 0)
  }

  /** Whether any of `templates[i..]` grants the split permission. */
  function AnyTemplateFrom(split: seq<string>, templates: seq<seq<string>>, i: nat): (ok: bool)
    requires i <= |templates|
    ensures ok <==> exists j | i <= j < |templates| :: CheckPermission(split, templates[j])
    decreases |templates| - i
  {
    if i == |templates| then false
    else if CheckPermission(split, templates[i]) then true
    else AnyTemplateFrom(split, templates, i + 1)
  }

  /**
   The empty permission is always held; otherwise the dotted path is split at
   every `.` and granted when some template of the session matches it.
   */
  function HasPermission(permission: string, templates: seq<seq<string>>): (ok: bool)
    ensures |permission| == 0 ==> ok
    ensures |permission| > 0 ==>
      (ok <==> exists j | 0 <= j < |templates| :: CheckPermission(Text.Split(permission, '.'), templates[j]))
  {
    if |permission| == 0 then true
    else AnyTemplateFrom(Text.Split(permission, '.'), templates, 0)
  }

  /** A wildcard template needs at least one more segment: `core.*` does not grant `core`. */
  lemma WildcardNeedsTail()
    ensures !CheckPermission(["core"], ["core", "*"])
    ensures CheckPermission(["core", "ban"], ["core", "*"])
    ensures CheckPermission(["core", "ban", "ip"], ["core", "*"])
  {
    assert WildcardAt(["core", "ban"], ["core", "*"], 1);
    assert WildcardAt(["core", "ban", "ip"], ["core", "*"], 1);
  }

  /** A template `prefix.*` grants every path that extends `prefix` by at least one segment. */
  lemma WildcardGrantsExtensions(prefix: seq<string>, permission: seq<string>)
    requires |permission| > |prefix|
    requires permission[..|prefix|] == prefix
    ensures CheckPermission(permission, prefix + ["*"])
  {
    var t := prefix + ["*"];
    assert t[..|prefix|] == prefix;
    assert WildcardAt(permission, t, |prefix|);
  }
}

=== FILE: wire.dfy ===
/**
 Fixed-width integers as they appear on the wire and in Go's integer types.
 Dafny integers are unbounded, so every wrap-around of the Go code is written
 out here explicitly.
 */
module Wire {

  type byte = x: int | 0 <= x < 0x100
  type uint16 = x: int | 0 <= x < 0x1_0000

  /** 2^64: the modulus of Go's `uint` on 64-bit targets. */
  const Uint64Modulus: int := 0x1_0000_0000_0000_0000

  type uint64 = x: int | 0 <= x < Uint64Modulus

  /** Go's `x - 1` on a `uint`: wraps from 0 to the largest value. */
  function DecUint64(x: uint64): (r: uint64)
    ensures x > 0 ==> r + 1 == x
    ensures x == 0 ==> r == Uint64Modulus - 1
  {
    if x == 0 then Uint64Modulus - 1 else x - 1
  }

  /** Go's `uint(v)` for an `int16` value: negative values sign-extend. */
  function Int16ToUint(v: int): (r: uint64)
    requires -0x8000 <= v < 0x8000
    ensures v >= 0 ==> r == v
    ensures v < 0 ==> r >= Uint64Modulus - 0x8000
    ensures r == 0 <==> v == 0
  {
    if v < 0 then Uint64Modulus + v else v
  }

  /** Reduction modulo 2^n for uint arithmetic. */
  function WrapUint64(x: int): (r: uint64)
    ensures 0 <= x < Uint64Modulus ==> r == x
  {
    x % Uint64Modulus
  }

  /** Big-endian encoding of a 16-bit field. */
  function BE16(v: uint16): (bs: seq<byte>)
    ensures |bs| == 2
    ensures bs[0] as int * 0x100 + bs[1] as int == v
  {
    var hi := v / 0x100;
    assert hi < 0x100;
    [hi, v % 0x100]
  }

  /** Big-endian decoding of a 16-bit field. */
  function FromBE16(hi: byte, lo: byte): (v: uint16)
    ensures BE16(v) == [hi, lo]
  {
    hi as int * 0x100 + lo as int
  }

  /** Go's `int16(x)` on an integer: keeps the low 16 bits, read as two's complement. */
  function ToInt16(x: int): (r: int)
    ensures -0x8000 <= r < 0x8000
    ensures (x - r) % 0x1_0000 == 0
    ensures -0x8000 <= x < 0x8000 ==> r == x
  {
    var m := x % 0x1_0000;
    if m >= 0x8000 then m - 0x1_0000 else m
  }

  /** 2^32: the modulus of Go's 32-bit integers. */
  const Uint32Modulus: int := 0x1_0000_0000

  /** The value of four big-endian bytes. */
  function FromBE32(bs: seq<byte>): int
    requires |bs| == 4
  {
    ((bs[0] as int * 0x100 + bs[1] as int) * 0x100 + bs[2] as int) * 0x100 + bs[3] as int
  }

  /** Big-endian encoding of a 32-bit field holding `v` modulo 2^32, as `int32(v)` is written. */
  function BE32(v: int): (bs: seq<byte>)
    ensures |bs| == 4
    ensures FromBE32(bs) == v % Uint32Modulus
  {
    var u := v % Uint32Modulus;
    var b3 := u % 0x100;
    var r3 := u / 0x100;
    var b2 := r3 % 0x100;
    var r2 := r3 / 0x100;
    var b1 := r2 % 0x100;
    var b0 := r2 / 0x100;
    assert b0 < 0x100;
    [b0, b1, b2, b3]
  }

  /** Go's float-to-integer conversion: the fraction is discarded, rounding toward zero. */
  function Trunc(r: real): (n: int)
    ensures r >= 0.0 ==> n as real <= r < n as real + 1.0
    ensures r < 0.0 ==> n as real - 1.0 < r <= n as real
  {
    if r >= 0.0 then r.Floor else -((-r).Floor)
  }
}
